=== FILE: README.md ===
# Life Moments — a Dafny model of the client core

Life Moments is a Vue/Pinia web app. Users write "moments" (a title, text, a date, tags and
images), follow each other, and like, comment on and repost moments. Its data lives in a
Supabase backend. Images live in an object bucket. This project models the deterministic
logic around those remote calls:

- the social service (`SupabaseSocialService`): existence-guarded likes, reposts and follows;
  comments; counter RPCs; the following feed; and the three-tier recommendation of users to
  follow;
- the social store: the client's mirror of the feed and its counters, the fetch guards, and
  the list edits after each action;
- the moment service (`SupabaseMomentService`): reading a moment, create with defaults and
  compensating image cleanup, partial update that appends images, delete, and deleting one
  image while keeping the url and key lists in step;
- the moment store: filtering by tags and dates, the sorted tag union, the offline
  short-circuit, and the list edits after each action;
- the profile service and store: reading and editing the signed-in user's profile, null
  counts read as 0, initialise-once, and the displayed-name default;
- the router: the route table's flags and the `beforeEach` redirect decision.

The backend is one immutable value, `Remote.Db`. It holds the rows of every table, the
counters the RPC functions keep, and the set of stored image keys. Every service call is a
function from a `Db` and an `Env` to a `Reply`, which pairs the result (success or the
error thrown) with the `Db` the call leaves behind. An `Env` holds:

- the signed-in user, if any;
- the set of call sites that fail on this invocation;
- the id the backend assigns to a new row;
- the clock value.

The network never runs, so a failure is simply a member of that set. A call site is a kind
of request (any `single()` lookup, any write, an upload). Requests that run many times in one
invocation get one site per target: each counter RPC, and the `hasLiked` and `hasReposted`
read of each moment. Those fail independently of one another. A store action is a
function of the store state plus the same inputs. It returns what the action returns, the
new state and the new `Db`.

Modules and files:

| file | module | models |
|---|---|---|
| wrappers.dfy | Wrappers | `Option`, `Result` |
| seqs.dfy | Seqs | filter, count, find, dedup, map, remove-at and their lemmas |
| strings.dfy | Strings | JavaScript string order; a sorted, repetition-free insert |
| sorting.dfy | Sorting | stable descending sort by an integer key (`Array.prototype.sort` and the backend's `order`) |
| remote.dfy | Remote | rows, the backend state, call failures, counters, `maybeSingle` |
| social_service.dfy | SocialService | src/services/social.ts, mutations and feed |
| recommend.dfy | Recommend | src/services/social.ts, `getRecommendedUsers` |
| social_store.dfy | SocialStore | src/stores/social.ts |
| moment_service.dfy | MomentService | src/services/moment.ts |
| moment_store.dfy | MomentStore | src/stores/moment.ts |
| profile_service.dfy | ProfileService | src/services/profile.ts |
| profile_store.dfy | ProfileStore | src/stores/profile.ts |
| router.dfy | Router | src/router/index.ts |

Where the written description of the app and the code differ, the model follows the code:

- counts change only after the service call succeeds;
- nothing is updated optimistically and nothing is rolled back;
- unlike and unfollow do not check that a row exists;
- in the recommendation, a failed read of the follows or of the co-followers reads as "no
  rows" and falls through to the next tier, instead of raising an error.

## Model

| member | source | states |
|---|---|---|
| Remote.Rpc | src/services/social.ts:114-115 | A counter RPC adds its delta to one counter and leaves every other counter and every table alone. A failed RPC changes nothing and raises nothing, since its result is never read. Each counter's call fails or goes through on its own. |
| Remote.ProfileOf | src/services/social.ts:576 | The `profiles:following_id` join yields a profile row with exactly that id, and yields null only when no such row exists. |
| SocialService.LikeMoment | src/services/social.ts:83-116 | Signed out is an error. An existing like, as `maybeSingle` sees it, is refused with the state untouched. Otherwise the like row is appended and the like counter goes up by one (unless the RPC fails). Success holds exactly when signed in, not already liked and the insert works. Every other counter keeps its value. |
| SocialService.UnlikeMoment | src/services/social.ts:121-141 | Deletes exactly the caller's like rows for the moment, with no existence check. On every successful delete the decrement RPC runs. Success does not depend on a like existing. Every other counter keeps its value. |
| SocialService.HasLiked | src/services/social.ts:146-161 | True only when signed in, this moment's read works and the caller's like row for the moment is in the table. True whenever exactly one such row exists, which is what `maybeSingle` needs. Never an error. |
| SocialService.HasLikedIffRow | src/services/social.ts:146-161 | With likes unique and a working read, `hasLiked` is true exactly when the caller's like row is in the table. |
| SocialService.HasLikedAfter | src/services/social.ts:83-161 | After a like goes in, `hasLiked` is true for the same user; after an unlike goes in, it is false. |
| SocialService.CreateComment | src/services/social.ts:183-209 | Appends one comment with the backend-assigned id and time, then increments that moment's comment counter. Signed out or a failed insert leaves the state as it was. On success every other counter keeps its value. |
| SocialService.CommentById | src/services/social.ts:221-226 | `single()` by id finds a comment exactly when the read works and one comment has that id. |
| SocialService.DeleteComment | src/services/social.ts:214-245 | A missing comment is an error. Otherwise the caller's rows with that id are deleted and the counter of the comment's own moment is decremented. Deleting another user's comment deletes nothing yet succeeds and still decrements. Every other counter keeps its value. |
| SocialService.RepostText | src/services/social.ts:295 | The stored repost text: an absent or empty text is stored as null, any other text unchanged. |
| SocialService.CreateRepost | src/services/social.ts:270-308 | Refuses a second repost with the state untouched; otherwise appends the repost and increments the repost counter. Every other counter keeps its value. |
| SocialService.RepostById | src/services/social.ts:320-325 | As for comments: found exactly when the read works and one repost has the id. |
| SocialService.DeleteRepost | src/services/social.ts:313-344 | A missing repost is an error. Otherwise the caller's repost rows with that id are deleted and the repost counter of the repost's moment is decremented. Every other counter keeps its value. |
| SocialService.HasReposted | src/services/social.ts:349-364 | True only when signed in, this moment's read works and the caller has a repost row for the moment. True whenever exactly one such row exists. |
| SocialService.HasRepostedIffRow | src/services/social.ts:349-364 | With reposts unique and a working read, `hasReposted` is true exactly when the caller has a repost row for the moment. |
| SocialService.HasRepostedAfter | src/services/social.ts:270-364 | After a repost goes in, `hasReposted` is true for the same user. |
| SocialService.FollowUser | src/services/social.ts:389-427 | Self-follow is refused before any read. An existing follow is refused with the state untouched. Otherwise the row is appended, the target's follower counter goes up unless its call fails, and the caller's following counter goes up unless its own, separate call fails. Every counter other than these two keeps its value. |
| SocialService.UnfollowUser | src/services/social.ts:432-453 | Deletes the caller's rows for the target without checking, then calls for both counters to go down. Each decrement fails or goes through on its own. Every counter other than these two keeps its value. |
| SocialService.HasFollowed | src/services/social.ts:458-473 | True only when signed in, the read works and the caller follows the target. True whenever exactly one follow row for the pair exists. |
| SocialService.HasFollowedIffRow | src/services/social.ts:458-473 | With follows unique and a working read, `hasFollowed` is true exactly when the caller follows the target. |
| SocialService.HasFollowedAfter | src/services/social.ts:389-473 | After a follow goes in, `hasFollowed` is true for the same user; after an unfollow goes in, it is false. |
| SocialService.FollowingIds | src/services/social.ts:619-629 | The followed ids are exactly the targets of the caller's follow rows. |
| SocialService.MomentsBy | src/services/social.ts:632-639 | The feed query returns the moments whose author is followed, newest first: each such row as many times as the table holds it, and no other row. |
| SocialService.Annotate | src/services/social.ts:646-656 | One entry per row in the same order (the entries' rows are the input), each carrying its author's profile and the caller's like/repost flags for that moment; a sorted input stays sorted. |
| SocialService.FailedReadClearsOneFlag | src/services/social.ts:646-656 | A failed like read for one moment turns only that moment's liked flag false; every other entry and field of the feed is unchanged. |
| SocialService.GetFollowingMoments | src/services/social.ts:611-659 | Signed out is an error, and the only other error is a failed feed query. Every entry is a moment by a followed user, newest first, with its author's profile and the caller's like/repost flags. Once the follows are read, every followed user's moment is in the feed. Each row occurs as often as in the table; a failed read of the follows gives an empty feed. |
| SocialService.LikeKeepsLikesUnique | src/services/social.ts:90-100 | With a working lookup, liking never creates a second row for the same (user, moment). |
| SocialService.RepostKeepsRepostsUnique | src/services/social.ts:277-287 | With a working lookup, reposting never creates a second row for the same (user, moment). |
| SocialService.FollowKeepsFollowsUnique | src/services/social.ts:400-410 | With a working lookup, following never creates a second row for the same pair of users. |
| SocialService.LikeTwiceWhenLookupFails | src/services/social.ts:91-100 | The guard is only as good as its read: when the lookup fails, a second like of the same moment goes in and the likes are no longer unique. |
| SocialService.SecondLikeRefused | src/services/social.ts:98-100 | After a like went in, liking again is refused with `AlreadyLiked` and changes nothing. |
| SocialService.RpcCancels | src/services/social.ts:115-140 | An increment of a counter followed by a decrement of it changes no table and no other counter. The counter moves by what the two calls applied: one up if the first went through, one down if the second did. |
| SocialService.DriftCancels | src/services/social.ts:115-140 | The counters come back exactly when, for every counter touched, the increment and the decrement both failed or both went through. |
| SocialService.LikeAppends | src/services/social.ts:103-115 | A like of a moment not yet liked appends exactly its row. |
| SocialService.UnlikeRemoves | src/services/social.ts:129-140 | An unlike removes exactly the caller's row for the moment. |
| SocialService.LikeThenUnlike | src/services/social.ts:83-141 | Liking and then unliking, as the same user, a moment not yet liked restores every table. The like counter drifts by one exactly when one of its two calls failed and the other did not. |
| SocialService.FollowAppends | src/services/social.ts:413-426 | Following someone not yet followed appends exactly that row. |
| SocialService.UnfollowRemoves | src/services/social.ts:440-452 | Unfollowing removes exactly the caller's row for the target. |
| SocialService.FollowThenUnfollow | src/services/social.ts:389-453 | Following and then unfollowing someone not yet followed restores every table. Each of the two counters comes back, or drifts by one, according to its own two calls. |
| SocialService.RpcPairsCancel | src/services/social.ts:424-452 | Two counter increments then the two matching decrements move only those two counters, each by its own calls' drift. |
| SocialService.FollowUnfollowDrift | src/services/social.ts:413-453 | The two counter calls fail independently: when only the unfollow's call on the caller's following count fails, the follow row is gone again, the target's follower count is back, and the following count stays one too high. |
| SocialService.UnlikeWithoutLike | src/services/social.ts:121-141 | Unliking a moment never liked succeeds and, when its counter call goes through, still lowers its like counter. |
| SocialService.UnfollowWithoutFollow | src/services/social.ts:432-453 | Unfollowing someone not followed succeeds and, when both counter calls go through, still lowers both counters. |
| SocialService.CommentThenDelete | src/services/social.ts:183-245 | A comment created under a fresh id and deleted by that id, as the same user, restores every table. The comment counter drifts as for likes. |
| SocialService.FindsUniqueComment | src/services/social.ts:221-226 | A comment whose id no other comment has is what the lookup finds. |
| SocialService.DeleteFreshComment | src/services/social.ts:214-245 | Deleting the caller's uniquely identified comment removes exactly it and decrements its moment's counter. |
| SocialService.DeleteOthersComment | src/services/social.ts:232-244 | Deleting another user's comment removes nothing and succeeds. When the counter call goes through, it still decrements the counter. |
| SocialService.RepostThenDelete | src/services/social.ts:270-344 | Reposting a moment not yet reposted and deleting the repost by its fresh id, as the same user, restores every table. The repost counter drifts as for likes. |
| SocialService.FindsUniqueRepost | src/services/social.ts:320-325 | A repost whose id no other repost has is what the lookup finds. |
| SocialService.DeleteFreshRepost | src/services/social.ts:313-344 | Deleting the caller's uniquely identified repost removes exactly it and decrements its moment's counter. |
| SocialService.LikeIgnoresCounters | src/services/social.ts:103-115 | Whether the counter calls fail changes neither the outcome of a like or unlike nor the rows it writes. |
| SocialService.FollowIgnoresCounters | src/services/social.ts:413-426 | Whether the counter calls fail changes neither the outcome of a follow or unfollow nor the rows it writes. |
| SocialService.CommentIgnoresCounters | src/services/social.ts:191-206 | Whether the counter calls fail changes neither the outcome of a comment or its deletion nor the rows it writes. |
| SocialService.RepostIgnoresCounters | src/services/social.ts:290-305 | Whether the counter calls fail changes neither the outcome of a repost or its deletion nor the rows it writes. |
| Recommend.RecentProfiles | src/services/social.ts:526-539 | First tier: at most `limit` profiles, none the caller's, newest first. A profile left out is no newer than any kept one. With fewer than `limit` kept, all other profiles are kept. |
| Recommend.ActiveProfiles | src/services/social.ts:552-566 | Second tier: at most `limit` profiles, neither the caller nor anyone followed, most recently updated first; the cut keeps the most recent; short lists are complete. |
| Recommend.CoFollowers | src/services/social.ts:546-550 | The co-followers are exactly the users other than the caller with a row pointing at someone the caller follows. |
| Recommend.PickRows | src/services/social.ts:572-579 | The third query keeps exactly the rows written by a co-follower whose target is neither the caller nor followed by the caller. |
| Recommend.CandidateRows | src/services/social.ts:572-580 | The same rows, as a permutation, newest first. |
| Recommend.WeightOf | src/services/social.ts:587-591 | `userCounts[t]` is zero exactly when no candidate row points at `t`. |
| Recommend.Targets | src/services/social.ts:594-600 | The `Map` keys: each target once, in order of first occurrence. |
| Recommend.Candidates | src/services/social.ts:594-600 | One entry per key, carrying the key's joined profile and its weight. |
| Recommend.CandidatesDistinct | src/services/social.ts:594-600 | No candidate appears twice. |
| Recommend.CandidateFor | src/services/social.ts:594-600 | Every target of the rows has its candidate entry. |
| Recommend.Ranked | src/services/social.ts:603-605 | At most `limit` entries, heaviest first, distinct targets, each drawn from the candidate rows. |
| Recommend.RankedKeepsHeaviest | src/services/social.ts:603-605 | A target cut off weighs no more than any target kept. |
| Recommend.RankedComplete | src/services/social.ts:603-605 | With fewer than `limit` entries, every target is suggested. |
| Recommend.RankedKeepsTieOrder | src/services/social.ts:594-605 | Entries of equal weight keep their first-occurrence order: the sort is stable. |
| Recommend.ProfileIds | src/services/social.ts:539-566 | A profile listing's ids avoid whatever its profiles avoid, and are distinct when the profiles are. |
| Recommend.NewestTier | src/services/social.ts:526-540 | The first tier's ids: at most `limit`, never the caller, distinct when profile ids are unique. |
| Recommend.ActiveTier | src/services/social.ts:552-567 | The second tier's ids: as above, and never someone followed. |
| Recommend.WeightedTier | src/services/social.ts:569-606 | The third tier's ids: at most `limit`, distinct, never the caller or someone followed, each with its own profile. |
| Recommend.WeightedTargetsAllowed | src/services/social.ts:579 | No weighted suggestion is the caller or someone the caller follows. |
| Recommend.RankedJoinsMatch | src/services/social.ts:576-597 | Each weighted suggestion carries the profile of its own target. |
| Recommend.GetRecommendedUsers | src/services/social.ts:513-606 | Signed out is an error, and the only other errors are the failing listing queries. Every answer has at most `limit` ids and never the caller. Once the follows are read, followed users are never suggested. Weighted answers are distinct. |
| Recommend.PickedCount | src/services/social.ts:570-591 | Among rows with unique (follower, target) pairs, the picked rows pointing at `t` number exactly the distinct co-followers backing `t`. |
| Recommend.WeightCountsBackers | src/services/social.ts:587-591 | Because follows are unique, a suggestion's weight is the number of distinct co-followers who follow it. |
| Recommend.TierSelection | src/services/social.ts:521-606 | Exactly one tier answers: the first when the caller follows nobody (or that read fails), the second when nobody else follows the same users (or that read fails), the third otherwise. |
| Recommend.NoCandidateRows | src/services/social.ts:572-580 | When every co-follower row points at the caller or someone followed, no row is picked. |
| Recommend.WeightedTierMayBeEmpty | src/services/social.ts:569-606 | The third tier can return the empty list, and then the answer is empty: there is no fall-through. |
| Recommend.WeightedTierReached | src/services/social.ts:546-606 | With a co-follower and working reads, the third tier answers. |
| Sorting.SortDesc | src/services/social.ts:603-604 | The sort is a permutation of its input and ordered by weight, largest first. |
| Sorting.SortStable | src/services/social.ts:603-604 | For every weight, the entries of that weight keep their input order (`Array.prototype.sort` is stable). |
| Sorting.TopBy | src/services/social.ts:603-605 | Sorting then `slice(0, limit)` keeps the `limit` heaviest entries, in order, and all of them when fewer. |
| Sorting.TopByStable | src/services/social.ts:603-605 | The cut keeps equal-weight entries in their input order. |
| Strings.StrictlySortedUnique | src/stores/moment.ts:57 | Two strictly sorted string lists with the same elements are equal. |
| Strings.InsertStr | src/stores/moment.ts:53-57 | Adding a tag to a sorted, repetition-free list keeps it sorted and adds exactly that tag. |
| SocialStore.Entries | src/stores/social.ts:50-51 | The stored list has one entry per suggested id, with that id, and with its weight for weighted answers. Each entry carries the suggestion's own joined profile, and a plain profile answer carries no weight. |
| SocialStore.Bump | src/stores/social.ts:115 | Up adds one. Down subtracts one from a count of at least one and gives 0 otherwise (`Math.max(0, count - 1)`). The comment and repost counts (lines 181 and 248) follow the same rule. |
| SocialStore.BumpRoundTrip | src/stores/social.ts:115 | Down undoes up on every count that is not negative. |
| SocialStore.BumpFloor | src/stores/social.ts:108-116 | Down from zero stays zero; a count that is not negative stays so. The comment and repost counts (lines 181 and 248) follow the same rule. |
| SocialStore.UpdateLikeStatus | src/stores/social.ts:110-117 | Only the first entry for the moment changes: its flag is set and its count bumped. The list has the same length, and nothing changes when there is no entry. |
| SocialStore.UpdateCommentCount | src/stores/social.ts:177-183 | Only the first entry for the moment changes: its comment count is bumped. |
| SocialStore.UpdateRepostStatus | src/stores/social.ts:243-250 | Only the first entry for the moment changes: its repost flag is set and its count bumped. |
| SocialStore.UpdatesKeepCountsNonNegative | src/stores/social.ts:108-116 | Every status or count update keeps all mirrored counts non-negative. The comment and repost counts (lines 181 and 248) follow the same rule. |
| SocialStore.UpdatesKeepIds | src/stores/social.ts:108-116 | Updates keep every entry's id, so later updates find the same entry. The comment and repost updates (lines 179 and 245) find entries the same way. |
| SocialStore.LikeStatusRoundTrip | src/stores/social.ts:110-117 | Liking then unliking, in the mirror, a moment shown as not liked restores the feed. |
| SocialStore.RepostStatusRoundTrip | src/stores/social.ts:243-250 | Reposting then un-reposting, in the mirror, a moment shown as not reposted restores the feed. |
| SocialStore.CommentCountRoundTrip | src/stores/social.ts:177-183 | A comment counted up then down restores the feed. |
| SocialStore.BeginFetchFollowing | src/stores/social.ts:23-31 | A fetch starts only when none is in flight and either forced or the list is empty; starting sets the loading flag. |
| SocialStore.EndFetchFollowing | src/stores/social.ts:33-40 | After the fetch the loading flag is off; the list is the result on success and unchanged on failure. |
| SocialStore.FollowingSingleFlight | src/stores/social.ts:24 | While one fetch is in flight, every other one, forced or not, is turned away. |
| SocialStore.FetchFollowingMoments | src/stores/social.ts:23-41 | Run to completion: a no-op when turned away, else the list becomes the service's feed or stays on error. |
| SocialStore.NoRefetchWhenLoaded | src/stores/social.ts:27-29 | Once the feed holds entries, an unforced fetch changes nothing, whatever the backend holds. |
| SocialStore.BeginFetchRecommended | src/stores/social.ts:44-47 | Only one fetch of recommendations at a time. |
| SocialStore.FetchRecommendedUsers | src/stores/social.ts:44-57 | The list becomes the service's suggestions on success and stays on error; the flag ends off. |
| SocialStore.RecommendedAfterFetch | src/stores/social.ts:44-57 | After a successful fetch the list has at most `limit` entries, none for the caller. |
| SocialStore.FetchComments | src/stores/social.ts:120-135 | Turned away while loading; otherwise the list and the answer are the result on success, and on failure the answer is empty and the list unchanged. |
| SocialStore.FetchReposts | src/stores/social.ts:186-201 | The same for reposts. |
| SocialStore.LikeMoment | src/stores/social.ts:80-92 | True and the mirror updated exactly when the service call succeeds; otherwise false and the store untouched. |
| SocialStore.UnlikeMoment | src/stores/social.ts:95-107 | The same, with the like flag cleared and the count bumped down. |
| SocialStore.CreateComment | src/stores/social.ts:138-156 | On success the new comment goes in front and the moment's count is bumped; on failure null and the store untouched. |
| SocialStore.DeleteComment | src/stores/social.ts:159-174 | On success every listed comment with that id goes, every other comment keeps each of its copies, and the order is kept. The count of the moment the caller named is bumped down. |
| SocialStore.CreateRepost | src/stores/social.ts:204-222 | On success the repost goes in front and the moment is marked reposted with its count bumped. |
| SocialStore.DeleteRepost | src/stores/social.ts:225-240 | On success every listed repost with that id goes, every other repost keeps each of its copies, the order is kept, and the moment is marked not reposted. |
| SocialStore.CommentListRoundTrip | src/stores/social.ts:138-174 | Commenting and then deleting that comment by its new id, as the same user, restores the store exactly and every remote table. |
| SocialStore.RepostListRoundTrip | src/stores/social.ts:204-240 | Reposting a moment shown as not reposted and then deleting that repost restores the store exactly and every remote table. |
| SocialStore.DropRecommended | src/stores/social.ts:258-261 | The list less its first entry for the user: the entries before it, then the entries after it. The list is unchanged when no entry is for the user. |
| SocialStore.DropRecommendedRemovesUser | src/stores/social.ts:258-261 | With at most one entry per user, none is left for the followed user. |
| SocialStore.FollowUser | src/stores/social.ts:253-271 | On success the user's entry leaves the recommendations and the feed is refetched with force; on failure false and the store untouched. |
| SocialStore.FollowRefreshesFeed | src/stores/social.ts:255-264 | After a successful follow with nothing else loading, the feed is the service's feed of the new backend state. |
| SocialStore.UnfollowUser | src/stores/social.ts:274-286 | On success exactly the moments whose author is the user leave the feed. Every other entry keeps each of its copies, in order. |
| SocialStore.UnfollowDropsAuthorsMoments | src/stores/social.ts:279 | For a feed built by the service, the moments that remain are exactly those not written by the unfollowed user. |
| MomentService.Transform | src/services/moment.ts:284-299 | Every column but the owner, each unchanged: id, title, content, date, tags, both image lists, both timestamps and the three counts. |
| MomentService.TransformForgetsOnlyOwner | src/services/moment.ts:284-299 | Two rows look the same to the client exactly when they differ at most in their owner. |
| MomentService.GetById | src/services/moment.ts:28-43 | A failed read is an error. Zero or several rows read as null (PGRST116). Otherwise the result is that row, transformed. |
| MomentService.FoundRow | src/services/moment.ts:28-43 | What `getById` finds is the one row with that id. |
| MomentService.DropImages | src/services/moment.ts:180-186 | A bucket deletion removes exactly the given keys; a failed one removes nothing. |
| MomentService.NewRow | src/services/moment.ts:66-78 | The inserted row: the caller as owner, the upload's urls and keys, tags defaulting to `[]`, all three counts 0. |
| MomentService.Create | src/services/moment.ts:48-104 | Upload first, then the user check, then the insert. Success holds exactly when all three work, and then the row is appended. A failed insert deletes the uploaded objects. A missing user leaves them in the bucket. |
| MomentService.CreateCleanup | src/services/moment.ts:54-96 | Uploaded objects outlive a failed create exactly when the user was missing or the compensating deletion failed too. |
| MomentService.Revise | src/services/moment.ts:127-139 | Each of title, content, date and tags is replaced only when given; the image lists and `updated_at` are always written; other columns are kept. |
| MomentService.ReviseRows | src/services/moment.ts:142-145 | `update().eq('id', id)` rewrites exactly the rows with that id. |
| MomentService.Update | src/services/moment.ts:109-156 | A missing moment is an error with nothing changed. On success the new urls and keys come after the old ones. Only the new uploads enter the bucket, and a failed write keeps them. |
| MomentService.UpdateAppends | src/services/moment.ts:118-139 | After an update, images and keys are the old lists followed by the uploads, so equal lengths stay equal. Fields not given keep their values. |
| MomentService.ReviseAppends | src/services/moment.ts:118-139 | Revising one row with its image and key lists extended by the uploads appends exactly the uploads, keeps the fields the request leaves out, and never changes the id or owner. |
| MomentService.Delete | src/services/moment.ts:161-194 | A missing moment is an error. Otherwise exactly the rows with that id go, then the moment's objects are deleted; a failure of that deletion is swallowed. |
| MomentService.DeleteImage | src/services/moment.ts:199-244 | A missing moment or an index outside `[0, images.length)` is an error with nothing changed. Otherwise both lists lose the element at the index and the object under that key is deleted, best effort. |
| MomentService.DeleteImageLockstep | src/services/moment.ts:214-215 | `deleteImage` removes the same index from both lists, keeps the rest in order, and keeps equal lengths equal. |
| MomentService.ShrinkInStep | src/services/moment.ts:214-224 | The row written by `deleteImage` is the old row less one image and key. |
| MomentService.CreatedIsFound | src/services/moment.ts:28-104 | A moment created under a fresh id, with or without images, is what `getById` then finds. |
| MomentService.CreateThenDelete | src/services/moment.ts:48-194 | A moment created under a fresh id, its keys new to the bucket, and deleted by its id restores the moments table. The bucket is restored too, unless deleting the objects failed; then the uploads stay. |
| MomentService.DeleteAppended | src/services/moment.ts:161-194 | Deleting a row just appended under a fresh id restores the table and takes its keys out of the bucket, unless that deletion failed. |
| MomentStore.FilterIf | src/stores/moment.ts:23-35 | A conditional filter keeps order. When on, it keeps every copy of each passing element and no copy of the others; when off, it is the list itself. |
| MomentStore.FilteredMoments | src/stores/moment.ts:19-38 | An order-preserving subsequence. A moment is kept iff it shares a selected tag (when tags are selected) and start ≤ date ≤ end (when a range is set), and a kept moment keeps all its copies. With neither, the list itself. |
| MomentStore.RecentMoments | src/stores/moment.ts:42-50 | An order-preserving subsequence holding the moments dated on or after the cutoff, each as many times as the list holds it. |
| MomentStore.AddTags | src/stores/moment.ts:55 | Adding tags keeps the list strictly sorted and adds exactly those tags. |
| MomentStore.CollectTags | src/stores/moment.ts:54-56 | The union of the moments' tags, strictly sorted. |
| MomentStore.AllTags | src/stores/moment.ts:52-58 | Strictly sorted, and exactly the tags of some moment. |
| MomentStore.AllTagsDistinct | src/stores/moment.ts:53-57 | No tag is listed twice. |
| MomentStore.AllTagsCanonical | src/stores/moment.ts:52-58 | The tag list depends only on which moments are held, not on their order. |
| MomentStore.FetchMoments | src/stores/moment.ts:60-75 | Offline with moments held: no change. On failure: no change. Otherwise the list becomes the answer. Nothing but the list changes. |
| MomentStore.OfflineKeepsLoaded | src/stores/moment.ts:60-92 | Offline with moments loaded, `fetchMoments` and `fetchMomentsByTags([])` leave the store as it is, whatever the service would answer. Moments loaded online are kept by a later offline fetch. |
| MomentStore.FetchMomentsByDateRange | src/stores/moment.ts:77-87 | On success the list and the range are both set; on failure nothing changes. |
| MomentStore.FetchMomentsByTags | src/stores/moment.ts:89-103 | No tags delegates to `fetchMoments` and leaves the selected tags. Otherwise on success the list and the tags are set, and on failure nothing changes. |
| MomentStore.SetFilter | src/stores/moment.ts:176-192 | "all" ends in the same state as `clearFilters`: tags and range are cleared and the list is refetched, keeping the old list when the fetch fails or when offline with moments loaded. "recent" fetches the last thirty days and sets that range, and when that fetch fails only the mode changes. "tagged" only records the mode. |
| MomentStore.ClearFilters | src/stores/moment.ts:194-199 | Mode "all", no tags, no range, and the list refetched (kept when offline or on failure). |
| MomentStore.ClearedShowsAll | src/stores/moment.ts:178-198 | After clearing (or choosing "all") the view shows every moment held. |
| MomentStore.CreateMoment | src/stores/moment.ts:105-117 | On success the new moment goes in front; on failure the list is unchanged. |
| MomentStore.Refresh | src/stores/moment.ts:124-130 | The first entry with the id is replaced by a re-read of the moment; no entry, or a re-read that finds nothing, leaves the list. The length never changes. |
| MomentStore.UpdateMoment | src/stores/moment.ts:119-138 | A failed update leaves the list and raises the error. On success the list is refreshed in place. |
| MomentStore.DeleteMoment | src/stores/moment.ts:140-153 | On success every entry with the id goes. Every other entry keeps each of its copies, in order. |
| MomentStore.DeleteMomentImage | src/stores/moment.ts:155-174 | Like `UpdateMoment`, for an image deletion. |
| MomentStore.UpdateReplacesInPlace | src/stores/moment.ts:124-129 | An update changes at most the first entry for the moment and keeps the length. |
| MomentStore.DeleteImageReplacesInPlace | src/stores/moment.ts:160-165 | An image deletion changes at most the first entry for the moment and keeps the length. |
| MomentStore.CreateThenDeleteMoment | src/stores/moment.ts:105-153 | A moment created, with or without images, and deleted by its id leaves the list as it was. |
| MomentStore.TotalCountAfterEdits | src/stores/moment.ts:40-174 | `totalCount` goes up by one after a created moment and down by the number of entries with the id after a deletion. An update or an image deletion keeps it, and a failed edit changes nothing. |
| ProfileService.Transform | src/services/profile.ts:101-111 | Every column unchanged, except that a null follower or following count becomes 0. |
| ProfileService.TransformConflatesNullAndZero | src/services/profile.ts:107-108 | Two rows look the same exactly when they agree on all columns but the counts and on each count with null read as 0. |
| ProfileService.GetCurrentProfile | src/services/profile.ts:36-57 | Signed out is an error; a failed read is an error; zero or several rows read as null (PGRST116); otherwise the caller's row, transformed. |
| ProfileService.UpdateProfile | src/services/profile.ts:62-96 | Signed out is an error before any upload. A picked avatar is uploaded first. Then exactly the caller's row is updated, with a given name and a picked avatar's url. Success needs exactly one row. On failure no row changes, but an uploaded avatar stays. |
| ProfileService.UpdateChangesOnlyGivenFields | src/services/profile.ts:69-81 | A successful update changes only the caller's row: a given name (even empty) replaces the old one, a picked avatar replaces the url, and every other column is kept. |
| ProfileService.UpdateThenGet | src/services/profile.ts:36-96 | After a successful update, reading the profile again returns exactly what the update returned. |
| ProfileStore.Username | src/stores/profile.ts:19 | The name shown is the profile's name when present and not empty, else "用户". |
| ProfileStore.AvatarUrl | src/stores/profile.ts:20 | The avatar url shown is the profile's url when present, else the empty string. |
| ProfileStore.Initialize | src/stores/profile.ts:25-39 | A no-op once initialised. On success the profile (even null) is stored and the store becomes initialised. On failure the store is unchanged. |
| ProfileStore.InitializeOnce | src/stores/profile.ts:26-32 | After a successful initialisation every later one is a no-op; the store stays uninitialised exactly when the read failed. |
| ProfileStore.UpdateProfile | src/stores/profile.ts:44-60 | `success` is true exactly when the service call succeeds, and then the store holds the returned profile; otherwise the store is unchanged. |
| ProfileStore.UpdateShowsStored | src/stores/profile.ts:44-52 | After a successful edit, a fresh initialisation reads back the stored profile, a new non-empty name is shown, and a new avatar is shown. |
| ProfileStore.Reset | src/stores/profile.ts:65-68 | No profile, not initialised, so the default name and an empty avatar are shown. |
| ProfileStore.ResetThenInitialize | src/stores/profile.ts:25-68 | After a reset the next initialisation reads the backend afresh, as on first start. |
| Router.MatchIn | src/router/index.ts:9-34 | A record is matched exactly when it is in the table and its path matches: ASCII case ignored and one trailing slash optional (the router's defaults). |
| Router.Matched | src/router/index.ts:46-47 | `to.matched` holds exactly the table's records whose path matches. |
| Router.SignInIsGuestOnly | src/router/index.ts:10-15 | Every spelling of `/auth` the router matches is for guests only. |
| Router.SessionPage | src/router/index.ts:16-33 | Every spelling of `/`, `/moments` and `/settings` the router matches needs a session and is not for guests. |
| Router.PathsDisjoint | src/router/index.ts:9-34 | No path matches two different records of the table. |
| Router.UnknownPath | src/router/index.ts:9-34 | A path no record matches has no matched records. |
| Router.TargetsMatch | src/router/index.ts:51-54 | The two redirect targets match their own records. |
| Router.Decide | src/router/index.ts:46-57 | Redirect to `/auth` exactly when the page needs a session and there is none. Redirect to `/` exactly when the page is for guests and the user is signed in, and the first check does not apply. Proceed otherwise. |
| Router.AuthCheckedFirst | src/router/index.ts:49-54 | A page flagged both ways sends a signed-out user to sign in and a signed-in user home: the session check comes first. |
| Router.RedirectsSettle | src/router/index.ts:49-57 | A redirect never loops: the page it leads to lets the same user in. |
| Router.Guard | src/router/index.ts:38-58 | The auth store is initialised first when it is not yet, and the decision uses the state that results. |
| Router.GuardOverTable | src/router/index.ts:9-58 | Over the table: signed out is sent to sign in from every spelling of a page but `/auth`, signed in is sent home from any spelling of `/auth`, and paths no record matches proceed. |
| Router.MixedCaseTrailingSlashGuarded | src/router/index.ts:28-51 | `/Settings/` is the settings page to the router, so a signed-out user is sent to sign in from it. |

## Left out

- I/O. The network, the Supabase client, the Cloudflare R2 bucket code and the RPC function
  bodies are not part of this model. A call's failure is a member of `Env.failing`. The
  bucket's answer to an upload (urls and keys) is a parameter. Counters are an abstract map
  that the RPCs change by ±1.
- Timestamps. Clock values and `updated_at`/`created_at` are integers taken from `Env.now`.
  The cutoff and range dates of `recentMoments` and `setFilter('recent')` are parameters.
  The avatar's object key (the clock as a string) is a parameter.
- `navigator.onLine` is a boolean parameter. `afterInit`, the auth state once the auth store
  has initialised, is a parameter; the auth store is code this model cannot see.
- `getAll`, `getByDateRange`, `searchByTags`, `getMomentComments` and `getMomentReposts` are
  plain server-side queries. The stores take their results as parameters. `getMomentLikes`,
  `getFollowings` and `getFollowers` have no caller in the modelled core and are left out.
- Sub-selects. The `profiles:user_id (...)` sub-selects of the comment and repost listings,
  and the `transform*FromSupabase` helpers of the social service, only reshape rows.
  Comments and reposts are modelled as their rows. Two more column projections are modelled
  as whole `ProfileRow`s: the feed's `profiles:user_id (id, username, avatar_url)` join
  (`Remote.ProfileOf`, `SocialService.Annotate`), and the five-column profile selects
  (`id, username, avatar_url, follower_count, following_count`) of the recommendation
  tiers. The model's entries therefore carry more columns than the app's. Only the
  backend's ordering (by `created_at` or `updated_at`) reads those columns, as it does in
  the app.
- `Promise.all` in `getFollowingMoments` is modelled as a sequential, order-preserving map. The reads change no table and each has its own call site, so the order makes no difference.
- The store's `hasLiked`, `hasReposted` and `checkFollowStatus` map a thrown error to
  `false`. The service functions they wrap already answer `false` instead of throwing in
  this model, so the wrappers are the service functions.
- The `loading` flags of the moment and profile stores, toast messages, console logging and
  Vue reactivity. The social store's loading flags are modelled, because they guard fetches.
- Async interleaving. Each store action runs to completion against one backend state and
  one `Env`. The moment store's re-read after an edit takes its own `Env` (`reread`). Two
  actions are never interleaved.
- Tie order. The backend's `order(...)` is modelled as a stable sort of the table's natural
  order. Postgres leaves the order of ties unspecified.
- PostgREST behaviour:
  - The `in`-list filters built with quoted ids are modelled as the exclusion they are meant
    to be. How the backend parses those lists is outside the model.
  - A `single()` update that meets zero or several rows is modelled as rejected with no row
    changed.
  - An update with an empty payload is modelled as changing no column.
  - Database triggers (for example on `updated_at` of `profiles`) are not modelled.
- `limit` in `getRecommendedUsers` is a `nat`. A negative limit, which `slice` and the
  backend would each read their own way, is not modelled.
- SocialStore.Entries: when a weighted suggestion's joined profile is null, the stored
  entry has no id (the spread of `null` yields only `weight`). The id-match part of the
  contract is stated only for answers whose joined profiles match their targets.
- MomentService.CreateCleanup: states the cleanup only for an upload that answered at least
  one key. An empty key list skips the deletion and leaves nothing to clean up.
- SocialStore.UpdateLikeStatus: the `(count || 0)` fallback for a missing count is not
  modelled. src/lib/supabase.ts declares the three counts as non-null numbers, so the model
  holds them as integers.
- SocialStore.UpdateCommentCount: the same `(count || 0)` fallback is not modelled.
- SocialStore.UpdateRepostStatus: the same `(count || 0)` fallback is not modelled.
- MomentService.DeleteImage: the index is an integer. A fractional JavaScript index passes
  the range check, removes nothing from either list and deletes the object under
  `undefined`; that case is not modelled.
- MomentService.DropImages: deleting a key the bucket does not hold is modelled as a no-op.
  So is the deletion `deleteImage` requests when the key list is shorter than the url list;
  the bucket code that would receive `undefined` is not part of this model.
- Strings.StrLt: compares strings by Unicode code point. JavaScript compares UTF-16 code
  units, and the two orders differ for characters above U+FFFF. This affects the tag order
  and the date comparisons only for such characters.
- Router.PathMatches: only ASCII letters are folded. The router's case-insensitive match
  also folds other letters. The history base (`BASE_URL`), percent-encoding, query strings
  and hashes are not modelled; the path is what the router matches after removing them.
- The `Moment` type of src/types/moment.ts has no count fields. The model follows the
  service, whose records carry the three counts.

=== FILE: moment_service.dfy ===
/** `SupabaseMomentService`: reading one moment, creating, updating and
    deleting moments, and deleting one of a moment's images. A moment's
    images are stored in the image bucket under keys (the "timestamps");
    the row lists the image urls and their keys in two parallel arrays,
    which every edit keeps in step. The bucket itself is code this model
    cannot see: an upload is described by the urls and keys it answered,
    and a deletion by whether it failed. */
module MomentService {
  import opened Wrappers
  import opened Seqs
  import opened Remote

  /** The client's `Moment` record: a `moments` row without its owner. */
  datatype Moment = Moment(
    id: Id,
    title: string,
    content: string,
    date: string,
    images: seq<string>,
    imageTimestamps: seq<string>,
    tags: seq<string>,
    createdAt: Stamp,
    updatedAt: Stamp,
    likeCount: int,
    commentCount: int,
    repostCount: int)

  /** `transformFromSupabase`: every column but `user_id`, unchanged. */
  function Transform(row: MomentRow): (m: Moment)
    ensures m.id == row.id && m.title == row.title && m.content == row.content
    ensures m.date == row.date && m.tags == row.tags
    ensures m.images == row.images && m.imageTimestamps == row.imageTimestamps
    ensures m.createdAt == row.createdAt && m.updatedAt == row.updatedAt
    ensures m.likeCount == row.likeCount && m.commentCount == row.commentCount && m.repostCount == row.repostCount
  {
    Moment(row.id, row.title, row.content, row.date, row.images, row.imageTimestamps, row.tags,
           row.createdAt, row.updatedAt, row.likeCount, row.commentCount, row.repostCount)
  }

  /** The transform loses the owner and nothing else: two rows look the
      same to the client exactly when they differ at most in `user_id`. */
  lemma TransformForgetsOnlyOwner(a: MomentRow, b: MomentRow)
    ensures Transform(a) == Transform(b) <==> a.(userId := b.userId) == b
  {
  }

  /** The rows with id `id`. */
  function WithId(id: Id): MomentRow -> bool
  {
    (row: MomentRow) => row.id == id
  }

  /** `getById`: `single()` on the id. A failed read is an error; no row,
      or more than one, is the PGRST116 error, which reads as `null`. */
  function GetById(db: Db, env: Env, id: Id): (r: Outcome<Option<Moment>>)
    ensures r.Failure? <==> Fails(env, Lookup)
    ensures r.Failure? ==> r.error == RemoteError(Lookup)
    ensures r.Success? ==> (r.value.Some? <==> Count(db.moments, WithId(id)) == 1)
    ensures r.Success? && r.value.Some? ==>
      exists row :: row in db.moments && row.id == id && r.value.value == Transform(row)
  {
    if Fails(env, Lookup) then Failure(RemoteError(Lookup))
    else if Count(db.moments, WithId(id)) != 1 then Success(None)
    else
      var row := db.moments[FindIndex(db.moments, WithId(id))];
      Success(Some(Transform(row)))
  }

  /** The one row with id `id`, when `single()` finds it. */
  lemma FoundRow(db: Db, env: Env, id: Id) returns (row: MomentRow)
    requires GetById(db, env, id).Success? && GetById(db, env, id).value.Some?
    ensures row in db.moments && row.id == id
    ensures GetById(db, env, id).value.value == Transform(row)
    ensures forall x :: x in db.moments && x.id == id ==> x == row
  {
    row := db.moments[FindIndex(db.moments, WithId(id))];
    forall x | x in db.moments && x.id == id
      ensures x == row
    {
      CountOneUnique(db.moments, WithId(id), x, row);
    }
  }

  /** What the image bucket answered for an upload: the public urls and
      the object keys, one of each per file. */
  datatype Uploaded = Uploaded(urls: seq<string>, timestamps: seq<string>)

  /** The keys of `ts` as a set. */
  function KeySet(ts: seq<string>): (k: set<string>)
    ensures forall t :: t in k <==> t in ts
  {
    set t | t in ts
  }

  /** `deleteImages(keys)` on the bucket; a failure leaves the objects. */
  function DropImages(db: Db, env: Env, keys: seq<string>): (d: Db)
    ensures d.(images := db.images) == db
    ensures Fails(env, StorageDelete) ==> d == db
    ensures !Fails(env, StorageDelete) ==> d.images == db.images - KeySet(keys)
  {
    if Fails(env, StorageDelete) then db else db.(images := db.images - KeySet(keys))
  }

  /** A `CreateMomentRequest`. `files` stands for the picked image files;
      none and an absent list behave alike. */
  datatype CreateRequest = CreateRequest(title: string, content: string, date: string, files: seq<string>, tags: Option<seq<string>>)

  /** The row `create` inserts: no tags means `[]`, and the counts start
      at 0 (the request type has no count fields, so `count || 0` is 0). */
  function NewRow(env: Env, me: UserId, req: CreateRequest, urls: seq<string>, ts: seq<string>): (row: MomentRow)
    ensures row.id == env.freshId && row.userId == me
    ensures row.title == req.title && row.content == req.content && row.date == req.date
    ensures row.images == urls && row.imageTimestamps == ts
    ensures req.tags.None? ==> row.tags == []
    ensures req.tags.Some? ==> row.tags == req.tags.value
    ensures row.likeCount == 0 && row.commentCount == 0 && row.repostCount == 0
    ensures row.createdAt == env.now && row.updatedAt == env.now
  {
    MomentRow(env.freshId, me, req.title, req.content, req.date, urls, ts, req.tags.GetOr([]), 0, 0, 0, env.now, env.now)
  }

  /** `create`: uploads the files (if any), then needs a signed-in user,
      then inserts the row. Only a failed insert removes the uploaded
      objects again; a missing user after the upload leaves them behind. */
  function Create(db: Db, env: Env, req: CreateRequest, up: Uploaded): (r: Reply<Moment>)
    ensures |req.files| > 0 && Fails(env, Upload) ==> r == Reply(Failure(RemoteError(Upload)), db)
    ensures r.out.Success? <==>
      (|req.files| == 0 || !Fails(env, Upload)) && env.user.Some? && !Fails(env, Write)
    ensures r.out.Success? ==>
      var ts := if |req.files| > 0 then up.timestamps else [];
      var urls := if |req.files| > 0 then up.urls else [];
      var row := NewRow(env, env.user.value, req, urls, ts);
      && r.out.value == Transform(row)
      && r.db.moments == db.moments + [row]
      && r.db.images == db.images + KeySet(ts)
      && r.db.(moments := db.moments, images := db.images) == db
    ensures r.out.Failure? ==> r.db.(images := db.images) == db
  {
    var uploading := |req.files| > 0;
    if uploading && Fails(env, Upload) then Reply(Failure(RemoteError(Upload)), db)
    else
      var urls := if uploading then up.urls else [];
      var ts := if uploading then up.timestamps else [];
      var stored := db.(images := db.images + KeySet(ts));
      match env.user
      case None => Reply(Failure(NotLoggedIn), stored)
      case Some(me) =>
        if Fails(env, Write) then
          Reply(Failure(RemoteError(Write)), if |ts| > 0 then DropImages(stored, env, ts) else stored)
        else
          var row := NewRow(env, me, req, urls, ts);
          Reply(Success(Transform(row)), stored.(moments := stored.moments + [row]))
  }

  /** The uploaded objects outlive a failed `create` in exactly two
      cases: the user turned out not to be signed in, or the compensating
      deletion failed as well. */
  lemma CreateCleanup(db: Db, env: Env, req: CreateRequest, up: Uploaded)
    requires |req.files| > 0 && !Fails(env, Upload) && |up.timestamps| > 0
    requires forall t :: t in up.timestamps ==> t !in db.images
    ensures var r := Create(db, env, req, up);
            && (r.out.Success? ==> forall t :: t in up.timestamps ==> t in r.db.images)
            && (env.user.None? ==> r.out == Failure(NotLoggedIn) && forall t :: t in up.timestamps ==> t in r.db.images)
            && (env.user.Some? && Fails(env, Write) ==>
                  r.out == Failure(RemoteError(Write))
                  && (!Fails(env, StorageDelete) <==> r.db.images == db.images))
  {
    var r := Create(db, env, req, up);
    if env.user.Some? && Fails(env, Write) && Fails(env, StorageDelete) && |up.timestamps| > 0 {
      assert up.timestamps[0] in r.db.images;
    }
  }

  /** An `UpdateMomentRequest`: each field is copied only when given. */
  datatype UpdateRequest = UpdateRequest(
    title: Option<string>,
    content: Option<string>,
    date: Option<string>,
    files: seq<string>,
    tags: Option<seq<string>>)

  /** The row after the update: given fields replaced, image lists
      written, `updated_at` stamped. */
  function Revise(row: MomentRow, req: UpdateRequest, urls: seq<string>, ts: seq<string>, now: Stamp): (r: MomentRow)
    ensures r.title == req.title.GetOr(row.title)
    ensures r.content == req.content.GetOr(row.content)
    ensures r.date == req.date.GetOr(row.date)
    ensures r.tags == req.tags.GetOr(row.tags)
    ensures r.images == urls && r.imageTimestamps == ts && r.updatedAt == now
    ensures r.(title := row.title, content := row.content, date := row.date, tags := row.tags,
               images := row.images, imageTimestamps := row.imageTimestamps, updatedAt := row.updatedAt) == row
  {
    row.(title := req.title.GetOr(row.title), content := req.content.GetOr(row.content),
         date := req.date.GetOr(row.date), tags := req.tags.GetOr(row.tags),
         images := urls, imageTimestamps := ts, updatedAt := now)
  }

  /** Applies `f` to the rows with id `id` (`update(...).eq('id', id)`). */
  function ReviseRows(rows: seq<MomentRow>, id: Id, f: MomentRow -> MomentRow): (r: seq<MomentRow>)
    ensures |r| == |rows|
    ensures forall i :: 0 <= i < |rows| ==> r[i] == if rows[i].id == id then f(rows[i]) else rows[i]
  {
    Map(rows, (row: MomentRow) => if row.id == id then f(row) else row)
  }

  function ReviseWith(req: UpdateRequest, urls: seq<string>, ts: seq<string>, now: Stamp): MomentRow -> MomentRow
  {
    (row: MomentRow) => Revise(row, req, urls, ts, now)
  }

  /** `update(id, request)`: reads the moment, uploads the new files (if
      any) and appends their urls and keys after the existing ones, then
      writes the row. Only the new files enter the bucket; a failed write
      does not remove them. */
  function Update(db: Db, env: Env, id: Id, req: UpdateRequest, up: Uploaded): (r: Reply<bool>)
    ensures GetById(db, env, id).Failure? ==> r == Reply(Failure(RemoteError(Lookup)), db)
    ensures GetById(db, env, id) == Success(None) ==> r == Reply(Failure(NoSuchMoment), db)
    ensures r.out.Success? <==>
      && GetById(db, env, id).Success? && GetById(db, env, id).value.Some?
      && (|req.files| == 0 || !Fails(env, Upload)) && !Fails(env, Write)
    ensures r.out.Success? ==> r.out.value
    ensures r.out.Success? ==>
      var prior := GetById(db, env, id).value.value;
      var urls := if |req.files| > 0 then prior.images + up.urls else prior.images;
      var ts := if |req.files| > 0 then prior.imageTimestamps + up.timestamps else prior.imageTimestamps;
      && r.db.moments == ReviseRows(db.moments, id, ReviseWith(req, urls, ts, env.now))
      && r.db.(moments := db.moments, images := db.images) == db
    ensures r.db.images == db.images ||
      (|req.files| > 0 && !Fails(env, Upload) && r.db.images == db.images + KeySet(up.timestamps))
    ensures r.out.Success? ==>
      r.db.images == db.images + (if |req.files| > 0 then KeySet(up.timestamps) else {})
    ensures r.out.Failure? ==> r.db.(images := db.images) == db
  {
    match GetById(db, env, id)
    case Failure(e) => Reply(Failure(e), db)
    case Success(None) => Reply(Failure(NoSuchMoment), db)
    case Success(Some(prior)) =>
      var uploading := |req.files| > 0;
      if uploading && Fails(env, Upload) then Reply(Failure(RemoteError(Upload)), db)
      else
        var urls := if uploading then prior.images + up.urls else prior.images;
        var ts := if uploading then prior.imageTimestamps + up.timestamps else prior.imageTimestamps;
        var stored := db.(images := db.images + (if uploading then KeySet(up.timestamps) else {}));
        if Fails(env, Write) then Reply(Failure(RemoteError(Write)), stored)
        else Reply(Success(true), stored.(moments := ReviseRows(stored.moments, id, ReviseWith(req, urls, ts, env.now))))
  }

  /** What an update promises of one row: the images are the old ones
      followed by the new uploads, and the keys likewise, so lists of equal
      length stay of equal length; fields the request leaves out, the id
      and the owner keep their values. */
  predicate Appended(before: MomentRow, after: MomentRow, req: UpdateRequest, up: Uploaded)
  {
    && after.images == before.images + (if |req.files| > 0 then up.urls else [])
    && after.imageTimestamps == before.imageTimestamps + (if |req.files| > 0 then up.timestamps else [])
    && (|before.images| == |before.imageTimestamps| && |up.urls| == |up.timestamps| ==>
          |after.images| == |after.imageTimestamps|)
    && (req.title.None? ==> after.title == before.title)
    && (req.content.None? ==> after.content == before.content)
    && (req.date.None? ==> after.date == before.date)
    && (req.tags.None? ==> after.tags == before.tags)
    && after.id == before.id && after.userId == before.userId
  }

  /** Revising one row with its own lists extended by the uploads keeps
      the promise above. */
  lemma ReviseAppends(row: MomentRow, req: UpdateRequest, up: Uploaded, now: Stamp)
    ensures var urls := if |req.files| > 0 then row.images + up.urls else row.images;
            var ts := if |req.files| > 0 then row.imageTimestamps + up.timestamps else row.imageTimestamps;
            Appended(row, Revise(row, req, urls, ts, now), req, up)
  {
  }

  /** After an update every row of the moment is revised as promised. */
  lemma UpdateAppends(db: Db, env: Env, id: Id, req: UpdateRequest, up: Uploaded)
    requires Update(db, env, id, req, up).out.Success?
    ensures var d := Update(db, env, id, req, up).db;
            forall i :: 0 <= i < |db.moments| && db.moments[i].id == id ==>
              Appended(db.moments[i], d.moments[i], req, up)
  {
    var row := FoundRow(db, env, id);
    var urls := if |req.files| > 0 then row.images + up.urls else row.images;
    var ts := if |req.files| > 0 then row.imageTimestamps + up.timestamps else row.imageTimestamps;
    var d := Update(db, env, id, req, up).db;
    assert d.moments == ReviseRows(db.moments, id, ReviseWith(req, urls, ts, env.now));
    ReviseAppends(row, req, up, env.now);
    forall i | 0 <= i < |db.moments| && db.moments[i].id == id
      ensures Appended(db.moments[i], d.moments[i], req, up)
    {
      assert db.moments[i] in db.moments;
      assert d.moments[i] == ReviseWith(req, urls, ts, env.now)(row);
    }
  }

  /** `delete(id)`: reads the moment, deletes its row, then deletes its
      image objects; a failure of that last step is swallowed. */
  function Delete(db: Db, env: Env, id: Id): (r: Reply<bool>)
    ensures GetById(db, env, id).Failure? ==> r == Reply(Failure(RemoteError(Lookup)), db)
    ensures GetById(db, env, id) == Success(None) ==> r == Reply(Failure(NoSuchMoment), db)
    ensures r.out.Success? <==>
      GetById(db, env, id).Success? && GetById(db, env, id).value.Some? && !Fails(env, Write)
    ensures r.out.Success? ==>
      && r.out.value
      && (forall row :: row in r.db.moments <==> row in db.moments && row.id != id)
      && r.db.(moments := db.moments, images := db.images) == db
      && (Fails(env, StorageDelete) ==> r.db.images == db.images)
      && (!Fails(env, StorageDelete) ==>
            r.db.images == db.images - KeySet(GetById(db, env, id).value.value.imageTimestamps))
    ensures r.out.Failure? ==> r.db == db
  {
    match GetById(db, env, id)
    case Failure(e) => Reply(Failure(e), db)
    case Success(None) => Reply(Failure(NoSuchMoment), db)
    case Success(Some(m)) =>
      if Fails(env, Write) then Reply(Failure(RemoteError(Write)), db)
      else
        var deleted := db.(moments := Filter(db.moments, (row: MomentRow) => row.id != id));
        var ts := m.imageTimestamps;
        Reply(Success(true), if |ts| > 0 then DropImages(deleted, env, ts) else deleted)
  }

  /** `deleteImage(momentId, index)`: the index must lie in
      `[0, images.length)`; the image and its key leave both lists at that
      index; the row is written; then the object is deleted, a failure of
      which is swallowed. The key list is indexed without a check of its
      own: when it is shorter, nothing leaves it and no object is
      deleted. */
  function DeleteImage(db: Db, env: Env, id: Id, index: int): (r: Reply<bool>)
    ensures GetById(db, env, id).Failure? ==> r == Reply(Failure(RemoteError(Lookup)), db)
    ensures GetById(db, env, id) == Success(None) ==> r == Reply(Failure(NoSuchMoment), db)
    ensures (GetById(db, env, id).Success? && GetById(db, env, id).value.Some? &&
             !(0 <= index < |GetById(db, env, id).value.value.images|)) ==>
      r == Reply(Failure(BadImageIndex), db)
    ensures r.out.Success? <==>
      && GetById(db, env, id).Success? && GetById(db, env, id).value.Some?
      && 0 <= index < |GetById(db, env, id).value.value.images| && !Fails(env, Write)
    ensures r.out.Failure? ==> r.db == db
    ensures r.out.Success? ==>
      var m := GetById(db, env, id).value.value;
      var keys := if index < |m.imageTimestamps| then [m.imageTimestamps[index]] else [];
      && r.db.moments == ReviseRows(db.moments, id, Shrink(m, index, env.now))
      && r.db.(moments := db.moments, images := db.images) == db
      && r.db.images == (if Fails(env, StorageDelete) then db.images else db.images - KeySet(keys))
  {
    match GetById(db, env, id)
    case Failure(e) => Reply(Failure(e), db)
    case Success(None) => Reply(Failure(NoSuchMoment), db)
    case Success(Some(m)) =>
      if index < 0 || index >= |m.images| then Reply(Failure(BadImageIndex), db)
      else if Fails(env, Write) then Reply(Failure(RemoteError(Write)), db)
      else
        var written := db.(moments := ReviseRows(db.moments, id, Shrink(m, index, env.now)));
        var keys := if index < |m.imageTimestamps| then [m.imageTimestamps[index]] else [];
        Reply(Success(true), DropImages(written, env, keys))
  }

  /** The row written by `deleteImage`: both lists without their element
      at `index`, and a new `updated_at`. */
  function Shrink(m: Moment, index: int, now: Stamp): MomentRow -> MomentRow
  {
    (row: MomentRow) => row.(images := RemoveAt(m.images, index),
                             imageTimestamps := RemoveAt(m.imageTimestamps, index),
                             updatedAt := now)
  }

  /** `deleteImage` keeps the two lists in step: each loses the element at
      `index`, the others keep their order, and equal lengths stay equal. */
  lemma DeleteImageLockstep(db: Db, env: Env, id: Id, index: int)
    requires DeleteImage(db, env, id, index).out.Success?
    ensures var d := DeleteImage(db, env, id, index).db;
            forall i :: 0 <= i < |db.moments| && db.moments[i].id == id ==>
              InStep(db.moments[i], d.moments[i], index)
  {
    var row := FoundRow(db, env, id);
    var m := Transform(row);
    var now := env.now;
    ShrinkInStep(row, index, now);
    forall i | 0 <= i < |db.moments| && db.moments[i].id == id
      ensures db.moments[i] == row
    {
      assert db.moments[i] in db.moments;
    }
  }

  /** `after` is `before` with the image and key at `index` removed, the
      rest in order, and the lists as long as each other if they were. */
  ghost predicate InStep(before: MomentRow, after: MomentRow, index: int)
  {
    && |after.images| == |before.images| - 1
    && (forall j :: 0 <= j < |after.images| ==>
          after.images[j] == if j < index then before.images[j] else before.images[j + 1])
    && (|before.images| == |before.imageTimestamps| ==>
          && |after.imageTimestamps| == |after.images|
          && forall j :: 0 <= j < |after.imageTimestamps| ==>
               after.imageTimestamps[j] ==
                 if j < index then before.imageTimestamps[j] else before.imageTimestamps[j + 1])
    && after.(images := before.images, imageTimestamps := before.imageTimestamps,
              updatedAt := before.updatedAt) == before
  }

  lemma ShrinkInStep(row: MomentRow, index: int, now: Stamp)
    requires 0 <= index < |row.images|
    ensures InStep(row, Shrink(Transform(row), index, now)(row), index)
  {
    var m := Transform(row);
    assert m.images == row.images && m.imageTimestamps == row.imageTimestamps;
    var images := RemoveAt(row.images, index);
    var stamps := RemoveAt(row.imageTimestamps, index);
    assert Shrink(m, index, now)(row) == row.(images := images, imageTimestamps := stamps, updatedAt := now);
  }

  /** A moment just created under a fresh id is what `getById` finds. */
  lemma CreatedIsFound(db: Db, env: Env, req: CreateRequest, up: Uploaded)
    requires env.user.Some? && !Fails(env, Write) && !Fails(env, Lookup)
    requires |req.files| == 0 || !Fails(env, Upload)
    requires forall row :: row in db.moments ==> row.id != env.freshId
    ensures var c := Create(db, env, req, up);
            c.out.Success? && GetById(c.db, env, env.freshId) == Success(Some(c.out.value))
  {
    var c := Create(db, env, req, up);
    var row := CreatedRow(env, req, up);
    assert c.db.moments == db.moments + [row];
    CountAppend(db.moments, [row], WithId(env.freshId));
    assert Count(db.moments, WithId(env.freshId)) == 0;
    var found := FoundRow(c.db, env, env.freshId);
    assert found == row;
  }

  /** The row a successful `create` inserts. */
  function CreatedRow(env: Env, req: CreateRequest, up: Uploaded): (row: MomentRow)
    requires env.user.Some?
    ensures row.id == env.freshId && row.userId == env.user.value
    ensures |req.files| == 0 ==> row.images == [] && row.imageTimestamps == []
    ensures |req.files| > 0 ==> row.images == up.urls && row.imageTimestamps == up.timestamps
  {
    var uploading := |req.files| > 0;
    NewRow(env, env.user.value, req, if uploading then up.urls else [], if uploading then up.timestamps else [])
  }

  /** A moment just created under a fresh id, with keys not yet in the
      bucket, is deleted again by its id: the table is restored, and so
      is the bucket unless the deletion of the objects failed, in which
      case the uploads stay behind. */
  lemma CreateThenDelete(db: Db, env: Env, req: CreateRequest, up: Uploaded)
    requires env.user.Some? && !Fails(env, Write) && !Fails(env, Lookup)
    requires |req.files| == 0 || !Fails(env, Upload)
    requires |req.files| > 0 ==> KeySet(up.timestamps) !! db.images
    requires forall row :: row in db.moments ==> row.id != env.freshId
    ensures var c := Create(db, env, req, up);
            var d := Delete(c.db, env, env.freshId);
            var keys := KeySet(CreatedRow(env, req, up).imageTimestamps);
            && c.out.Success? && d.out.Success?
            && (forall row :: row in d.db.moments <==> row in db.moments)
            && d.db.images == (if Fails(env, StorageDelete) then db.images + keys else db.images)
  {
    var row := CreatedRow(env, req, up);
    var c := Create(db, env, req, up);
    assert KeySet([]) == {};
    assert c.db == db.(moments := db.moments + [row], images := db.images + KeySet(row.imageTimestamps));
    DeleteAppended(db, env, row);
  }

  /** A row appended under a fresh id, its keys added to the bucket, is
      deleted again by that id: the table is restored, and the keys leave
      the bucket unless their deletion failed. */
  lemma DeleteAppended(db: Db, env: Env, row: MomentRow)
    requires !Fails(env, Write) && !Fails(env, Lookup)
    requires KeySet(row.imageTimestamps) !! db.images
    requires forall x :: x in db.moments ==> x.id != row.id
    ensures var keys := KeySet(row.imageTimestamps);
            var d := Delete(db.(moments := db.moments + [row], images := db.images + keys), env, row.id);
            && d.out.Success?
            && (forall x :: x in d.db.moments <==> x in db.moments)
            && d.db.images == (if Fails(env, StorageDelete) then db.images + keys else db.images)
  {
    var keys := KeySet(row.imageTimestamps);
    var created := db.(moments := db.moments + [row], images := db.images + keys);
    CountAppend(db.moments, [row], WithId(row.id));
    assert Count(db.moments, WithId(row.id)) == 0;
    var found := FoundRow(created, env, row.id);
    assert found == row;
    var d := Delete(created, env, row.id);
    forall x
      ensures x in d.db.moments <==> x in db.moments
    {
      assert x in created.moments <==> x in db.moments || x == row;
    }
    if |row.imageTimestamps| == 0 {
      assert keys == {};
    }
  }

  /** Deleting a moment that has no image keys leaves the bucket alone. */
  lemma DeleteWithoutImages(db: Db, env: Env, id: Id)
    requires !Fails(env, Write)
    requires GetById(db, env, id).Success? && GetById(db, env, id).value.Some?
    requires GetById(db, env, id).value.value.imageTimestamps == []
    ensures Delete(db, env, id).out.Success? && Delete(db, env, id).db.images == db.images
  {
  }
}

=== FILE: moment_store.dfy ===
/** The moment store: the signed-in user's moments as last fetched, the
    filter the list view applies (selected tags and a date range), the
    values derived from them, and the actions that fetch and edit the
    list through the moment service. Every action brackets itself with
    the `loading` flag, which nothing reads back, so the model leaves it
    out. Dates are `YYYY-MM-DD` strings compared as strings. */
module MomentStore {
  import opened Wrappers
  import opened Seqs
  import opened Strings
  import opened Remote
  import opened MomentService

  /** `currentFilter`. */
  datatype Mode = All | Recent | Tagged

  datatype Range = Range(start: string, end: string)

  datatype MomentState = MomentState(
    moments: seq<Moment>,
    currentFilter: Mode,
    selectedTags: seq<string>,
    dateRange: Option<Range>)

  /** The store as created. */
  const Initial := MomentState([], All, [], None)

  // ---------------------------------------------------------------------
  // Derived values
  // ---------------------------------------------------------------------

  /** The moment carries one of `tags` (`moment.tags.some(tag =>
      tags.includes(tag))`). */
  predicate SharesTag(m: Moment, tags: seq<string>)
  {
    exists t :: t in m.tags && t in tags
  }

  /** `start <= moment.date && moment.date <= end`. */
  predicate InRange(m: Moment, r: Range)
  {
    StrLe(r.start, m.date) && StrLe(m.date, r.end)
  }

  function TagFilter(tags: seq<string>): Moment -> bool
  {
    (m: Moment) => SharesTag(m, tags)
  }

  function RangeFilter(r: Range): Moment -> bool
  {
    (m: Moment) => InRange(m, r)
  }

  /** `filter(p)` when `on`, the list itself otherwise. */
  function FilterIf(ms: seq<Moment>, on: bool, p: Moment -> bool): (r: seq<Moment>)
    ensures IsSubseq(r, ms)
    ensures forall m :: m in r <==> m in ms && (on ==> p(m))
    ensures forall m :: multiset(r)[m] == if on && !p(m) then 0 else multiset(ms)[m]
    ensures !on ==> r == ms
  {
    if on then
      FilterMultiset(ms, p);
      Filter(ms, p)
    else
      SubseqReflexive(ms);
      ms
  }

  /** The date filter of the state (a placeholder when no range is set,
      where it is not applied). */
  function DateFilter(s: MomentState): Moment -> bool
  {
    RangeFilter(s.dateRange.GetOr(Range("", "")))
  }

  /** The moment passes the filters the state has switched on: it shares a
      selected tag when tags are selected, and lies in the range when one
      is set. */
  predicate PassesFilters(s: MomentState, m: Moment)
  {
    && (|s.selectedTags| > 0 ==> SharesTag(m, s.selectedTags))
    && (s.dateRange.Some? ==> InRange(m, s.dateRange.value))
  }

  /** `filteredMoments`: the tag filter, if tags are selected, then the
      date filter, if a range is set. */
  function FilteredMoments(s: MomentState): (r: seq<Moment>)
    ensures IsSubseq(r, s.moments)
    ensures forall m :: m in r <==> m in s.moments && PassesFilters(s, m)
    ensures forall m :: multiset(r)[m] == if PassesFilters(s, m) then multiset(s.moments)[m] else 0
    ensures |s.selectedTags| == 0 && s.dateRange.None? ==> r == s.moments
  {
    var tagged := FilterIf(s.moments, |s.selectedTags| > 0, TagFilter(s.selectedTags));
    var dated := FilterIf(tagged, s.dateRange.Some?, DateFilter(s));
    SubseqTransitive(dated, tagged, s.moments);
    forall m
      ensures m in dated <==> m in s.moments && PassesFilters(s, m)
      ensures multiset(dated)[m] == if PassesFilters(s, m) then multiset(s.moments)[m] else 0
    {
      assert multiset(tagged)[m] ==
             if |s.selectedTags| > 0 && !TagFilter(s.selectedTags)(m) then 0 else multiset(s.moments)[m];
      assert multiset(dated)[m] ==
             if s.dateRange.Some? && !DateFilter(s)(m) then 0 else multiset(tagged)[m];
      assert s.dateRange.Some? ==> (DateFilter(s)(m) <==> InRange(m, s.dateRange.value));
    }
    dated
  }

  /** `totalCount`: how many moments are loaded. */
  function TotalCount(s: MomentState): nat
  {
    |s.moments|
  }

  /** `recentMoments` for the cutoff date the clock gives (thirty days
      back): the moments dated on or after it, in order. */
  function RecentMoments(s: MomentState, cutoff: string): (r: seq<Moment>)
    ensures IsSubseq(r, s.moments)
    ensures forall m :: m in r <==> m in s.moments && StrLe(cutoff, m.date)
    ensures forall m :: multiset(r)[m] == if StrLe(cutoff, m.date) then multiset(s.moments)[m] else 0
  {
    FilterMultiset(s.moments, DatedFrom(cutoff));
    Filter(s.moments, DatedFrom(cutoff))
  }

  function DatedFrom(cutoff: string): Moment -> bool
  {
    (m: Moment) => StrLe(cutoff, m.date)
  }

  /** Adds each of `tags` to a sorted tag list. */
  function AddTags(acc: seq<string>, tags: seq<string>): (r: seq<string>)
    requires StrictlySorted(acc)
    ensures StrictlySorted(r)
    ensures forall t :: t in r <==> t in acc || t in tags
    decreases |tags|
  {
    if |tags| == 0 then acc
    else
      var next := InsertStr(tags[0], acc);
      var r := AddTags(next, tags[1..]);
      assert forall t :: t in tags <==> t == tags[0] || t in tags[1..] by {
        assert tags == [tags[0]] + tags[1..];
      }
      r
  }

  /** Adds the tags of each of `ms` to a sorted tag list. */
  function CollectTags(acc: seq<string>, ms: seq<Moment>): (r: seq<string>)
    requires StrictlySorted(acc)
    ensures StrictlySorted(r)
    ensures forall t :: t in r <==> t in acc || exists m :: m in ms && t in m.tags
    decreases |ms|
  {
    if |ms| == 0 then acc
    else
      var r := CollectTags(AddTags(acc, ms[0].tags), ms[1..]);
      assert forall m :: m in ms <==> m == ms[0] || m in ms[1..] by {
        assert ms == [ms[0]] + ms[1..];
      }
      r
  }

  /** `allTags`: every tag of every moment, once each, in string order
      (a `Set` of the tags, then `Array.from(...).sort()`). */
  function AllTags(s: MomentState): (r: seq<string>)
    ensures StrictlySorted(r)
    ensures forall t :: t in r <==> exists m :: m in s.moments && t in m.tags
  {
    CollectTags([], s.moments)
  }

  /** The tag list has no repetition. */
  lemma AllTagsDistinct(s: MomentState)
    ensures Distinct(AllTags(s))
  {
    var r := AllTags(s);
    forall i, j | 0 <= i < j < |r|
      ensures r[i] != r[j]
    {
      StrLtIrreflexive(r[i]);
    }
  }

  /** The tag list is the one sorted listing of the tag union: it depends
      only on which moments are loaded, not on their order or repetition. */
  lemma AllTagsCanonical(s: MomentState, t: MomentState)
    requires forall m :: m in s.moments <==> m in t.moments
    ensures AllTags(s) == AllTags(t)
  {
    StrictlySortedUnique(AllTags(s), AllTags(t));
  }

  // ---------------------------------------------------------------------
  // Fetches
  // ---------------------------------------------------------------------

  /** `fetchMoments`, given whether the browser is online and what
      `getAll` answered: offline with moments loaded it keeps them;
      otherwise a success replaces them and a failure keeps them. */
  function FetchMoments(s: MomentState, online: bool, got: Outcome<seq<Moment>>): (r: MomentState)
    ensures r.(moments := s.moments) == s
    ensures !online && |s.moments| > 0 ==> r == s
    ensures got.Failure? ==> r == s
    ensures (online || |s.moments| == 0) && got.Success? ==> r.moments == got.value
  {
    if !online && |s.moments| > 0 then s
    else
      match got
      case Success(ms) => s.(moments := ms)
      case Failure(_) => s
  }

  /** Offline with moments loaded, neither `fetchMoments` nor
      `fetchMomentsByTags([])` touches the store, whatever the service
      would have answered; and once an online fetch has loaded moments, an
      offline one keeps them. */
  lemma OfflineKeepsLoaded(s: MomentState, got: Outcome<seq<Moment>>, later: Outcome<seq<Moment>>)
    ensures |s.moments| > 0 ==> FetchMoments(s, false, got) == s && FetchMomentsByTags(s, [], false, got) == s
    ensures got.Success? && |got.value| > 0 ==>
      var t := FetchMoments(s, true, got);
      FetchMoments(t, false, later) == t && t.moments == got.value
  {
  }

  /** `fetchMomentsByDateRange(start, end)`, given what `getByDateRange`
      answered: the range is recorded only on success. */
  function FetchMomentsByDateRange(s: MomentState, start: string, end: string, got: Outcome<seq<Moment>>): (r: MomentState)
    ensures got.Failure? ==> r == s
    ensures got.Success? ==> r == s.(moments := got.value, dateRange := Some(Range(start, end)))
  {
    match got
    case Success(ms) => s.(moments := ms, dateRange := Some(Range(start, end)))
    case Failure(_) => s
  }

  /** `fetchMomentsByTags(tags)`, given what the service it calls
      answered: an empty list is `fetchMoments` and leaves the selection
      alone; otherwise the selection is recorded only on success. */
  function FetchMomentsByTags(s: MomentState, tags: seq<string>, online: bool, got: Outcome<seq<Moment>>): (r: MomentState)
    ensures |tags| == 0 ==> r == FetchMoments(s, online, got) && r.selectedTags == s.selectedTags
    ensures |tags| > 0 && got.Failure? ==> r == s
    ensures |tags| > 0 && got.Success? ==> r == s.(moments := got.value, selectedTags := tags)
  {
    if |tags| == 0 then FetchMoments(s, online, got)
    else
      match got
      case Success(ms) => s.(moments := ms, selectedTags := tags)
      case Failure(_) => s
  }

  /** `setFilter(filter)`. `start` and `end` are the dates thirty days
      back and today, from the clock; `got` is what the fetch the filter
      starts answered. Only "all" clears the selection. */
  function SetFilter(s: MomentState, mode: Mode, online: bool, start: string, end: string, got: Outcome<seq<Moment>>): (r: MomentState)
    ensures r.currentFilter == mode
    ensures mode == All ==> r.selectedTags == [] && r.dateRange.None?
    ensures mode == All && (got.Failure? || (!online && |s.moments| > 0)) ==> r.moments == s.moments
    ensures mode == All && got.Success? && (online || |s.moments| == 0) ==> r.moments == got.value
    ensures mode == All ==> r == ClearFilters(s, online, got)
    ensures mode == Recent ==> r.selectedTags == s.selectedTags
    ensures mode == Recent && got.Success? ==> r.dateRange == Some(Range(start, end)) && r.moments == got.value
    ensures mode == Recent && got.Failure? ==> r == s.(currentFilter := Recent)
    ensures mode == Tagged ==> r == s.(currentFilter := Tagged)
  {
    var chosen := s.(currentFilter := mode);
    match mode
    case All => FetchMoments(chosen.(selectedTags := [], dateRange := None), online, got)
    case Recent => FetchMomentsByDateRange(chosen, start, end, got)
    case Tagged => chosen
  }

  /** `clearFilters`. */
  function ClearFilters(s: MomentState, online: bool, got: Outcome<seq<Moment>>): (r: MomentState)
    ensures r.currentFilter == All && r.selectedTags == [] && r.dateRange.None?
    ensures got.Failure? || (!online && |s.moments| > 0) ==> r.moments == s.moments
    ensures got.Success? && (online || |s.moments| == 0) ==> r.moments == got.value
  {
    FetchMoments(s.(currentFilter := All, selectedTags := [], dateRange := None), online, got)
  }

  /** After clearing the filters (or choosing "all") the view shows every
      loaded moment. */
  lemma ClearedShowsAll(s: MomentState, online: bool, start: string, end: string, got: Outcome<seq<Moment>>)
    ensures var r := ClearFilters(s, online, got);
            FilteredMoments(r) == r.moments
    ensures var r := SetFilter(s, All, online, start, end, got);
            FilteredMoments(r) == r.moments
  {
  }

  // ---------------------------------------------------------------------
  // Edits
  // ---------------------------------------------------------------------

  /** What an editing action returns (or throws), the store afterwards,
      and the remote state. */
  datatype Step<T> = Step(out: Outcome<T>, state: MomentState, db: Db)

  /** `createMoment`: the new moment goes in front. */
  function CreateMoment(s: MomentState, db: Db, env: Env, req: CreateRequest, up: Uploaded): (r: Step<Moment>)
    ensures var call := Create(db, env, req, up);
            r.out == call.out && r.db == call.db
    ensures r.out.Failure? ==> r.state == s
    ensures r.out.Success? ==> r.state == s.(moments := [r.out.value] + s.moments)
  {
    var call := Create(db, env, req, up);
    match call.out
    case Failure(e) => Step(Failure(e), s, call.db)
    case Success(m) => Step(Success(m), s.(moments := [m] + s.moments), call.db)
  }

  function IsMoment(id: Id): Moment -> bool
  {
    (m: Moment) => m.id == id
  }

  function IsNotMoment(id: Id): Moment -> bool
  {
    (m: Moment) => m.id != id
  }

  /** The list after a successful edit: the first entry for the moment is
      replaced by a fresh read of it, when there is an entry and the read
      finds the moment. A failed read is thrown although the edit went
      through; the list is then as it was. */
  function Refresh(ms: seq<Moment>, db: Db, reread: Env, id: Id): (r: Outcome<seq<Moment>>)
    ensures FindIndex(ms, IsMoment(id)) == -1 ==> r == Success(ms)
    ensures r.Success? ==> |r.value| == |ms|
    ensures r.Success? ==> forall j :: 0 <= j < |ms| && j != FindIndex(ms, IsMoment(id)) ==> r.value[j] == ms[j]
    ensures FindIndex(ms, IsMoment(id)) != -1 ==>
      && (GetById(db, reread, id).Failure? ==> r == Failure(RemoteError(Lookup)))
      && (GetById(db, reread, id) == Success(None) ==> r == Success(ms))
      && (GetById(db, reread, id).Success? && GetById(db, reread, id).value.Some? ==>
            r == Success(ms[FindIndex(ms, IsMoment(id)) := GetById(db, reread, id).value.value]))
  {
    var index := FindIndex(ms, IsMoment(id));
    if index == -1 then Success(ms)
    else
      match GetById(db, reread, id)
      case Failure(e) => Failure(e)
      case Success(None) => Success(ms)
      case Success(Some(m)) => Success(ms[index := m])
  }

  /** `updateMoment(id, request)`: on success the list entry is refreshed
      from the remote state (`reread` is the environment of that read). */
  function UpdateMoment(s: MomentState, db: Db, env: Env, reread: Env, id: Id, req: UpdateRequest, up: Uploaded): (r: Step<bool>)
    ensures r.db == Update(db, env, id, req, up).db
    ensures Update(db, env, id, req, up).out.Failure? ==> r.out == Update(db, env, id, req, up).out && r.state == s
    ensures r.out.Failure? ==> r.state == s
    ensures r.out.Success? ==>
      && r.out.value
      && Update(db, env, id, req, up).out.Success?
      && Refresh(s.moments, r.db, reread, id) == Success(r.state.moments)
      && r.state.(moments := s.moments) == s
  {
    var call := Update(db, env, id, req, up);
    match call.out
    case Failure(e) => Step(Failure(e), s, call.db)
    case Success(_) =>
      match Refresh(s.moments, call.db, reread, id)
      case Failure(e) => Step(Failure(e), s, call.db)
      case Success(ms) => Step(Success(true), s.(moments := ms), call.db)
  }

  /** `deleteMoment(id)`: every entry with that id goes, the rest keep
      their order. */
  function DeleteMoment(s: MomentState, db: Db, env: Env, id: Id): (r: Step<bool>)
    ensures r.out == Delete(db, env, id).out && r.db == Delete(db, env, id).db
    ensures r.out.Failure? ==> r.state == s
    ensures r.out.Success? ==>
      && (forall m :: m in r.state.moments <==> m in s.moments && m.id != id)
      && (forall m :: multiset(r.state.moments)[m] == if m.id == id then 0 else multiset(s.moments)[m])
      && IsSubseq(r.state.moments, s.moments)
      && r.state.(moments := s.moments) == s
  {
    var call := Delete(db, env, id);
    match call.out
    case Failure(e) => Step(Failure(e), s, call.db)
    case Success(b) =>
      FilterMultiset(s.moments, IsNotMoment(id));
      Step(Success(b), s.(moments := Filter(s.moments, IsNotMoment(id))), call.db)
  }

  /** `deleteImage(momentId, index)`: on success the list entry is
      refreshed as after an update. */
  function DeleteMomentImage(s: MomentState, db: Db, env: Env, reread: Env, id: Id, index: int): (r: Step<bool>)
    ensures r.db == DeleteImage(db, env, id, index).db
    ensures DeleteImage(db, env, id, index).out.Failure? ==> r.out == DeleteImage(db, env, id, index).out && r.state == s
    ensures r.out.Failure? ==> r.state == s
    ensures r.out.Success? ==>
      && r.out.value
      && DeleteImage(db, env, id, index).out.Success?
      && Refresh(s.moments, r.db, reread, id) == Success(r.state.moments)
      && r.state.(moments := s.moments) == s
  {
    var call := DeleteImage(db, env, id, index);
    match call.out
    case Failure(e) => Step(Failure(e), s, call.db)
    case Success(_) =>
      match Refresh(s.moments, call.db, reread, id)
      case Failure(e) => Step(Failure(e), s, call.db)
      case Success(ms) => Step(Success(true), s.(moments := ms), call.db)
  }

  /** A refresh changes at most the first entry for the moment and never
      the length of the list; so do update and image deletion. */
  ghost predicate ReplacedInPlace(before: seq<Moment>, after: seq<Moment>, id: Id)
  {
    |after| == |before|
    && forall j :: 0 <= j < |before| && j != FindIndex(before, IsMoment(id)) ==> after[j] == before[j]
  }

  lemma UpdateReplacesInPlace(s: MomentState, db: Db, env: Env, reread: Env, id: Id, req: UpdateRequest, up: Uploaded)
    ensures ReplacedInPlace(s.moments, UpdateMoment(s, db, env, reread, id, req, up).state.moments, id)
  {
    var r := UpdateMoment(s, db, env, reread, id, req, up);
    if r.out.Success? {
      assert Refresh(s.moments, r.db, reread, id) == Success(r.state.moments);
    }
  }

  lemma DeleteImageReplacesInPlace(s: MomentState, db: Db, env: Env, reread: Env, id: Id, index: int)
    ensures ReplacedInPlace(s.moments, DeleteMomentImage(s, db, env, reread, id, index).state.moments, id)
  {
    var r := DeleteMomentImage(s, db, env, reread, id, index);
    if r.out.Success? {
      assert Refresh(s.moments, r.db, reread, id) == Success(r.state.moments);
    }
  }

  /** A moment created and then deleted by its id leaves the list as it
      was, provided no loaded moment had that id. */
  lemma CreateThenDeleteMoment(s: MomentState, db: Db, env: Env, req: CreateRequest, up: Uploaded)
    requires env.user.Some? && !Fails(env, Write) && !Fails(env, Lookup)
    requires |req.files| == 0 || !Fails(env, Upload)
    requires |req.files| > 0 ==> KeySet(up.timestamps) !! db.images
    requires forall row :: row in db.moments ==> row.id != env.freshId
    requires forall m :: m in s.moments ==> m.id != env.freshId
    ensures var c := CreateMoment(s, db, env, req, up);
            var d := DeleteMoment(c.state, c.db, env, env.freshId);
            d.out.Success? && d.state == s
  {
    CreateThenDelete(db, env, req, up);
    var c := CreateMoment(s, db, env, req, up);
    var m := c.out.value;
    assert c.state.moments == [m] + s.moments;
    FilterAppend([m], s.moments, IsNotMoment(env.freshId));
    FilterKeepsAll(s.moments, IsNotMoment(env.freshId));
  }

  /** How the edits move `totalCount`: a created moment adds one, a
      deletion removes every loaded entry with the id, and an update or an
      image deletion keeps the count; a failed edit changes nothing. */
  lemma TotalCountAfterEdits(s: MomentState, db: Db, env: Env, reread: Env, id: Id,
                             creq: CreateRequest, ureq: UpdateRequest, up: Uploaded, index: int)
    ensures var r := CreateMoment(s, db, env, creq, up);
            TotalCount(r.state) == TotalCount(s) + (if r.out.Success? then 1 else 0)
    ensures var r := DeleteMoment(s, db, env, id);
            TotalCount(r.state) == TotalCount(s) - (if r.out.Success? then Count(s.moments, IsMoment(id)) else 0)
    ensures TotalCount(UpdateMoment(s, db, env, reread, id, ureq, up).state) == TotalCount(s)
    ensures TotalCount(DeleteMomentImage(s, db, env, reread, id, index).state) == TotalCount(s)
  {
    CountComplement(s.moments, IsMoment(id), IsNotMoment(id));
    UpdateReplacesInPlace(s, db, env, reread, id, ureq, up);
    DeleteImageReplacesInPlace(s, db, env, reread, id, index);
  }
}

=== FILE: profile_service.dfy ===
/** `SupabaseProfileService`: reading the signed-in user's profile and
    editing its name and avatar. The avatar image goes to the image bucket
    first; what the bucket answered is a parameter. */
module ProfileService {
  import opened Wrappers
  import opened Seqs
  import opened Remote

  /** The client's `Profile` record: a `profiles` row whose null counts
      read as 0. */
  datatype Profile = Profile(
    id: UserId,
    email: string,
    username: Option<string>,
    avatarUrl: Option<string>,
    followerCount: int,
    followingCount: int,
    createdAt: Stamp,
    updatedAt: Stamp)

  /** `transformFromSupabase`: the columns unchanged, except that a null
      count becomes 0 (`count || 0`). */
  function Transform(row: ProfileRow): (p: Profile)
    ensures p.id == row.id && p.email == row.email
    ensures p.username == row.username && p.avatarUrl == row.avatarUrl
    ensures row.followerCount.Some? ==> p.followerCount == row.followerCount.value
    ensures row.followerCount.None? ==> p.followerCount == 0
    ensures row.followingCount.Some? ==> p.followingCount == row.followingCount.value
    ensures row.followingCount.None? ==> p.followingCount == 0
    ensures p.createdAt == row.createdAt && p.updatedAt == row.updatedAt
  {
    Profile(row.id, row.email, row.username, row.avatarUrl,
            row.followerCount.GetOr(0), row.followingCount.GetOr(0), row.createdAt, row.updatedAt)
  }

  /** Two rows look the same to the client exactly when they agree on
      every column but the counts, and on each count once null is read
      as 0: a null count and a count of 0 are indistinguishable. */
  lemma TransformConflatesNullAndZero(a: ProfileRow, b: ProfileRow)
    ensures Transform(a) == Transform(b) <==>
      && a.(followerCount := b.followerCount, followingCount := b.followingCount) == b
      && a.followerCount.GetOr(0) == b.followerCount.GetOr(0)
      && a.followingCount.GetOr(0) == b.followingCount.GetOr(0)
  {
  }

  /** The rows of user `id`. */
  function IsProfileOf(id: UserId): ProfileRow -> bool
  {
    (row: ProfileRow) => row.id == id
  }

  /** `getCurrentProfile`: needs a signed-in user, then `single()` on the
      user's id. A failed read is an error; no row, or more than one, is
      the PGRST116 error, which reads as `null`. */
  function GetCurrentProfile(db: Db, env: Env): (r: Outcome<Option<Profile>>)
    ensures env.user.None? ==> r == Failure(NotLoggedIn)
    ensures env.user.Some? && Fails(env, Lookup) ==> r == Failure(RemoteError(Lookup))
    ensures r.Success? <==> env.user.Some? && !Fails(env, Lookup)
    ensures r.Success? ==> (r.value.Some? <==> Count(db.profiles, IsProfileOf(env.user.value)) == 1)
    ensures r.Success? && r.value.Some? ==>
      exists row :: row in db.profiles && row.id == env.user.value && r.value.value == Transform(row)
  {
    match env.user
    case None => Failure(NotLoggedIn)
    case Some(me) =>
      if Fails(env, Lookup) then Failure(RemoteError(Lookup))
      else if Count(db.profiles, IsProfileOf(me)) != 1 then Success(None)
      else Success(Some(Transform(db.profiles[FindIndex(db.profiles, IsProfileOf(me))])))
  }

  /** An `UpdateProfileRequest`: a new name, and whether an avatar file
      was picked. */
  datatype ProfileEdit = ProfileEdit(username: Option<string>, avatar: bool)

  /** What the bucket answered for the avatar upload: its public url and
      its object key (the clock value at the call). */
  datatype AvatarUpload = AvatarUpload(url: string, key: string)

  /** The columns the update writes: the name only when one is given (an
      empty name included), the avatar url only when a file was picked.
      Nothing else is written, `updated_at` included. */
  function Patch(req: ProfileEdit, up: AvatarUpload): ProfileRow -> ProfileRow
  {
    (row: ProfileRow) => row.(username := if req.username.Some? then req.username else row.username,
                              avatarUrl := if req.avatar then Some(up.url) else row.avatarUrl)
  }

  /** `updateProfile`: needs a signed-in user, uploads the avatar (if
      any), then updates the user's row with `single()`. When that does
      not meet exactly one row the statement is rejected and no row
      changes; the uploaded avatar stays in the bucket whatever happens
      after the upload. */
  function UpdateProfile(db: Db, env: Env, req: ProfileEdit, up: AvatarUpload): (r: Reply<Profile>)
    ensures env.user.None? ==> r == Reply(Failure(NotLoggedIn), db)
    ensures env.user.Some? && req.avatar && Fails(env, Upload) ==> r == Reply(Failure(RemoteError(Upload)), db)
    ensures r.out.Success? <==>
      && env.user.Some? && (!req.avatar || !Fails(env, Upload)) && !Fails(env, Write)
      && Count(db.profiles, IsProfileOf(env.user.value)) == 1
    ensures r.db.images == if env.user.Some? && req.avatar && !Fails(env, Upload) then db.images + {up.key} else db.images
    ensures r.out.Failure? ==> r.db.(images := db.images) == db
    ensures r.out.Success? ==>
      var i := FindIndex(db.profiles, IsProfileOf(env.user.value));
      && 0 <= i
      && r.db.profiles == db.profiles[i := Patch(req, up)(db.profiles[i])]
      && r.out.value == Transform(r.db.profiles[i])
      && r.db.(profiles := db.profiles, images := db.images) == db
  {
    match env.user
    case None => Reply(Failure(NotLoggedIn), db)
    case Some(me) =>
      if req.avatar && Fails(env, Upload) then Reply(Failure(RemoteError(Upload)), db)
      else
        var stored := if req.avatar then db.(images := db.images + {up.key}) else db;
        if Fails(env, Write) then Reply(Failure(RemoteError(Write)), stored)
        else if Count(db.profiles, IsProfileOf(me)) != 1 then Reply(Failure(NoSuchProfile), stored)
        else
          var i := FindIndex(db.profiles, IsProfileOf(me));
          var row := Patch(req, up)(db.profiles[i]);
          Reply(Success(Transform(row)), stored.(profiles := db.profiles[i := row]))
  }

  /** A successful update changes only the user's own row, and of it only
      what the request gives: a given name replaces the old one, a picked
      avatar replaces the url, and every other column is kept. */
  lemma UpdateChangesOnlyGivenFields(db: Db, env: Env, req: ProfileEdit, up: AvatarUpload)
    requires UpdateProfile(db, env, req, up).out.Success?
    ensures var r := UpdateProfile(db, env, req, up);
            var me := env.user.value;
            && |r.db.profiles| == |db.profiles|
            && (forall j :: 0 <= j < |db.profiles| && db.profiles[j].id != me ==> r.db.profiles[j] == db.profiles[j])
            && (forall j :: 0 <= j < |db.profiles| && db.profiles[j].id == me ==>
                  var before := db.profiles[j];
                  var after := r.db.profiles[j];
                  && after.username == (if req.username.Some? then req.username else before.username)
                  && after.avatarUrl == (if req.avatar then Some(up.url) else before.avatarUrl)
                  && after.(username := before.username, avatarUrl := before.avatarUrl) == before
                  && r.out.value == Transform(after))
  {
    var me := env.user.value;
    var i := FindIndex(db.profiles, IsProfileOf(me));
    forall k | 0 <= k < |db.profiles| && db.profiles[k].id == me
      ensures k == i
    {
      CountOneIndex(db.profiles, IsProfileOf(me), k, i);
    }
  }

  /** After a successful update, reading the profile again (as the same
      user, with a read that succeeds) yields exactly the profile the
      update returned. */
  lemma UpdateThenGet(db: Db, env: Env, req: ProfileEdit, up: AvatarUpload, later: Env)
    requires UpdateProfile(db, env, req, up).out.Success?
    requires later.user == env.user && !Fails(later, Lookup)
    ensures var r := UpdateProfile(db, env, req, up);
            GetCurrentProfile(r.db, later) == Success(Some(r.out.value))
  {
    var r := UpdateProfile(db, env, req, up);
    var me := env.user.value;
    var i := FindIndex(db.profiles, IsProfileOf(me));
    CountUpdate(db.profiles, i, Patch(req, up)(db.profiles[i]), IsProfileOf(me));
    var k := FindIndex(r.db.profiles, IsProfileOf(me));
    CountOneUnique(r.db.profiles, IsProfileOf(me), r.db.profiles[k], r.db.profiles[i]);
  }
}

=== FILE: profile_store.dfy ===
/** The profile store: the signed-in user's profile, whether it has been
    loaded, and the name and avatar the pages show. The `loading` flag
    and the toast messages are left out. */
module ProfileStore {
  import opened Wrappers
  import opened Remote
  import Seqs
  import Svc = ProfileService

  type Profile = Svc.Profile

  datatype ProfileState = ProfileState(profile: Option<Profile>, initialized: bool)

  const Initial := ProfileState(None, false)

  /** The name shown when the profile has none: "用户" ("user"). */
  const DefaultName := "\U{7528}\U{6237}"

  /** `username`: the profile's name when it is present and not empty
      (`profile?.username || '用户'`). */
  function Username(s: ProfileState): (n: string)
    ensures |n| > 0
    ensures n == DefaultName <==>
      s.profile.None? || s.profile.value.username.None? ||
      s.profile.value.username.value in {"", DefaultName}
    ensures n != DefaultName ==> s.profile.Some? && s.profile.value.username == Some(n)
  {
    if s.profile.Some? && s.profile.value.username.Some? && s.profile.value.username.value != ""
    then s.profile.value.username.value
    else DefaultName
  }

  /** `avatarUrl`: the profile's avatar url, or the empty string. */
  function AvatarUrl(s: ProfileState): (u: string)
    ensures u != "" ==> s.profile.Some? && s.profile.value.avatarUrl == Some(u)
    ensures s.profile.Some? && s.profile.value.avatarUrl.Some? ==> u == s.profile.value.avatarUrl.value
  {
    if s.profile.Some? && s.profile.value.avatarUrl.Some? then s.profile.value.avatarUrl.value else ""
  }

  /** `initialize`: does nothing once initialised; otherwise reads the
      profile and records it (a missing profile included) as initialised.
      A failed read leaves the store as it was, so a later call tries
      again. */
  function Initialize(s: ProfileState, db: Db, env: Env): (r: ProfileState)
    ensures s.initialized ==> r == s
    ensures !s.initialized ==>
      match Svc.GetCurrentProfile(db, env)
      case Failure(_) => r == s
      case Success(p) => r == ProfileState(p, true)
  {
    if s.initialized then s
    else
      match Svc.GetCurrentProfile(db, env)
      case Failure(_) => s
      case Success(p) => ProfileState(p, true)
  }

  /** Initialising twice is initialising once: after a successful
      initialisation every later one, whatever the backend answers, is a
      no-op; after a failed one the store is still uninitialised. */
  lemma InitializeOnce(s: ProfileState, db: Db, env: Env, db2: Db, env2: Env)
    ensures var r := Initialize(s, db, env);
            && (r.initialized ==> Initialize(r, db2, env2) == r)
            && (!r.initialized <==> !s.initialized && Svc.GetCurrentProfile(db, env).Failure?)
            && (!r.initialized ==> r == s)
  {
  }

  /** `updateProfile`: on success the store holds the profile the service
      returned and the answer is `success: true`; on failure the store is
      unchanged and the answer is `success: false`. */
  function UpdateProfile(s: ProfileState, db: Db, env: Env, req: Svc.ProfileEdit, up: Svc.AvatarUpload): (r: (bool, ProfileState, Db))
    ensures var call := Svc.UpdateProfile(db, env, req, up);
            && r.2 == call.db
            && (r.0 <==> call.out.Success?)
            && (r.0 ==> r.1 == s.(profile := Some(call.out.value)))
            && (!r.0 ==> r.1 == s)
  {
    var call := Svc.UpdateProfile(db, env, req, up);
    match call.out
    case Success(p) => (true, s.(profile := Some(p)), call.db)
    case Failure(_) => (false, s, call.db)
  }

  /** After a successful edit the store shows what the backend now holds:
      a fresh initialisation by the same user reads back the stored
      profile, and a non-empty new name is the name shown. */
  lemma UpdateShowsStored(s: ProfileState, db: Db, env: Env, req: Svc.ProfileEdit, up: Svc.AvatarUpload, later: Env)
    requires UpdateProfile(s, db, env, req, up).0
    requires later.user == env.user && !Fails(later, Lookup)
    ensures var r := UpdateProfile(s, db, env, req, up);
            && Initialize(Initial, r.2, later).profile == r.1.profile
            && (req.username.Some? && req.username.value != "" ==> Username(r.1) == req.username.value)
            && (req.avatar ==> AvatarUrl(r.1) == up.url)
  {
    Svc.UpdateThenGet(db, env, req, up, later);
    Svc.UpdateChangesOnlyGivenFields(db, env, req, up);
    var call := Svc.UpdateProfile(db, env, req, up);
    var i := Seqs.FindIndex(db.profiles, Svc.IsProfileOf(env.user.value));
    assert db.profiles[i].id == env.user.value;
  }

  /** `reset`: forget the profile and allow initialisation again. */
  function Reset(s: ProfileState): (r: ProfileState)
    ensures !r.initialized && r.profile.None?
    ensures Username(r) == DefaultName && AvatarUrl(r) == ""
  {
    Initial
  }

  /** After a reset the next initialisation reads the backend afresh, as
      on a first start. */
  lemma ResetThenInitialize(s: ProfileState, db: Db, env: Env)
    ensures Initialize(Reset(s), db, env) == Initialize(Initial, db, env)
    ensures Svc.GetCurrentProfile(db, env).Success? ==>
      Initialize(Reset(s), db, env) == ProfileState(Svc.GetCurrentProfile(db, env).value, true)
  {
  }
}

=== FILE: recommend.dfy ===
/** `getRecommendedUsers`: users to suggest to the caller, chosen from the
    follow graph in three tiers. A caller who follows nobody gets the newest
    profiles; one whose followings have no other followers gets the most
    recently updated profiles they do not follow; everyone else gets the
    users followed by their "co-followers" (the other followers of the
    people they follow), weighted by how many co-follow edges point at each,
    heaviest first. */
module Recommend {
  import opened Wrappers
  import opened Seqs
  import opened Sorting
  import opened Remote
  import opened SocialService

  function ProfileId(p: ProfileRow): UserId
  {
    p.id
  }

  /** Profile ids are unique, as for a primary key. */
  ghost predicate UniqueProfileIds(db: Db)
  {
    DistinctBy(db.profiles, ProfileId)
  }

  /** One weighted suggestion: the target's id, its joined profile (null
      when the join finds none) and its weight. */
  datatype Scored = Scored(target: UserId, profile: Option<ProfileRow>, weight: nat)

  function TargetOf(s: Scored): UserId
  {
    s.target
  }

  function WeightKey(s: Scored): int
  {
    s.weight
  }

  /** The three shapes the result takes, one per tier. */
  datatype Suggestions =
    | Newest(profiles: seq<ProfileRow>)
    | RecentlyActive(profiles: seq<ProfileRow>)
    | ByWeight(users: seq<Scored>)
  {
    /** The suggested user ids, in order. */
    function Ids(): seq<UserId>
    {
      if ByWeight? then Map(users, TargetOf) else Map(profiles, ProfileId)
    }
  }

  function CreatedKey(p: ProfileRow): int
  {
    p.createdAt
  }

  function UpdatedKey(p: ProfileRow): int
  {
    p.updatedAt
  }

  /** First tier: the `limit` newest profiles other than the caller's. */
  function RecentProfiles(db: Db, me: UserId, limit: nat): (r: seq<ProfileRow>)
    ensures |r| <= limit
    ensures forall p :: p in r ==> p in db.profiles && p.id != me
    ensures SortedDesc(r, CreatedKey)
    ensures |r| < limit ==> forall p :: p in db.profiles && p.id != me ==> p in r
    ensures forall p, q :: p in db.profiles && p.id != me && p !in r && q in r ==> q.createdAt >= p.createdAt
    ensures UniqueProfileIds(db) ==> DistinctBy(r, ProfileId)
  {
    var others := Filter(db.profiles, (p: ProfileRow) => p.id != me);
    var r := TopBy(others, CreatedKey, limit);
    forall p, q | p in db.profiles && p.id != me && p !in r && q in r
      ensures q.createdAt >= p.createdAt
    {
      assert p in others;
      assert CreatedKey(q) >= CreatedKey(p);
    }
    assert UniqueProfileIds(db) ==> DistinctBy(r, ProfileId) by {
      if UniqueProfileIds(db) {
        DistinctBySub(db.profiles, others, ProfileId);
        DistinctBySub(others, r, ProfileId);
      }
    }
    r
  }

  /** Second tier: the `limit` most recently updated profiles that are
      neither the caller's nor followed by the caller. */
  function ActiveProfiles(db: Db, me: UserId, ids: seq<UserId>, limit: nat): (r: seq<ProfileRow>)
    ensures |r| <= limit
    ensures forall p :: p in r ==> p in db.profiles && p.id != me && p.id !in ids
    ensures SortedDesc(r, UpdatedKey)
    ensures |r| < limit ==> forall p :: p in db.profiles && p.id != me && p.id !in ids ==> p in r
    ensures forall p, q :: p in db.profiles && p.id != me && p.id !in ids && p !in r && q in r ==>
      q.updatedAt >= p.updatedAt
    ensures UniqueProfileIds(db) ==> DistinctBy(r, ProfileId)
  {
    var others := Filter(db.profiles, (p: ProfileRow) => p.id != me && p.id !in ids);
    var r := TopBy(others, UpdatedKey, limit);
    forall p, q | p in db.profiles && p.id != me && p.id !in ids && p !in r && q in r
      ensures q.updatedAt >= p.updatedAt
    {
      assert p in others;
      assert UpdatedKey(q) >= UpdatedKey(p);
    }
    assert UniqueProfileIds(db) ==> DistinctBy(r, ProfileId) by {
      if UniqueProfileIds(db) {
        DistinctBySub(db.profiles, others, ProfileId);
        DistinctBySub(others, r, ProfileId);
      }
    }
    r
  }

  /** `u` follows one of `ids` and is not the caller: a co-follower. */
  ghost predicate CoFollower(db: Db, me: UserId, ids: seq<UserId>, u: UserId)
  {
    u != me && exists f :: f in db.follows && f.followerId == u && f.followingId in ids
  }

  /** The second query: the follower of every row that points at one of
      `ids` and was not written by the caller, in table order, repeats
      included. */
  function CoFollowers(db: Db, me: UserId, ids: seq<UserId>): (us: seq<UserId>)
    ensures forall u :: u in us <==> CoFollower(db, me, ids, u)
  {
    var rows := Filter(db.follows, (f: FollowRow) => f.followingId in ids && f.followerId != me);
    var us := Map(rows, (f: FollowRow) => f.followerId);
    forall u
      ensures u in us <==> CoFollower(db, me, ids, u)
    {
      if u in us {
        var i :| 0 <= i < |us| && us[i] == u;
        assert rows[i] in rows;
      }
      if CoFollower(db, me, ids, u) {
        var f :| f in db.follows && f.followerId == u && f.followingId in ids;
        assert f in rows;
        var i :| 0 <= i < |rows| && rows[i] == f;
        assert us[i] == u;
      }
    }
    us
  }

  /** A row the third query keeps: written by one of `similar`, pointing at
      someone who is neither the caller nor already followed. */
  predicate IsCandidateRow(f: FollowRow, me: UserId, ids: seq<UserId>, similar: seq<UserId>)
  {
    f.followerId in similar && f.followingId !in ids && f.followingId != me
  }

  function PickRows(follows: seq<FollowRow>, me: UserId, ids: seq<UserId>, similar: seq<UserId>): (rows: seq<FollowRow>)
    ensures forall f :: f in rows <==> f in follows && IsCandidateRow(f, me, ids, similar)
  {
    Filter(follows, (f: FollowRow) => IsCandidateRow(f, me, ids, similar))
  }

  function FollowCreatedKey(f: FollowRow): int
  {
    f.createdAt
  }

  /** The third query's rows, newest first. */
  function CandidateRows(db: Db, me: UserId, ids: seq<UserId>, similar: seq<UserId>): (rows: seq<FollowRow>)
    ensures forall f :: f in rows <==> f in db.follows && IsCandidateRow(f, me, ids, similar)
    ensures multiset(rows) == multiset(PickRows(db.follows, me, ids, similar))
    ensures SortedDesc(rows, FollowCreatedKey)
  {
    var picked := PickRows(db.follows, me, ids, similar);
    var rows := SortDesc(picked, FollowCreatedKey);
    assert forall f :: f in rows <==> f in picked by {
      forall f
        ensures f in rows <==> f in picked
      {
        assert f in rows <==> f in multiset(rows);
        assert f in picked <==> f in multiset(picked);
      }
    }
    rows
  }

  function FollowingOf(f: FollowRow): UserId
  {
    f.followingId
  }

  /** The predicate "this row points at `t`". */
  function PointsAt(t: UserId): FollowRow -> bool
  {
    (f: FollowRow) => f.followingId == t
  }

  /** `userCounts[t]`: how many of `rows` point at `t`. */
  function WeightOf(rows: seq<FollowRow>, t: UserId): (n: nat)
    ensures n == 0 <==> t !in Map(rows, FollowingOf)
  {
    var n := Count(rows, PointsAt(t));
    assert n == 0 <==> t !in Map(rows, FollowingOf) by {
      if t in Map(rows, FollowingOf) {
        var i :| 0 <= i < |rows| && Map(rows, FollowingOf)[i] == t;
        assert rows[i] in rows && PointsAt(t)(rows[i]);
      }
    }
    n
  }

  /** The distinct targets of `rows` in order of first occurrence: the keys
      of the `Map` built from the rows. */
  function Targets(rows: seq<FollowRow>): (ts: seq<UserId>)
    ensures Distinct(ts)
    ensures forall t :: t in ts <==> t in Map(rows, FollowingOf)
    ensures forall i, j :: 0 <= i < j < |ts| ==>
      FirstIndex(Map(rows, FollowingOf), ts[i]) < FirstIndex(Map(rows, FollowingOf), ts[j])
  {
    Dedup(Map(rows, FollowingOf))
  }

  /** The values of that `Map`: per target, its joined profile and weight. */
  function Candidates(db: Db, rows: seq<FollowRow>): (cs: seq<Scored>)
    ensures Map(cs, TargetOf) == Targets(rows)
    ensures forall c :: c in cs ==> c == Scored(c.target, ProfileOf(db, c.target), WeightOf(rows, c.target))
  {
    var targets := Targets(rows);
    var cs := Map(targets, (t: UserId) => Scored(t, ProfileOf(db, t), WeightOf(rows, t)));
    assert forall i :: 0 <= i < |cs| ==> cs[i].target == targets[i];
    cs
  }

  /** Each candidate is distinct, one per target. */
  lemma CandidatesDistinct(db: Db, rows: seq<FollowRow>)
    ensures Distinct(Candidates(db, rows))
  {
    var cs := Candidates(db, rows);
    forall i, j | 0 <= i < j < |cs|
      ensures cs[i] != cs[j]
    {
      assert Map(cs, TargetOf)[i] == cs[i].target && Map(cs, TargetOf)[j] == cs[j].target;
    }
  }

  /** Every target of `rows` has its entry among the candidates. */
  lemma CandidateFor(db: Db, rows: seq<FollowRow>, t: UserId) returns (c: Scored)
    requires t in Map(rows, FollowingOf)
    ensures c in Candidates(db, rows) && c.target == t
  {
    var cs := Candidates(db, rows);
    var ts := Map(cs, TargetOf);
    assert t in Targets(rows);
    var i :| 0 <= i < |ts| && ts[i] == t;
    c := cs[i];
  }

  /** `f` of a member is a member of `Map(s, f)`. */
  lemma MapMember<T, U>(s: seq<T>, f: T -> U, x: T)
    requires x in s
    ensures f(x) in Map(s, f)
  {
    var i :| 0 <= i < |s| && s[i] == x;
    assert Map(s, f)[i] == f(x);
  }

  /** The candidates, heaviest first, ties in first-occurrence order
      (`RankedKeepsTieOrder`), cut to `limit`. */
  function Ranked(db: Db, rows: seq<FollowRow>, limit: nat): (r: seq<Scored>)
    ensures |r| <= limit
    ensures SortedDesc(r, WeightKey)
    ensures forall c :: c in r ==>
      && c == Scored(c.target, ProfileOf(db, c.target), WeightOf(rows, c.target))
      && c.target in Map(rows, FollowingOf)
    ensures Distinct(Map(r, TargetOf))
  {
    var cs := Candidates(db, rows);
    var r := TopBy(cs, WeightKey, limit);
    CandidatesDistinct(db, rows);
    DistinctSub(cs, r);
    forall c | c in r
      ensures c.target in Map(rows, FollowingOf)
    {
      MapMember(cs, TargetOf, c);
    }
    assert Distinct(Map(r, TargetOf)) by {
      forall i, j | 0 <= i < j < |r|
        ensures r[i].target != r[j].target
      {
        assert r[i] in cs && r[j] in cs;
      }
    }
    r
  }

  /** The cut keeps the heaviest: a target left out weighs no more than any
      suggestion kept. */
  lemma RankedKeepsHeaviest(db: Db, rows: seq<FollowRow>, limit: nat, t: UserId, c: Scored)
    requires t in Map(rows, FollowingOf) && t !in Map(Ranked(db, rows, limit), TargetOf)
    requires c in Ranked(db, rows, limit)
    ensures c.weight >= WeightOf(rows, t)
  {
    var r := Ranked(db, rows, limit);
    var x := CandidateFor(db, rows, t);
    if x in r {
      MapMember(r, TargetOf, x);
    }
    assert WeightKey(c) >= WeightKey(x);
  }

  /** With fewer than `limit` suggestions, every target is suggested. */
  lemma RankedComplete(db: Db, rows: seq<FollowRow>, limit: nat, t: UserId)
    requires |Ranked(db, rows, limit)| < limit
    requires t in Map(rows, FollowingOf)
    ensures t in Map(Ranked(db, rows, limit), TargetOf)
  {
    var x := CandidateFor(db, rows, t);
    MapMember(Ranked(db, rows, limit), TargetOf, x);
  }

  /** The ids of a profile listing avoid whatever its profiles avoid, and
      are distinct when the profiles' ids are. */
  lemma ProfileIds(ps: seq<ProfileRow>, banned: UserId -> bool)
    requires forall p :: p in ps ==> !banned(p.id)
    ensures forall t :: t in Map(ps, ProfileId) ==> !banned(t)
    ensures DistinctBy(ps, ProfileId) ==> Distinct(Map(ps, ProfileId))
  {
    forall t | t in Map(ps, ProfileId)
      ensures !banned(t)
    {
      var i :| 0 <= i < |ps| && Map(ps, ProfileId)[i] == t;
      assert ps[i] in ps;
    }
  }

  /** First tier as a result. */
  function NewestTier(db: Db, me: UserId, limit: nat): (s: Suggestions)
    ensures s == Newest(RecentProfiles(db, me, limit))
    ensures |s.Ids()| <= limit && me !in s.Ids()
    ensures UniqueProfileIds(db) ==> Distinct(s.Ids())
  {
    var ps := RecentProfiles(db, me, limit);
    ProfileIds(ps, (t: UserId) => t == me);
    Newest(ps)
  }

  /** Second tier as a result. */
  function ActiveTier(db: Db, me: UserId, ids: seq<UserId>, limit: nat): (s: Suggestions)
    ensures s == RecentlyActive(ActiveProfiles(db, me, ids, limit))
    ensures |s.Ids()| <= limit && me !in s.Ids()
    ensures forall t :: t in s.Ids() ==> t !in ids
    ensures UniqueProfileIds(db) ==> Distinct(s.Ids())
  {
    var ps := ActiveProfiles(db, me, ids, limit);
    ProfileIds(ps, (t: UserId) => t == me || t in ids);
    RecentlyActive(ps)
  }

  /** Third tier as a result. */
  function WeightedTier(db: Db, me: UserId, ids: seq<UserId>, similar: seq<UserId>, limit: nat): (s: Suggestions)
    ensures s == ByWeight(Ranked(db, CandidateRows(db, me, ids, similar), limit))
    ensures |s.Ids()| <= limit && me !in s.Ids()
    ensures forall t :: t in s.Ids() ==> t !in ids
    ensures Distinct(s.Ids())
    ensures forall u :: u in s.users && u.profile.Some? ==> u.profile.value.id == u.target
  {
    var rows := CandidateRows(db, me, ids, similar);
    WeightedTargetsAllowed(db, me, ids, similar, limit);
    RankedJoinsMatch(db, rows, limit);
    ByWeight(Ranked(db, rows, limit))
  }

  /** No weighted suggestion is the caller or someone the caller follows. */
  lemma WeightedTargetsAllowed(db: Db, me: UserId, ids: seq<UserId>, similar: seq<UserId>, limit: nat)
    ensures var users := Ranked(db, CandidateRows(db, me, ids, similar), limit);
            forall t :: t in Map(users, TargetOf) ==> t != me && t !in ids
  {
    var rows := CandidateRows(db, me, ids, similar);
    var users := Ranked(db, rows, limit);
    forall t | t in Map(users, TargetOf)
      ensures t != me && t !in ids
    {
      var i :| 0 <= i < |users| && Map(users, TargetOf)[i] == t;
      assert users[i] in users;
      var j :| 0 <= j < |rows| && Map(rows, FollowingOf)[j] == t;
      assert rows[j] in rows;
    }
  }

  /** Each weighted suggestion carries its own target's profile. */
  lemma RankedJoinsMatch(db: Db, rows: seq<FollowRow>, limit: nat)
    ensures forall u :: u in Ranked(db, rows, limit) && u.profile.Some? ==> u.profile.value.id == u.target
  {
    forall u | u in Ranked(db, rows, limit) && u.profile.Some?
      ensures u.profile.value.id == u.target
    {
      assert u.profile == ProfileOf(db, u.target);
    }
  }

  /** `getRecommendedUsers(limit)`. A failed read of the caller's follows or
      of the co-followers counts as an empty answer and falls through to the
      next tier; a failed profile listing or candidate query is an error. */
  function GetRecommendedUsers(db: Db, env: Env, limit: nat): (r: Outcome<Suggestions>)
    ensures env.user.None? ==> r == Failure(NotLoggedIn)
    ensures r.Failure? ==>
      r.error in {NotLoggedIn, RemoteError(ProfilesQuery), RemoteError(CandidatesQuery)}
    ensures r.Success? ==> |r.value.Ids()| <= limit
    ensures r.Success? ==> env.user.value !in r.value.Ids()
    ensures r.Success? && !Fails(env, FollowingsQuery) ==>
      forall t :: t in r.value.Ids() ==> !Follows(db, env.user.value, t)
    ensures r.Success? && (r.value.ByWeight? || UniqueProfileIds(db)) ==> Distinct(r.value.Ids())
    ensures r.Success? && r.value.ByWeight? ==>
      forall u :: u in r.value.users && u.profile.Some? ==> u.profile.value.id == u.target
  {
    match env.user
    case None => Failure(NotLoggedIn)
    case Some(me) =>
      var ids := if Fails(env, FollowingsQuery) then [] else FollowingIds(db, me);
      if |ids| == 0 then
        if Fails(env, ProfilesQuery) then Failure(RemoteError(ProfilesQuery))
        else Success(NewestTier(db, me, limit))
      else
        var backers := if Fails(env, CoFollowersQuery) then [] else CoFollowers(db, me, ids);
        if |backers| == 0 then
          if Fails(env, ProfilesQuery) then Failure(RemoteError(ProfilesQuery))
          else Success(ActiveTier(db, me, ids, limit))
        else if Fails(env, CandidatesQuery) then Failure(RemoteError(CandidatesQuery))
        else Success(WeightedTier(db, me, ids, Dedup(backers), limit))
  }

  /** The users in `similar` with a row in `follows` pointing at `t`. */
  ghost function BackersIn(follows: seq<FollowRow>, similar: seq<UserId>, t: UserId): set<UserId>
  {
    set f | f in follows && f.followerId in similar && f.followingId == t :: f.followerId
  }

  lemma UniquePairsTail(follows: seq<FollowRow>)
    requires |follows| > 0 && UniquePairs(follows)
    ensures UniquePairs(follows[1..])
  {
    var rest := follows[1..];
    forall i, j | 0 <= i < j < |rest|
      ensures !IsFollowOf(rest[j], rest[i].followerId, rest[i].followingId)
    {
      assert rest[i] == follows[i + 1] && rest[j] == follows[j + 1];
    }
  }

  /** The first row adds one to the count of picked rows pointing at `t`
      exactly when a co-follower wrote it for `t`. */
  lemma PickedStep(follows: seq<FollowRow>, me: UserId, ids: seq<UserId>, similar: seq<UserId>, t: UserId)
    requires |follows| > 0 && t !in ids && t != me
    ensures Count(PickRows(follows, me, ids, similar), PointsAt(t)) ==
      (if follows[0].followerId in similar && follows[0].followingId == t then 1 else 0) +
      Count(PickRows(follows[1..], me, ids, similar), PointsAt(t))
  {
    var f := follows[0];
    var picked := PickRows(follows, me, ids, similar);
    var pickedRest := PickRows(follows[1..], me, ids, similar);
    if IsCandidateRow(f, me, ids, similar) {
      assert picked == [f] + pickedRest;
      assert picked[1..] == pickedRest;
    } else {
      assert picked == pickedRest;
    }
  }

  /** The first row adds its writer to the backers of `t` exactly when a
      co-follower wrote it for `t`, and that writer is new. */
  lemma BackersStep(follows: seq<FollowRow>, similar: seq<UserId>, t: UserId)
    requires |follows| > 0 && UniquePairs(follows)
    ensures |BackersIn(follows, similar, t)| ==
      (if follows[0].followerId in similar && follows[0].followingId == t then 1 else 0) +
      |BackersIn(follows[1..], similar, t)|
  {
    var f := follows[0];
    var rest := follows[1..];
    var b := BackersIn(follows, similar, t);
    var bRest := BackersIn(rest, similar, t);
    assert follows == [f] + rest;
    if f.followerId in similar && f.followingId == t {
      assert b == {f.followerId} + bRest;
      assert f.followerId !in bRest;
    } else {
      assert b == bRest;
    }
  }

  lemma {:induction false} PickedCount(follows: seq<FollowRow>, me: UserId, ids: seq<UserId>, similar: seq<UserId>, t: UserId)
    requires UniquePairs(follows)
    requires t !in ids && t != me
    ensures Count(PickRows(follows, me, ids, similar), PointsAt(t)) == |BackersIn(follows, similar, t)|
  {
    if |follows| == 0 {
      assert BackersIn(follows, similar, t) == {};
    } else {
      UniquePairsTail(follows);
      PickedCount(follows[1..], me, ids, similar, t);
      PickedStep(follows, me, ids, similar, t);
      BackersStep(follows, similar, t);
    }
  }

  /** A suggestion's weight is the number of distinct co-followers who
      follow it: the rows are counted, and no user follows anyone twice. */
  lemma WeightCountsBackers(db: Db, me: UserId, ids: seq<UserId>, similar: seq<UserId>, t: UserId)
    requires UniqueFollows(db)
    requires t !in ids && t != me
    ensures WeightOf(CandidateRows(db, me, ids, similar), t) == |BackersIn(db.follows, similar, t)|
  {
    CountPerm(CandidateRows(db, me, ids, similar), PickRows(db.follows, me, ids, similar), PointsAt(t));
    PickedCount(db.follows, me, ids, similar, t);
  }

  /** Equal weights leave the ranking in candidate order, which is the
      order in which the targets first occur among the rows; the entries of
      one weight that survive the cut are the first ones of that weight. */
  lemma RankedKeepsTieOrder(db: Db, rows: seq<FollowRow>, limit: nat, w: int)
    ensures WithKey(Ranked(db, rows, limit), WeightKey, w) <= WithKey(Candidates(db, rows), WeightKey, w)
  {
    TopByStable(Candidates(db, rows), WeightKey, limit, w);
  }

  /** Which tier answers: the first when the caller's follows read as
      empty, the second when the co-followers do, the third otherwise; each
      tier's answer is the listing defined above. */
  lemma TierSelection(db: Db, env: Env, limit: nat)
    requires env.user.Some?
    requires !Fails(env, ProfilesQuery) && !Fails(env, CandidatesQuery)
    ensures var me := env.user.value;
            var r := GetRecommendedUsers(db, env, limit);
            var ids := FollowingIds(db, me);
            && r.Success?
            && (r.value.Newest? <==> Fails(env, FollowingsQuery) || forall t :: !Follows(db, me, t))
            && (r.value.RecentlyActive? <==>
                  && !Fails(env, FollowingsQuery) && (exists t :: Follows(db, me, t))
                  && (Fails(env, CoFollowersQuery) || forall u :: !CoFollower(db, me, ids, u)))
            && (r.value.Newest? ==> r.value.profiles == RecentProfiles(db, me, limit))
            && (r.value.RecentlyActive? ==> r.value.profiles == ActiveProfiles(db, me, ids, limit))
            && (r.value.ByWeight? ==>
                  r.value.users == Ranked(db, CandidateRows(db, me, ids, Dedup(CoFollowers(db, me, ids))), limit))
  {
    var me := env.user.value;
    var ids := FollowingIds(db, me);
    if |ids| > 0 {
      assert Follows(db, me, ids[0]);
      var us := CoFollowers(db, me, ids);
      if |us| > 0 {
        assert CoFollower(db, me, ids, us[0]);
      }
    }
  }

  /** No rows are picked when every row of the co-followers points at the
      caller or at a followed user. */
  lemma NoCandidateRows(db: Db, me: UserId, ids: seq<UserId>, similar: seq<UserId>)
    requires forall f :: f in db.follows && f.followerId in similar ==> f.followingId == me || f.followingId in ids
    ensures CandidateRows(db, me, ids, similar) == []
  {
    NoMemberEmpty(CandidateRows(db, me, ids, similar));
  }

  /** The third tier can come back empty, and then the answer is empty: it
      does not fall back to another tier. This happens when every row a
      co-follower wrote points at the caller or at someone the caller
      already follows. */
  lemma WeightedTierMayBeEmpty(db: Db, env: Env, limit: nat)
    requires env.user.Some?
    requires !Fails(env, FollowingsQuery) && !Fails(env, CoFollowersQuery) && !Fails(env, CandidatesQuery)
    requires exists u :: CoFollower(db, env.user.value, FollowingIds(db, env.user.value), u)
    requires forall f :: f in db.follows && CoFollower(db, env.user.value, FollowingIds(db, env.user.value), f.followerId) ==>
      f.followingId == env.user.value || Follows(db, env.user.value, f.followingId)
    ensures GetRecommendedUsers(db, env, limit) == Success(ByWeight([]))
  {
    var me := env.user.value;
    var ids := FollowingIds(db, me);
    var us := CoFollowers(db, me, ids);
    WeightedTierReached(db, env, limit);
    NoCandidateRows(db, me, ids, Dedup(us));
    assert Candidates(db, []) == [];
  }

  /** With a co-follower and working reads, the third tier answers. */
  lemma WeightedTierReached(db: Db, env: Env, limit: nat)
    requires env.user.Some?
    requires !Fails(env, FollowingsQuery) && !Fails(env, CoFollowersQuery) && !Fails(env, CandidatesQuery)
    requires exists u :: CoFollower(db, env.user.value, FollowingIds(db, env.user.value), u)
    ensures var me := env.user.value;
            var ids := FollowingIds(db, me);
            GetRecommendedUsers(db, env, limit) == Success(WeightedTier(db, me, ids, Dedup(CoFollowers(db, me, ids)), limit))
  {
    var me := env.user.value;
    var ids := FollowingIds(db, me);
    var u :| CoFollower(db, me, ids, u);
    var f :| f in db.follows && f.followerId == u && f.followingId in ids;
    assert |ids| > 0;
    assert u in CoFollowers(db, me, ids);
  }
}

=== FILE: remote.dfy ===
/** The managed backend as the client sees it: the rows of its tables, the
    counters its RPC functions maintain, the image bucket, and the
    environment of one call (who is signed in, which remote calls fail,
    the id and clock value the backend assigns). */
module Remote {
  import opened Wrappers
  import opened Seqs

  type UserId = string
  type Id = string

  /** A timestamp column; modelled as an integer ordered like the instants it
      denotes. */
  type Stamp = int

  /** A row of `profiles`. The count columns may be null. */
  datatype ProfileRow = ProfileRow(
    id: UserId,
    email: string,
    username: Option<string>,
    avatarUrl: Option<string>,
    followerCount: Option<int>,
    followingCount: Option<int>,
    createdAt: Stamp,
    updatedAt: Stamp)

  /** A row of `follows`: `followerId` follows `followingId`. */
  datatype FollowRow = FollowRow(followerId: UserId, followingId: UserId, createdAt: Stamp)

  /** A row of `likes`. */
  datatype LikeRow = LikeRow(userId: UserId, momentId: Id)

  /** A row of `comments`, also the client's `Comment` record. */
  datatype CommentRow = CommentRow(id: Id, userId: UserId, momentId: Id, content: string, createdAt: Stamp)

  /** A row of `reposts`, also the client's `Repost` record. */
  datatype RepostRow = RepostRow(id: Id, userId: UserId, momentId: Id, content: Option<string>, createdAt: Stamp)

  /** A row of `moments`. `date` is an ISO `YYYY-MM-DD` string. */
  datatype MomentRow = MomentRow(
    id: Id,
    userId: UserId,
    title: string,
    content: string,
    date: string,
    images: seq<string>,
    imageTimestamps: seq<string>,
    tags: seq<string>,
    likeCount: int,
    commentCount: int,
    repostCount: int,
    createdAt: Stamp,
    updatedAt: Stamp)

  /** The counters the `increment_*` / `decrement_*` RPC functions maintain. */
  datatype CounterKey =
    | LikeCount(moment: Id)
    | CommentCount(moment: Id)
    | RepostCount(moment: Id)
    | FollowerCount(user: UserId)
    | FollowingCount(user: UserId)

  /** The whole remote state. Table order stands for the store's natural
      row order; `images` holds the keys of the stored image objects. */
  datatype Db = Db(
    profiles: seq<ProfileRow>,
    follows: seq<FollowRow>,
    likes: seq<LikeRow>,
    comments: seq<CommentRow>,
    reposts: seq<RepostRow>,
    moments: seq<MomentRow>,
    counters: map<CounterKey, int>,
    images: set<string>)

  /** The remote call sites whose failure the model distinguishes. */
  datatype Call =
    | FollowingsQuery     // the requester's `follows` rows
    | CoFollowersQuery    // rows of users who follow one of those
    | CandidatesQuery     // the co-followers' own `follows` rows
    | ProfilesQuery       // the fallback `profiles` listings
    | FeedQuery           // the followed users' `moments`
    | Lookup              // a `single()` / `maybeSingle()` read of one row
    | LikedRead(moment: Id)     // `hasLiked`'s read for one moment
    | RepostedRead(moment: Id)  // `hasReposted`'s read for one moment
    | Write               // an insert, update or delete
    | CounterRpc(counter: CounterKey)  // the `increment_*` / `decrement_*` call on one counter
    | Upload              // storing image objects
    | StorageDelete       // deleting image objects

  /** One invocation's view of the outside world. */
  datatype Env = Env(user: Option<UserId>, failing: set<Call>, freshId: Id, now: Stamp)

  /** The errors the services raise. */
  datatype Error =
    | NotLoggedIn
    | AlreadyLiked
    | AlreadyReposted
    | AlreadyFollowing
    | CannotFollowSelf
    | NoSuchComment
    | NoSuchRepost
    | NoSuchMoment
    | NoSuchProfile
    | BadImageIndex
    | RemoteError(call: Call)

  type Outcome<T> = Result<T, Error>

  /** A service call's result together with the remote state it leaves. */
  datatype Reply<T> = Reply(out: Outcome<T>, db: Db)

  predicate Fails(env: Env, c: Call)
  {
    c in env.failing
  }

  /** `maybeSingle()` at call site `at` yields a row only when the read
      succeeds and exactly one row matches; no match, several matches and an
      error all read as `null`. */
  predicate MaybeSingleFinds<T(==,!new)>(env: Env, at: Call, rows: seq<T>, p: T -> bool)
  {
    !Fails(env, at) && Count(rows, p) == 1
  }

  /** The current value of a counter; an absent counter reads as 0. */
  function CounterValue(counters: map<CounterKey, int>, k: CounterKey): int
  {
    if k in counters then counters[k] else 0
  }

  /** How much a one-step counter call under `env` moves counter `k`:
      one step, or none when that call fails. */
  function Applied(env: Env, k: CounterKey): (n: int)
    ensures n == 0 || n == 1
    ensures n == 1 <==> !Fails(env, CounterRpc(k))
  {
    if Fails(env, CounterRpc(k)) then 0 else 1
  }

  /** An increment or decrement RPC. Its result is never inspected, so a
      failing call simply leaves the counter alone. Each counter's call
      fails or succeeds on its own. */
  function Rpc(db: Db, env: Env, k: CounterKey, delta: int): (d: Db)
    ensures d.(counters := db.counters) == db
    ensures Fails(env, CounterRpc(k)) ==> d == db
    ensures !Fails(env, CounterRpc(k)) ==> CounterValue(d.counters, k) == CounterValue(db.counters, k) + delta
    ensures forall k' :: k' != k ==> CounterValue(d.counters, k') == CounterValue(db.counters, k')
  {
    if Fails(env, CounterRpc(k)) then db
    else db.(counters := db.counters[k := CounterValue(db.counters, k) + delta])
  }

  /** The profile row with id `id`, if any (the `profiles:user_id (...)` join). */
  function ProfileOf(db: Db, id: UserId): (r: Option<ProfileRow>)
    ensures r.Some? ==> r.value in db.profiles && r.value.id == id
    ensures r.None? ==> forall p :: p in db.profiles ==> p.id != id
  {
    var i := FindIndex(db.profiles, (p: ProfileRow) => p.id == id);
    if i == -1 then None else Some(db.profiles[i])
  }
}

=== FILE: router.dfy ===
/** The router: its route table and the guard that runs before every
    navigation. The guard first lets the auth store initialise itself (code
    outside this model; its outcome is a parameter), then sends a signed-out
    user away from pages that need a session and a signed-in user away from
    the sign-in page. */
module Router {
  import opened Seqs

  datatype Meta = Meta(requiresAuth: bool, requiresGuest: bool)

  /** A route record; the page component it renders is left out. */
  datatype RouteRecord = RouteRecord(path: string, name: string, meta: Meta)

  const AuthPath := "/auth"
  const HomePath := "/"

  /** The route table, in declaration order. */
  const Routes: seq<RouteRecord> := [
    RouteRecord(AuthPath, "auth", Meta(false, true)),
    RouteRecord(HomePath, "home", Meta(true, false)),
    RouteRecord("/moments", "moments", Meta(true, false)),
    RouteRecord("/settings", "settings", Meta(true, false))
  ]

  /** An ASCII capital letter in lower case; any other character as it
      is. */
  function LowerChar(c: char): (d: char)
    ensures 'A' <= c <= 'Z' ==> d as int == c as int + 32
    ensures !('A' <= c <= 'Z') ==> d == c
  {
    if 'A' <= c <= 'Z' then (c as int + 32) as char else c
  }

  function Lower(s: string): (r: string)
    ensures |r| == |s|
    ensures forall i :: 0 <= i < |s| ==> r[i] == LowerChar(s[i])
  {
    seq(|s|, i requires 0 <= i < |s| => LowerChar(s[i]))
  }

  /** Whether a record with path `recordPath` matches `path` under the
      router's defaults (neither `strict` nor `sensitive` is set): letter
      case is ignored and one trailing slash is optional, so the root
      record takes "/" and the empty path. */
  predicate PathMatches(recordPath: string, path: string)
  {
    var stem := if recordPath == "/" then "" else recordPath;
    Lower(path) == stem || Lower(path) == stem + "/"
  }

  /** The records of `rs` that match `path`, in order. */
  function MatchIn(rs: seq<RouteRecord>, path: string): (ms: seq<RouteRecord>)
    ensures forall r :: r in ms <==> r in rs && PathMatches(r.path, path)
  {
    if |rs| == 0 then []
    else
      assert rs == [rs[0]] + rs[1..];
      (if PathMatches(rs[0].path, path) then [rs[0]] else []) + MatchIn(rs[1..], path)
  }

  /** The records a path matches (`to.matched`); the table is flat, so at
      most one. */
  function Matched(path: string): (ms: seq<RouteRecord>)
    ensures forall r :: r in ms <==> r in Routes && PathMatches(r.path, path)
  {
    MatchIn(Routes, path)
  }

  predicate NeedsAuth(ms: seq<RouteRecord>)
  {
    exists r :: r in ms && r.meta.requiresAuth
  }

  predicate NeedsGuest(ms: seq<RouteRecord>)
  {
    exists r :: r in ms && r.meta.requiresGuest
  }

  /** The record paths of the pages that need a session. */
  const SessionPaths: seq<string> := ["/", "/moments", "/settings"]

  /** The record paths of the whole table. */
  const TablePaths: seq<string> := [AuthPath] + SessionPaths

  /** Two different record paths of the table never match the same path. */
  lemma PathsDisjoint(p: string, q: string, path: string)
    requires p in TablePaths && q in TablePaths && p != q
    ensures PathMatches(p, path) ==> !PathMatches(q, path)
  {
    if PathMatches(p, path) {
      assert "/moments/"[1] != "/settings"[1];
    }
  }

  /** Any spelling of the sign-in path the router matches is for guests
      only. */
  lemma SignInIsGuestOnly(path: string)
    requires PathMatches(AuthPath, path)
    ensures NeedsGuest(Matched(path)) && !NeedsAuth(Matched(path))
  {
    assert Routes[0] in Matched(path);
    forall r | r in Matched(path)
      ensures r == Routes[0]
    {
      if r.path != AuthPath {
        PathsDisjoint(AuthPath, r.path, path);
      }
    }
  }

  /** Any spelling of the other three pages the router matches needs a
      session and is not for guests. */
  lemma SessionPage(p: string, path: string)
    requires p in SessionPaths && PathMatches(p, path)
    ensures NeedsAuth(Matched(path)) && !NeedsGuest(Matched(path))
  {
    var k := if p == "/" then 1 else if p == "/moments" then 2 else 3;
    assert Routes[k] in Matched(path);
    forall r | r in Matched(path)
      ensures !r.meta.requiresGuest
    {
      if r.path != p {
        PathsDisjoint(p, r.path, path);
      }
    }
  }

  /** A path no record of the table matches has no matched records. */
  lemma UnknownPath(path: string)
    requires forall q :: q in TablePaths ==> !PathMatches(q, path)
    ensures Matched(path) == []
  {
    NoMemberEmpty(Matched(path));
  }

  /** The two redirect targets are spelled as their records' paths. */
  lemma TargetsMatch()
    ensures PathMatches(AuthPath, AuthPath) && PathMatches(HomePath, HomePath)
  {
    assert Lower(AuthPath) == AuthPath;
    assert Lower(HomePath) == HomePath;
  }

  /** What the guard tells the router: go on, or go to `path` instead. */
  datatype Decision = Proceed | RedirectTo(path: string)

  /** The decision for the matched records and the session state. */
  function Decide(ms: seq<RouteRecord>, signedIn: bool): (d: Decision)
    ensures d == RedirectTo(AuthPath) <==> NeedsAuth(ms) && !signedIn
    ensures d == RedirectTo(HomePath) <==> NeedsGuest(ms) && signedIn
    ensures d == Proceed <==> (!NeedsAuth(ms) || signedIn) && (!NeedsGuest(ms) || !signedIn)
    ensures d.RedirectTo? ==> d.path in {AuthPath, HomePath}
  {
    if NeedsAuth(ms) && !signedIn then RedirectTo(AuthPath)
    else if NeedsGuest(ms) && signedIn then RedirectTo(HomePath)
    else Proceed
  }

  /** The need for a session is checked first: a record chain that asks
      for both sends a signed-out user to sign in and a signed-in one home. */
  lemma AuthCheckedFirst(ms: seq<RouteRecord>)
    requires NeedsAuth(ms) && NeedsGuest(ms)
    ensures Decide(ms, false) == RedirectTo(AuthPath)
    ensures Decide(ms, true) == RedirectTo(HomePath)
  {
  }

  /** A redirect never loops: the page it leads to lets the same user in. */
  lemma RedirectsSettle(path: string, signedIn: bool)
    ensures var d := Decide(Matched(path), signedIn);
            d.RedirectTo? ==> Decide(Matched(d.path), signedIn) == Proceed
  {
    TargetsMatch();
    SignInIsGuestOnly(AuthPath);
    SessionPage(HomePath, HomePath);
  }

  /** The auth store as the guard sees it. */
  datatype AuthState = AuthState(initialized: bool, signedIn: bool)

  /** `beforeEach(to)`: initialise the auth store if it is not yet, with
      `afterInit` the state initialisation leaves, then decide on the
      state that results. */
  function Guard(auth: AuthState, path: string, afterInit: AuthState): (r: (Decision, AuthState))
    ensures auth.initialized ==> r.1 == auth
    ensures !auth.initialized ==> r.1 == afterInit
    ensures r.0 == Decide(Matched(path), r.1.signedIn)
  {
    var now := if auth.initialized then auth else afterInit;
    (Decide(Matched(path), now.signedIn), now)
  }

  /** The guard over the route table: a signed-out user is sent to sign
      in from every spelling of a page but the sign-in page, a signed-in
      user is sent home from the sign-in page, and a path no record
      matches is let through. */
  lemma GuardOverTable(auth: AuthState, path: string, afterInit: AuthState)
    ensures var r := Guard(auth, path, afterInit);
            && (forall p :: p in SessionPaths && PathMatches(p, path) ==>
                  (r.0 == RedirectTo(AuthPath) <==> !r.1.signedIn))
            && (PathMatches(AuthPath, path) ==> (r.0 == RedirectTo(HomePath) <==> r.1.signedIn))
            && ((forall q :: q in TablePaths ==> !PathMatches(q, path)) ==> r.0 == Proceed)
  {
    forall p | p in SessionPaths && PathMatches(p, path)
      ensures NeedsAuth(Matched(path))
    {
      SessionPage(p, path);
    }
    if PathMatches(AuthPath, path) {
      SignInIsGuestOnly(path);
    }
    if forall q :: q in TablePaths ==> !PathMatches(q, path) {
      UnknownPath(path);
    }
  }

  /** For example, "/Settings/" is the settings page to the router, so
      the guard sends a signed-out user to sign in from it. */
  lemma MixedCaseTrailingSlashGuarded(auth: AuthState, afterInit: AuthState)
    ensures var r := Guard(auth, "/Settings/", afterInit);
            r.0 == RedirectTo(AuthPath) <==> !r.1.signedIn
  {
    LowerSettings();
    GuardOverTable(auth, "/Settings/", afterInit);
    assert "/settings" in SessionPaths;
  }

  lemma LowerSettings()
    ensures Lower("/Settings/") == "/settings/"
  {
    assert LowerChar('S') == 's';
  }
}

=== FILE: seqs.dfy ===
/** Sequence operations the app performs with `Array.prototype` methods
    (`filter`, `findIndex`, `splice`, `slice`, a `Set`/`Map` for
    de-duplication), each with the property the callers rely on. */
module Seqs {

  /** `a` can be obtained from `b` by deleting elements, so it keeps the
      relative order of `b`. */
  predicate IsSubseq<T(==)>(a: seq<T>, b: seq<T>)
    decreases |b|
  {
    |a| == 0 ||
    (|b| > 0 && ((a[0] == b[0] && IsSubseq(a[1..], b[1..])) || IsSubseq(a, b[1..])))
  }

  lemma {:induction false} SubseqReflexive<T>(s: seq<T>)
    ensures IsSubseq(s, s)
  {
    if |s| > 0 {
      SubseqReflexive(s[1..]);
    }
  }

  /** Deleting elements twice is deleting elements once. */
  lemma {:induction false} SubseqTransitive<T>(a: seq<T>, b: seq<T>, c: seq<T>)
    requires IsSubseq(a, b) && IsSubseq(b, c)
    ensures IsSubseq(a, c)
    decreases |c|
  {
    if |a| > 0 {
      if |b| > 0 && b[0] == c[0] && IsSubseq(b[1..], c[1..]) {
        if a[0] == b[0] && IsSubseq(a[1..], b[1..]) {
          SubseqTransitive(a[1..], b[1..], c[1..]);
        } else {
          SubseqTransitive(a, b[1..], c[1..]);
        }
      } else {
        SubseqTransitive(a, b, c[1..]);
      }
    }
  }

  /** No element occurs twice. */
  predicate Distinct<T(==)>(s: seq<T>)
  {
    forall i, j :: 0 <= i < j < |s| ==> s[i] != s[j]
  }

  /** No two elements share a key. */
  ghost predicate DistinctBy<T, K>(s: seq<T>, key: T -> K)
  {
    forall i, j :: 0 <= i < j < |s| ==> key(s[i]) != key(s[j])
  }

  /** The elements of `s` that satisfy `p`, in order (`filter`). */
  function Filter<T(==,!new)>(s: seq<T>, p: T -> bool): (r: seq<T>)
    ensures |r| <= |s|
    ensures forall x :: x in r <==> x in s && p(x)
    ensures IsSubseq(r, s)
    ensures multiset(r) <= multiset(s)
  {
    if |s| == 0 then []
    else
      assert s == [s[0]] + s[1..];
      if p(s[0]) then [s[0]] + Filter(s[1..], p)
      else Filter(s[1..], p)
  }

  /** Filtering keeps every copy of an element that satisfies `p` and no
      copy of one that does not. */
  lemma {:induction false} FilterMultiset<T(!new)>(s: seq<T>, p: T -> bool)
    ensures forall x :: multiset(Filter(s, p))[x] == if p(x) then multiset(s)[x] else 0
  {
    if |s| > 0 {
      FilterMultiset(s[1..], p);
      assert s == [s[0]] + s[1..];
    }
  }

  /** How many elements of `s` satisfy `p`. */
  function Count<T(==,!new)>(s: seq<T>, p: T -> bool): (n: nat)
    ensures n == |Filter(s, p)|
    ensures n == 0 <==> forall x :: x in s ==> !p(x)
  {
    if |s| == 0 then 0
    else (if p(s[0]) then 1 else 0) + Count(s[1..], p)
  }

  /** Every element satisfies exactly one of `p` and its complement `q`,
      so the two counts add up to the length. */
  lemma {:induction false} CountComplement<T(!new)>(s: seq<T>, p: T -> bool, q: T -> bool)
    requires forall x :: q(x) <==> !p(x)
    ensures Count(s, p) + Count(s, q) == |s|
  {
    if |s| > 0 {
      CountComplement(s[1..], p, q);
    }
  }

  lemma {:induction false} CountAppend<T(!new)>(a: seq<T>, b: seq<T>, p: T -> bool)
    ensures Count(a + b, p) == Count(a, p) + Count(b, p)
  {
    if |a| == 0 {
      assert a + b == b;
    } else {
      assert (a + b)[0] == a[0];
      assert (a + b)[1..] == a[1..] + b;
      CountAppend(a[1..], b, p);
    }
  }

  /** Counting `s` is counting one element and the rest. */
  lemma {:induction false} CountRemoveAt<T(!new)>(s: seq<T>, i: nat, p: T -> bool)
    requires i < |s|
    ensures Count(s, p) == (if p(s[i]) then 1 else 0) + Count(s[..i] + s[i + 1..], p)
  {
    if i == 0 {
      assert s[..0] + s[1..] == s[1..];
    } else {
      var t := s[1..];
      assert t[i - 1] == s[i];
      CountRemoveAt(t, i - 1, p);
      DropAfterHead(s, i);
      CountCons(s[0], t[..i - 1] + t[i..], p);
    }
  }

  /** Dropping a later element of `s` keeps its head in front. */
  lemma DropAfterHead<T>(s: seq<T>, i: nat)
    requires 0 < i < |s|
    ensures s[..i] + s[i + 1..] == [s[0]] + (s[1..][..i - 1] + s[1..][i..])
  {
  }

  /** Counting a sequence with a known head. */
  lemma CountCons<T(!new)>(x: T, rest: seq<T>, p: T -> bool)
    ensures Count([x] + rest, p) == (if p(x) then 1 else 0) + Count(rest, p)
  {
    assert ([x] + rest)[1..] == rest;
  }

  /** Replacing an element by one `p` judges alike keeps the count. */
  lemma {:induction false} CountUpdate<T(!new)>(s: seq<T>, i: nat, y: T, p: T -> bool)
    requires i < |s| && p(y) == p(s[i])
    ensures Count(s[i := y], p) == Count(s, p)
  {
    var t := s[i := y];
    assert t[..i] + t[i + 1..] == s[..i] + s[i + 1..];
    CountRemoveAt(s, i, p);
    CountRemoveAt(t, i, p);
  }

  /** Counting does not depend on the order of the elements. */
  lemma {:induction false} CountPerm<T(!new)>(a: seq<T>, b: seq<T>, p: T -> bool)
    requires multiset(a) == multiset(b)
    ensures Count(a, p) == Count(b, p)
    decreases |a|
  {
    if |a| == 0 {
      assert |multiset(b)| == 0;
    } else {
      var x := a[0];
      assert x in multiset(b);
      var i :| 0 <= i < |b| && b[i] == x;
      var rest := b[..i] + b[i + 1..];
      MultisetRemoveAt(b, i);
      assert multiset(rest) == multiset(a[1..]) by {
        assert a == [x] + a[1..];
      }
      CountPerm(a[1..], rest, p);
      CountRemoveAt(b, i, p);
    }
  }

  /** Removing the element at `i` removes one copy of it. */
  lemma MultisetRemoveAt<T>(b: seq<T>, i: nat)
    requires i < |b|
    ensures multiset(b[..i] + b[i + 1..]) == multiset(b) - multiset{b[i]}
  {
    assert b == b[..i] + ([b[i]] + b[i + 1..]);
  }

  /** An element satisfying `p` exists when `p` counts at least once. */
  lemma {:induction false} OneMatch<T(!new)>(s: seq<T>, p: T -> bool) returns (k: nat)
    requires Count(s, p) >= 1
    ensures k < |s| && p(s[k])
  {
    if p(s[0]) {
      k := 0;
    } else {
      var m := OneMatch(s[1..], p);
      k := m + 1;
    }
  }

  /** Two elements satisfying `p` exist when `p` counts at least twice. */
  lemma {:induction false} TwoMatches<T(!new)>(s: seq<T>, p: T -> bool) returns (i: nat, j: nat)
    requires Count(s, p) >= 2
    ensures i < j < |s| && p(s[i]) && p(s[j])
  {
    if p(s[0]) {
      var k := OneMatch(s[1..], p);
      i, j := 0, k + 1;
    } else {
      var a, b := TwoMatches(s[1..], p);
      i, j := a + 1, b + 1;
    }
  }

  lemma {:induction false} FilterAppend<T(!new)>(a: seq<T>, b: seq<T>, p: T -> bool)
    ensures Filter(a + b, p) == Filter(a, p) + Filter(b, p)
  {
    if |a| == 0 {
      assert a + b == b;
    } else {
      assert (a + b)[0] == a[0];
      assert (a + b)[1..] == a[1..] + b;
      FilterAppend(a[1..], b, p);
    }
  }

  /** Filtering by a predicate every element meets changes nothing. */
  lemma {:induction false} FilterKeepsAll<T(!new)>(s: seq<T>, p: T -> bool)
    requires forall x :: x in s ==> p(x)
    ensures Filter(s, p) == s
  {
    if |s| > 0 {
      FilterKeepsAll(s[1..], p);
      assert s == [s[0]] + s[1..];
    }
  }

  /** Filtering a list whose last element alone fails `p` drops just that
      element. */
  lemma FilterDropsLast<T(!new)>(base: seq<T>, x: T, p: T -> bool)
    requires forall y :: y in base ==> p(y)
    requires !p(x)
    ensures Filter(base + [x], p) == base
  {
    FilterAppend(base, [x], p);
    FilterKeepsAll(base, p);
    assert Filter([x], p) == [];
  }

  /** When exactly one element satisfies `p`, any two that do are equal. */
  lemma CountOneUnique<T(!new)>(s: seq<T>, p: T -> bool, x: T, y: T)
    requires Count(s, p) == 1
    requires x in s && y in s && p(x) && p(y)
    ensures x == y
  {
  }

  /** Two indices whose elements satisfy `p` make `p` count at least twice. */
  lemma CountAtLeastTwo<T(!new)>(s: seq<T>, p: T -> bool, k: nat, i: nat)
    requires k < i < |s| && p(s[k]) && p(s[i])
    ensures Count(s, p) >= 2
  {
    var front, back := s[..i], s[i..];
    assert front[k] == s[k] && back[0] == s[i];
    CountPositive(front, p, k);
    CountPositive(back, p, 0);
    SplitAt(s, i);
    CountAppend(front, back, p);
  }

  /** A sequence is its prefix followed by the rest. */
  lemma SplitAt<T>(s: seq<T>, i: nat)
    requires i <= |s|
    ensures s[..i] + s[i..] == s
  {
  }

  /** An index whose element satisfies `p` makes `p` count at least once. */
  lemma {:induction false} CountPositive<T(!new)>(s: seq<T>, p: T -> bool, i: nat)
    requires i < |s| && p(s[i])
    ensures Count(s, p) >= 1
  {
    if i > 0 {
      assert s[1..][i - 1] == s[i];
      CountPositive(s[1..], p, i - 1);
    }
  }

  /** Removing the only element that satisfies `p` leaves none that does. */
  lemma RemoveOnlyMatch<T(!new)>(s: seq<T>, p: T -> bool, i: nat)
    requires Count(s, p) <= 1 && i < |s| && p(s[i])
    ensures forall x :: x in RemoveAt(s, i) ==> !p(x)
  {
    CountRemoveAt(s, i, p);
    assert Count(RemoveAt(s, i), p) == 0;
  }

  /** When exactly one element satisfies `p`, it sits at one index. */
  lemma CountOneIndex<T(!new)>(s: seq<T>, p: T -> bool, k: nat, i: nat)
    requires Count(s, p) == 1
    requires k < |s| && i < |s| && p(s[k]) && p(s[i])
    ensures k == i
  {
    if k < i {
      CountAtLeastTwo(s, p, k, i);
      assert false;
    } else if i < k {
      CountAtLeastTwo(s, p, i, k);
      assert false;
    }
  }

  /** In a sequence without repetition each value occurs at most once. */
  lemma {:induction false} DistinctMultiplicity<T>(s: seq<T>, x: T)
    requires Distinct(s)
    ensures multiset(s)[x] <= 1
  {
    if |s| > 0 {
      assert s == [s[0]] + s[1..];
      assert Distinct(s[1..]) by {
        forall i, j | 0 <= i < j < |s[1..]|
          ensures s[1..][i] != s[1..][j]
        {
          assert s[1..][i] == s[i + 1] && s[1..][j] == s[j + 1];
        }
      }
      DistinctMultiplicity(s[1..], x);
      if s[0] == x {
        assert x !in s[1..];
      }
    }
  }

  /** Reordering or dropping elements keeps a sequence free of repetition. */
  lemma DistinctSub<T>(a: seq<T>, b: seq<T>)
    requires multiset(b) <= multiset(a)
    requires Distinct(a)
    ensures Distinct(b)
  {
    forall i, j | 0 <= i < j < |b|
      ensures b[i] != b[j]
    {
      if b[i] == b[j] {
        var x := b[i];
        assert b == b[..i] + [x] + b[i + 1..j] + [x] + b[j + 1..];
        assert multiset(b)[x] >= 2;
        DistinctMultiplicity(a, x);
        assert false;
      }
    }
  }

  /** Reordering or dropping elements keeps keys unique. */
  lemma DistinctBySub<T, K>(a: seq<T>, b: seq<T>, key: T -> K)
    requires multiset(b) <= multiset(a)
    requires DistinctBy(a, key)
    ensures DistinctBy(b, key)
  {
    assert Distinct(a) by {
      forall i, j | 0 <= i < j < |a|
        ensures a[i] != a[j]
      {
        assert key(a[i]) != key(a[j]);
      }
    }
    DistinctSub(a, b);
    forall i, j | 0 <= i < j < |b|
      ensures key(b[i]) != key(b[j])
    {
      assert b[i] in multiset(a) && b[j] in multiset(a);
      var k :| 0 <= k < |a| && a[k] == b[i];
      var l :| 0 <= l < |a| && a[l] == b[j];
      assert k != l;
    }
  }

  lemma HeadIsMember<T>(s: seq<T>)
    ensures |s| > 0 ==> s[0] in s
  {
  }

  /** A sequence with no members is empty. */
  lemma NoMemberEmpty<T>(s: seq<T>)
    requires forall x :: x !in s
    ensures s == []
  {
    if |s| > 0 {
      HeadIsMember(s);
      assert false;
    }
  }

  /** The first `n` elements, or all of them when there are fewer
      (`slice(0, n)` with `n >= 0`, or the query's `.limit(n)`). */
  function Take<T>(s: seq<T>, n: nat): (r: seq<T>)
    ensures |r| == if n < |s| then n else |s|
    ensures r <= s
    ensures multiset(r) <= multiset(s)
  {
    if n < |s| then
      assert s == s[..n] + s[n..];
      s[..n]
    else s
  }

  /** The index of the first element satisfying `p`, or -1 (`findIndex`). */
  function FindIndex<T>(s: seq<T>, p: T -> bool): (i: int)
    ensures -1 <= i < |s|
    ensures i == -1 <==> forall j :: 0 <= j < |s| ==> !p(s[j])
    ensures 0 <= i ==> p(s[i]) && forall j :: 0 <= j < i ==> !p(s[j])
  {
    if |s| == 0 then -1
    else if p(s[0]) then 0
    else
      var k := FindIndex(s[1..], p);
      if k == -1 then -1 else k + 1
  }

  /** `findIndex` answers the first position that satisfies `p`. */
  lemma FirstMatchFound<T>(s: seq<T>, p: T -> bool, k: int)
    requires 0 <= k < |s| && p(s[k])
    requires forall j :: 0 <= j < k ==> !p(s[j])
    ensures FindIndex(s, p) == k
  {
  }

  /** `s` without its element at index `i`; unchanged when `i` is out of
      range (`filter((_, index) => index !== i)`). */
  function RemoveAt<T>(s: seq<T>, i: int): (r: seq<T>)
    ensures 0 <= i < |s| ==> |r| == |s| - 1
    ensures !(0 <= i < |s|) ==> r == s
    ensures 0 <= i < |s| ==> forall j :: 0 <= j < |r| ==> r[j] == if j < i then s[j] else s[j + 1]
  {
    if 0 <= i < |s| then s[..i] + s[i + 1..] else s
  }

  /** Applies `f` to the first element satisfying `p` and leaves every other
      element alone (`find` followed by an in-place mutation). */
  function UpdateFirst<T>(s: seq<T>, p: T -> bool, f: T -> T): (r: seq<T>)
    ensures |r| == |s|
    ensures forall j :: 0 <= j < |s| && j != FindIndex(s, p) ==> r[j] == s[j]
    ensures 0 <= FindIndex(s, p) ==> r[FindIndex(s, p)] == f(s[FindIndex(s, p)])
  {
    var i := FindIndex(s, p);
    if i == -1 then s else s[i := f(s[i])]
  }

  /** The position of the first occurrence of `x` in `s`. */
  function FirstIndex<T(==)>(s: seq<T>, x: T): (i: nat)
    requires x in s
    ensures i < |s| && s[i] == x
    ensures forall j :: 0 <= j < i ==> s[j] != x
  {
    if s[0] == x then 0 else 1 + FirstIndex(s[1..], x)
  }

  /** The elements of `s` not in `seen`, each once, in the order of their
      first occurrence (what `[...new Set(s)]` and the keys of `new Map(...)`
      yield). */
  function DedupFrom<T(==,!new)>(s: seq<T>, seen: set<T>): (r: seq<T>)
    ensures Distinct(r)
    ensures forall x :: x in r <==> x in s && x !in seen
    ensures forall i, j :: 0 <= i < j < |r| ==> FirstIndex(s, r[i]) < FirstIndex(s, r[j])
  {
    if |s| == 0 then []
    else if s[0] in seen then DedupFrom(s[1..], seen)
    else [s[0]] + DedupFrom(s[1..], seen + {s[0]})
  }

  function Dedup<T(==,!new)>(s: seq<T>): (r: seq<T>)
    ensures Distinct(r)
    ensures forall x :: x in r <==> x in s
    ensures forall i, j :: 0 <= i < j < |r| ==> FirstIndex(s, r[i]) < FirstIndex(s, r[j])
  {
    DedupFrom(s, {})
  }

  /** The elements of `s` mapped through `f`, in order (`map`). */
  function Map<T, U>(s: seq<T>, f: T -> U): (r: seq<U>)
    ensures |r| == |s|
    ensures forall i :: 0 <= i < |s| ==> r[i] == f(s[i])
  {
    if |s| == 0 then [] else [f(s[0])] + Map(s[1..], f)
  }
}

=== FILE: social_service.dfy ===
/** `SupabaseSocialService`: likes, comments, reposts and follows as
    transitions of the remote state, and the feed of followed users'
    moments. Every mutation first asks for the signed-in user; the
    like/repost/follow creations refuse an existing row; removals do not
    look first; counter RPCs run after the row change and their results are
    ignored. */
module SocialService {
  import opened Wrappers
  import opened Seqs
  import opened Sorting
  import opened Remote

  predicate IsLikeOf(l: LikeRow, me: UserId, momentId: Id)
  {
    l.userId == me && l.momentId == momentId
  }

  predicate IsRepostOf(p: RepostRow, me: UserId, momentId: Id)
  {
    p.userId == me && p.momentId == momentId
  }

  predicate IsFollowOf(f: FollowRow, me: UserId, target: UserId)
  {
    f.followerId == me && f.followingId == target
  }

  /** At most one like per (user, moment). */
  ghost predicate UniqueLikes(db: Db)
  {
    Distinct(db.likes)
  }

  /** At most one repost per (user, moment). */
  ghost predicate UniqueReposts(db: Db)
  {
    forall i, j :: 0 <= i < j < |db.reposts| ==>
      !IsRepostOf(db.reposts[j], db.reposts[i].userId, db.reposts[i].momentId)
  }

  /** At most one row per ordered pair of users. */
  ghost predicate UniquePairs(follows: seq<FollowRow>)
  {
    forall i, j :: 0 <= i < j < |follows| ==>
      !IsFollowOf(follows[j], follows[i].followerId, follows[i].followingId)
  }

  /** At most one follow row per ordered pair of users. */
  ghost predicate UniqueFollows(db: Db)
  {
    UniquePairs(db.follows)
  }

  /** The rows each delete keeps: all but the caller's own like of the
      moment, comment or repost with the id, or follow of the target. */
  function NotLikeOf(me: UserId, momentId: Id): LikeRow -> bool
  {
    (l: LikeRow) => !IsLikeOf(l, me, momentId)
  }

  function NotOwnComment(me: UserId, commentId: Id): CommentRow -> bool
  {
    (c: CommentRow) => !(c.id == commentId && c.userId == me)
  }

  function NotOwnRepost(me: UserId, repostId: Id): RepostRow -> bool
  {
    (p: RepostRow) => !(p.id == repostId && p.userId == me)
  }

  function NotFollowOf(me: UserId, target: UserId): FollowRow -> bool
  {
    (f: FollowRow) => !IsFollowOf(f, me, target)
  }

  /** The pre-insert existence check of `likeMoment`. */
  predicate LikeFound(db: Db, env: Env, me: UserId, momentId: Id)
  {
    MaybeSingleFinds(env, Lookup, db.likes, (l: LikeRow) => IsLikeOf(l, me, momentId))
  }

  predicate RepostFound(db: Db, env: Env, me: UserId, momentId: Id)
  {
    MaybeSingleFinds(env, Lookup, db.reposts, (p: RepostRow) => IsRepostOf(p, me, momentId))
  }

  predicate FollowFound(db: Db, env: Env, me: UserId, target: UserId)
  {
    MaybeSingleFinds(env, Lookup, db.follows, (f: FollowRow) => IsFollowOf(f, me, target))
  }

  /** `likeMoment`: refuses a second like, inserts the row, then calls
      `increment_like_count`. */
  function LikeMoment(db: Db, env: Env, momentId: Id): (r: Reply<()>)
    ensures env.user.None? ==> r == Reply(Failure(NotLoggedIn), db)
    ensures env.user.Some? && LikeFound(db, env, env.user.value, momentId) ==>
      r == Reply(Failure(AlreadyLiked), db)
    ensures r.out.Success? <==>
      env.user.Some? && !LikeFound(db, env, env.user.value, momentId) && !Fails(env, Write)
    ensures r.out.Failure? ==> r.db == db
    ensures r.out.Success? ==>
      && r.db.likes == db.likes + [LikeRow(env.user.value, momentId)]
      && r.db.(likes := db.likes, counters := db.counters) == db
      && CounterValue(r.db.counters, LikeCount(momentId)) ==
           CounterValue(db.counters, LikeCount(momentId)) + Applied(env, LikeCount(momentId))
      && (forall k :: k != LikeCount(momentId) ==> CounterValue(r.db.counters, k) == CounterValue(db.counters, k))
  {
    match env.user
    case None => Reply(Failure(NotLoggedIn), db)
    case Some(me) =>
      if LikeFound(db, env, me, momentId) then Reply(Failure(AlreadyLiked), db)
      else if Fails(env, Write) then Reply(Failure(RemoteError(Write)), db)
      else
        var inserted := db.(likes := db.likes + [LikeRow(me, momentId)]);
        Reply(Success(()), Rpc(inserted, env, LikeCount(momentId), 1))
  }

  /** `unlikeMoment`: deletes the caller's like rows for the moment without
      checking that one exists, then always calls `decrement_like_count`. */
  function UnlikeMoment(db: Db, env: Env, momentId: Id): (r: Reply<()>)
    ensures env.user.None? ==> r == Reply(Failure(NotLoggedIn), db)
    ensures r.out.Success? <==> env.user.Some? && !Fails(env, Write)
    ensures r.out.Failure? ==> r.db == db
    ensures r.out.Success? ==>
      && (forall l :: l in r.db.likes <==> l in db.likes && !IsLikeOf(l, env.user.value, momentId))
      && r.db.(likes := db.likes, counters := db.counters) == db
      && CounterValue(r.db.counters, LikeCount(momentId)) ==
           CounterValue(db.counters, LikeCount(momentId)) - Applied(env, LikeCount(momentId))
      && (forall k :: k != LikeCount(momentId) ==> CounterValue(r.db.counters, k) == CounterValue(db.counters, k))
  {
    match env.user
    case None => Reply(Failure(NotLoggedIn), db)
    case Some(me) =>
      if Fails(env, Write) then Reply(Failure(RemoteError(Write)), db)
      else
        var deleted := db.(likes := Filter(db.likes, NotLikeOf(me, momentId)));
        Reply(Success(()), Rpc(deleted, env, LikeCount(momentId), -1))
  }

  /** `hasLiked`: false when signed out, and whenever `maybeSingle` yields
      nothing. Each moment's read is a call site of its own. */
  function HasLiked(db: Db, env: Env, momentId: Id): (b: bool)
    ensures b ==> env.user.Some? && !Fails(env, LikedRead(momentId)) && LikeRow(env.user.value, momentId) in db.likes
    ensures (env.user.Some? && !Fails(env, LikedRead(momentId)) &&
             Count(db.likes, (l: LikeRow) => IsLikeOf(l, env.user.value, momentId)) == 1) ==> b
  {
    && env.user.Some?
    && MaybeSingleFinds(env, LikedRead(momentId), db.likes, (l: LikeRow) => IsLikeOf(l, env.user.value, momentId))
  }

  /** `createComment`: inserts the comment with the id and time the backend
      assigns, then calls `increment_comment_count`. */
  function CreateComment(db: Db, env: Env, momentId: Id, content: string): (r: Reply<CommentRow>)
    ensures env.user.None? ==> r == Reply(Failure(NotLoggedIn), db)
    ensures r.out.Success? <==> env.user.Some? && !Fails(env, Write)
    ensures r.out.Failure? ==> r.db == db
    ensures r.out.Success? ==>
      && r.out.value == CommentRow(env.freshId, env.user.value, momentId, content, env.now)
      && r.db.comments == db.comments + [r.out.value]
      && r.db.(comments := db.comments, counters := db.counters) == db
      && CounterValue(r.db.counters, CommentCount(momentId)) ==
           CounterValue(db.counters, CommentCount(momentId)) + Applied(env, CommentCount(momentId))
      && (forall k :: k != CommentCount(momentId) ==> CounterValue(r.db.counters, k) == CounterValue(db.counters, k))
  {
    match env.user
    case None => Reply(Failure(NotLoggedIn), db)
    case Some(me) =>
      if Fails(env, Write) then Reply(Failure(RemoteError(Write)), db)
      else
        var c := CommentRow(env.freshId, me, momentId, content, env.now);
        Reply(Success(c), Rpc(db.(comments := db.comments + [c]), env, CommentCount(momentId), 1))
  }

  /** The comment `single()` finds by id, if exactly one. */
  function CommentById(db: Db, env: Env, commentId: Id): (r: Option<CommentRow>)
    ensures r.Some? ==> r.value in db.comments && r.value.id == commentId
    ensures r.Some? <==> !Fails(env, Lookup) && Count(db.comments, (c: CommentRow) => c.id == commentId) == 1
  {
    var p := (c: CommentRow) => c.id == commentId;
    if !Fails(env, Lookup) && Count(db.comments, p) == 1 then
      Some(db.comments[FindIndex(db.comments, p)])
    else None
  }

  /** `deleteComment`: looks the comment up (a failed read counts as
      missing), deletes it only if the caller wrote it, and calls
      `decrement_comment_count` for its moment in either case. */
  function DeleteComment(db: Db, env: Env, commentId: Id): (r: Reply<()>)
    ensures env.user.None? ==> r == Reply(Failure(NotLoggedIn), db)
    ensures env.user.Some? && CommentById(db, env, commentId).None? ==> r == Reply(Failure(NoSuchComment), db)
    ensures r.out.Success? <==>
      env.user.Some? && CommentById(db, env, commentId).Some? && !Fails(env, Write)
    ensures r.out.Failure? ==> r.db == db
    ensures r.out.Success? ==>
      var momentId := CommentById(db, env, commentId).value.momentId;
      && (forall c :: c in r.db.comments <==>
            c in db.comments && !(c.id == commentId && c.userId == env.user.value))
      && r.db.(comments := db.comments, counters := db.counters) == db
      && CounterValue(r.db.counters, CommentCount(momentId)) ==
           CounterValue(db.counters, CommentCount(momentId)) - Applied(env, CommentCount(momentId))
      && (forall k :: k != CommentCount(momentId) ==> CounterValue(r.db.counters, k) == CounterValue(db.counters, k))
  {
    match env.user
    case None => Reply(Failure(NotLoggedIn), db)
    case Some(me) =>
      match CommentById(db, env, commentId)
      case None => Reply(Failure(NoSuchComment), db)
      case Some(comment) =>
        if Fails(env, Write) then Reply(Failure(RemoteError(Write)), db)
        else
          var kept := Filter(db.comments, NotOwnComment(me, commentId));
          Reply(Success(()), Rpc(db.(comments := kept), env, CommentCount(comment.momentId), -1))
  }

  /** The stored repost text: `content || null`, so an empty text is stored
      as null. */
  function RepostText(content: Option<string>): (r: Option<string>)
    ensures r.Some? <==> content.Some? && content.value != ""
    ensures r.Some? ==> r == content
  {
    if content.Some? && content.value != "" then content else None
  }

  /** `createRepost`: refuses a second repost, inserts it, then calls
      `increment_repost_count`. */
  function CreateRepost(db: Db, env: Env, momentId: Id, content: Option<string>): (r: Reply<RepostRow>)
    ensures env.user.None? ==> r == Reply(Failure(NotLoggedIn), db)
    ensures env.user.Some? && RepostFound(db, env, env.user.value, momentId) ==>
      r == Reply(Failure(AlreadyReposted), db)
    ensures r.out.Success? <==>
      env.user.Some? && !RepostFound(db, env, env.user.value, momentId) && !Fails(env, Write)
    ensures r.out.Failure? ==> r.db == db
    ensures r.out.Success? ==>
      && r.out.value == RepostRow(env.freshId, env.user.value, momentId, RepostText(content), env.now)
      && r.db.reposts == db.reposts + [r.out.value]
      && r.db.(reposts := db.reposts, counters := db.counters) == db
      && CounterValue(r.db.counters, RepostCount(momentId)) ==
           CounterValue(db.counters, RepostCount(momentId)) + Applied(env, RepostCount(momentId))
      && (forall k :: k != RepostCount(momentId) ==> CounterValue(r.db.counters, k) == CounterValue(db.counters, k))
  {
    match env.user
    case None => Reply(Failure(NotLoggedIn), db)
    case Some(me) =>
      if RepostFound(db, env, me, momentId) then Reply(Failure(AlreadyReposted), db)
      else if Fails(env, Write) then Reply(Failure(RemoteError(Write)), db)
      else
        var p := RepostRow(env.freshId, me, momentId, RepostText(content), env.now);
        Reply(Success(p), Rpc(db.(reposts := db.reposts + [p]), env, RepostCount(momentId), 1))
  }

  /** The repost `single()` finds by id, if exactly one. */
  function RepostById(db: Db, env: Env, repostId: Id): (r: Option<RepostRow>)
    ensures r.Some? ==> r.value in db.reposts && r.value.id == repostId
    ensures r.Some? <==> !Fails(env, Lookup) && Count(db.reposts, (p: RepostRow) => p.id == repostId) == 1
  {
    var p := (x: RepostRow) => x.id == repostId;
    if !Fails(env, Lookup) && Count(db.reposts, p) == 1 then
      Some(db.reposts[FindIndex(db.reposts, p)])
    else None
  }

  /** `deleteRepost`: the same shape as `deleteComment`. */
  function DeleteRepost(db: Db, env: Env, repostId: Id): (r: Reply<()>)
    ensures env.user.None? ==> r == Reply(Failure(NotLoggedIn), db)
    ensures env.user.Some? && RepostById(db, env, repostId).None? ==> r == Reply(Failure(NoSuchRepost), db)
    ensures r.out.Success? <==>
      env.user.Some? && RepostById(db, env, repostId).Some? && !Fails(env, Write)
    ensures r.out.Failure? ==> r.db == db
    ensures r.out.Success? ==>
      var momentId := RepostById(db, env, repostId).value.momentId;
      && (forall p :: p in r.db.reposts <==>
            p in db.reposts && !(p.id == repostId && p.userId == env.user.value))
      && r.db.(reposts := db.reposts, counters := db.counters) == db
      && CounterValue(r.db.counters, RepostCount(momentId)) ==
           CounterValue(db.counters, RepostCount(momentId)) - Applied(env, RepostCount(momentId))
      && (forall k :: k != RepostCount(momentId) ==> CounterValue(r.db.counters, k) == CounterValue(db.counters, k))
  {
    match env.user
    case None => Reply(Failure(NotLoggedIn), db)
    case Some(me) =>
      match RepostById(db, env, repostId)
      case None => Reply(Failure(NoSuchRepost), db)
      case Some(repost) =>
        if Fails(env, Write) then Reply(Failure(RemoteError(Write)), db)
        else
          var kept := Filter(db.reposts, NotOwnRepost(me, repostId));
          Reply(Success(()), Rpc(db.(reposts := kept), env, RepostCount(repost.momentId), -1))
  }

  /** `hasReposted`: as `hasLiked`, on the reposts. */
  function HasReposted(db: Db, env: Env, momentId: Id): (b: bool)
    ensures b ==> env.user.Some? && !Fails(env, RepostedRead(momentId)) &&
                  exists p :: p in db.reposts && IsRepostOf(p, env.user.value, momentId)
    ensures (env.user.Some? && !Fails(env, RepostedRead(momentId)) &&
             Count(db.reposts, (p: RepostRow) => IsRepostOf(p, env.user.value, momentId)) == 1) ==> b
  {
    && env.user.Some?
    && MaybeSingleFinds(env, RepostedRead(momentId), db.reposts, (p: RepostRow) => IsRepostOf(p, env.user.value, momentId))
  }

  /** `followUser`: refuses following oneself (before any read), refuses a
      second follow, inserts the row, then bumps the target's follower
      count and the caller's following count, two calls that fail
      independently. */
  function FollowUser(db: Db, env: Env, target: UserId): (r: Reply<()>)
    ensures env.user.None? ==> r == Reply(Failure(NotLoggedIn), db)
    ensures env.user == Some(target) ==> r == Reply(Failure(CannotFollowSelf), db)
    ensures env.user.Some? && env.user.value != target && FollowFound(db, env, env.user.value, target) ==>
      r == Reply(Failure(AlreadyFollowing), db)
    ensures r.out.Success? <==>
      && env.user.Some? && env.user.value != target
      && !FollowFound(db, env, env.user.value, target) && !Fails(env, Write)
    ensures r.out.Failure? ==> r.db == db
    ensures r.out.Success? ==>
      var me := env.user.value;
      && r.db.follows == db.follows + [FollowRow(me, target, env.now)]
      && r.db.(follows := db.follows, counters := db.counters) == db
      && CounterValue(r.db.counters, FollowerCount(target)) ==
           CounterValue(db.counters, FollowerCount(target)) + Applied(env, FollowerCount(target))
      && CounterValue(r.db.counters, FollowingCount(me)) ==
           CounterValue(db.counters, FollowingCount(me)) + Applied(env, FollowingCount(me))
      && (forall k :: k != FollowerCount(target) && k != FollowingCount(me) ==>
            CounterValue(r.db.counters, k) == CounterValue(db.counters, k))
  {
    match env.user
    case None => Reply(Failure(NotLoggedIn), db)
    case Some(me) =>
      if me == target then Reply(Failure(CannotFollowSelf), db)
      else if FollowFound(db, env, me, target) then Reply(Failure(AlreadyFollowing), db)
      else if Fails(env, Write) then Reply(Failure(RemoteError(Write)), db)
      else
        var inserted := db.(follows := db.follows + [FollowRow(me, target, env.now)]);
        var bumped := Rpc(inserted, env, FollowerCount(target), 1);
        Reply(Success(()), Rpc(bumped, env, FollowingCount(me), 1))
  }

  /** `unfollowUser`: deletes without checking, then always decrements both
      counts. */
  function UnfollowUser(db: Db, env: Env, target: UserId): (r: Reply<()>)
    ensures env.user.None? ==> r == Reply(Failure(NotLoggedIn), db)
    ensures r.out.Success? <==> env.user.Some? && !Fails(env, Write)
    ensures r.out.Failure? ==> r.db == db
    ensures r.out.Success? ==>
      var me := env.user.value;
      && (forall f :: f in r.db.follows <==> f in db.follows && !IsFollowOf(f, me, target))
      && r.db.(follows := db.follows, counters := db.counters) == db
      && CounterValue(r.db.counters, FollowerCount(target)) ==
           CounterValue(db.counters, FollowerCount(target)) - Applied(env, FollowerCount(target))
      && CounterValue(r.db.counters, FollowingCount(me)) ==
           CounterValue(db.counters, FollowingCount(me)) - Applied(env, FollowingCount(me))
      && (forall k :: k != FollowerCount(target) && k != FollowingCount(me) ==>
            CounterValue(r.db.counters, k) == CounterValue(db.counters, k))
  {
    match env.user
    case None => Reply(Failure(NotLoggedIn), db)
    case Some(me) =>
      if Fails(env, Write) then Reply(Failure(RemoteError(Write)), db)
      else
        var deleted := db.(follows := Filter(db.follows, NotFollowOf(me, target)));
        var dropped := Rpc(deleted, env, FollowerCount(target), -1);
        Reply(Success(()), Rpc(dropped, env, FollowingCount(me), -1))
  }

  /** `hasFollowed`: as `hasLiked`, on the follows. */
  function HasFollowed(db: Db, env: Env, target: UserId): (b: bool)
    ensures b ==> env.user.Some? && !Fails(env, Lookup) && Follows(db, env.user.value, target)
    ensures (env.user.Some? && !Fails(env, Lookup) &&
             Count(db.follows, (f: FollowRow) => IsFollowOf(f, env.user.value, target)) == 1) ==> b
  {
    env.user.Some? && FollowFound(db, env, env.user.value, target)
  }

  /** `me` has a follow row for `target`. */
  ghost predicate Follows(db: Db, me: UserId, target: UserId)
  {
    exists f :: f in db.follows && IsFollowOf(f, me, target)
  }

  /** The ids `me` follows, in table order (`followings.map(f => f.following_id)`). */
  function FollowingIds(db: Db, me: UserId): (ids: seq<UserId>)
    ensures forall t :: t in ids <==> Follows(db, me, t)
  {
    var mine := Filter(db.follows, (f: FollowRow) => f.followerId == me);
    var ids := Map(mine, (f: FollowRow) => f.followingId);
    assert forall t :: t in ids ==> exists f :: f in db.follows && IsFollowOf(f, me, t) by {
      forall t | t in ids
        ensures exists f :: f in db.follows && IsFollowOf(f, me, t)
      {
        var i :| 0 <= i < |ids| && ids[i] == t;
        assert mine[i] in mine;
      }
    }
    assert forall t :: (exists f :: f in db.follows && IsFollowOf(f, me, t)) ==> t in ids by {
      forall t | exists f :: f in db.follows && IsFollowOf(f, me, t)
        ensures t in ids
      {
        var f :| f in db.follows && IsFollowOf(f, me, t);
        assert f in mine;
        var i :| 0 <= i < |mine| && mine[i] == f;
        assert ids[i] == t;
      }
    }
    ids
  }

  /** One entry of the following feed: the moment row, its author's profile
      (the `profiles:user_id` join) and the caller's liked/reposted flags. */
  datatype FeedMoment = FeedMoment(moment: MomentRow, author: Option<ProfileRow>, liked: bool, reposted: bool)

  function ByAuthors(ids: seq<UserId>): MomentRow -> bool
  {
    (m: MomentRow) => m.userId in ids
  }

  /** The moments written by one of `ids`, newest first: each such row as
      often as the table holds it, and no other. */
  function MomentsBy(db: Db, ids: seq<UserId>): (rows: seq<MomentRow>)
    ensures SortedDesc(rows, (m: MomentRow) => m.createdAt)
    ensures forall m :: m in rows <==> m in db.moments && m.userId in ids
    ensures forall m :: multiset(rows)[m] == if m.userId in ids then multiset(db.moments)[m] else 0
  {
    var mine := Filter(db.moments, ByAuthors(ids));
    FilterMultiset(db.moments, ByAuthors(ids));
    var rows := SortDesc(mine, (m: MomentRow) => m.createdAt);
    assert forall m :: m in rows <==> m in mine by {
      forall m
        ensures m in rows <==> m in mine
      {
        assert m in rows <==> m in multiset(rows);
        assert m in mine <==> m in multiset(mine);
      }
    }
    rows
  }

  /** The moment rows of a feed, in order. */
  function FeedRows(feed: seq<FeedMoment>): seq<MomentRow>
  {
    Map(feed, (x: FeedMoment) => x.moment)
  }

  /** Attaches author and flags to each row, keeping the order. */
  function Annotate(db: Db, env: Env, rows: seq<MomentRow>): (feed: seq<FeedMoment>)
    ensures |feed| == |rows|
    ensures FeedRows(feed) == rows
    ensures forall i :: 0 <= i < |rows| ==> feed[i].moment == rows[i]
    ensures forall x :: x in feed ==>
      && x.moment in rows
      && x.author == ProfileOf(db, x.moment.userId)
      && x.liked == HasLiked(db, env, x.moment.id)
      && x.reposted == HasReposted(db, env, x.moment.id)
    ensures forall m :: m in rows ==> exists x :: x in feed && x.moment == m
    ensures SortedDesc(rows, (m: MomentRow) => m.createdAt) ==>
      SortedDesc(feed, (x: FeedMoment) => x.moment.createdAt)
  {
    var feed := Map(rows, (m: MomentRow) =>
      FeedMoment(m, ProfileOf(db, m.userId), HasLiked(db, env, m.id), HasReposted(db, env, m.id)));
    assert forall m :: m in rows ==> exists x :: x in feed && x.moment == m by {
      forall m | m in rows
        ensures exists x :: x in feed && x.moment == m
      {
        var i :| 0 <= i < |rows| && rows[i] == m;
        assert feed[i] in feed;
      }
    }
    feed
  }

  /** `getFollowingMoments`: the moments of the users the caller follows,
      newest first, each with its author and flags. A failed read of the
      caller's follows reads as "follows nobody". Each moment's like and
      repost reads are call sites of their own, so a failed read clears only
      that moment's flag. The reads run concurrently under `Promise.all`; they
      change no table, so running them in order yields the same list. */
  function GetFollowingMoments(db: Db, env: Env): (r: Outcome<seq<FeedMoment>>)
    ensures env.user.None? ==> r == Failure(NotLoggedIn)
    ensures r.Failure? ==> r == Failure(NotLoggedIn) || r == Failure(RemoteError(FeedQuery))
    ensures r.Success? ==>
      && SortedDesc(r.value, (x: FeedMoment) => x.moment.createdAt)
      && (forall x :: x in r.value ==>
            && x.moment in db.moments
            && Follows(db, env.user.value, x.moment.userId)
            && x.author == ProfileOf(db, x.moment.userId)
            && x.liked == HasLiked(db, env, x.moment.id)
            && x.reposted == HasReposted(db, env, x.moment.id))
    ensures r.Success? && !Fails(env, FollowingsQuery) ==>
      forall m :: m in db.moments && Follows(db, env.user.value, m.userId) ==>
        exists x :: x in r.value && x.moment == m
    ensures r.Success? ==>
      forall m :: multiset(FeedRows(r.value))[m] ==
                  if !Fails(env, FollowingsQuery) && Follows(db, env.user.value, m.userId)
                  then multiset(db.moments)[m] else 0
  {
    match env.user
    case None => Failure(NotLoggedIn)
    case Some(me) =>
      var ids := if Fails(env, FollowingsQuery) then [] else FollowingIds(db, me);
      if |ids| == 0 then Success([])
      else if Fails(env, FeedQuery) then Failure(RemoteError(FeedQuery))
      else Success(Annotate(db, env, MomentsBy(db, ids)))
  }

  /** A failed like read for moment `id` clears that moment's liked flag in
      the annotated feed and changes nothing else. */
  lemma FailedReadClearsOneFlag(db: Db, env: Env, rows: seq<MomentRow>, id: Id)
    ensures var e := env.(failing := env.failing + {LikedRead(id)});
            var before := Annotate(db, env, rows);
            var after := Annotate(db, e, rows);
            && |after| == |before|
            && forall i :: 0 <= i < |after| ==>
                 && after[i] == before[i].(liked := after[i].liked)
                 && after[i].liked == (before[i].liked && rows[i].id != id)
  {
    var e := env.(failing := env.failing + {LikedRead(id)});
    var before := Annotate(db, env, rows);
    var after := Annotate(db, e, rows);
    forall i | 0 <= i < |after|
      ensures after[i] == before[i].(liked := after[i].liked)
      ensures after[i].liked == (before[i].liked && rows[i].id != id)
    {
      assert after[i] in after && before[i] in before;
      assert Fails(e, RepostedRead(rows[i].id)) == Fails(env, RepostedRead(rows[i].id));
      assert rows[i].id != id ==> Fails(e, LikedRead(rows[i].id)) == Fails(env, LikedRead(rows[i].id));
    }
  }

  /** Under pairwise exclusion at most one element satisfies `p`. */
  lemma AtMostOneMatch<T(!new)>(s: seq<T>, p: T -> bool)
    requires forall i, j :: 0 <= i < j < |s| ==> !(p(s[i]) && p(s[j]))
    ensures Count(s, p) <= 1
  {
    if Count(s, p) >= 2 {
      var i, j := TwoMatches(s, p);
    }
  }

  /** With a working lookup, a like never duplicates a (user, moment) pair. */
  lemma LikeKeepsLikesUnique(db: Db, env: Env, momentId: Id)
    requires UniqueLikes(db) && !Fails(env, Lookup)
    ensures UniqueLikes(LikeMoment(db, env, momentId).db)
  {
    var r := LikeMoment(db, env, momentId);
    if r.out.Success? {
      var row := LikeRow(env.user.value, momentId);
      var p := (l: LikeRow) => IsLikeOf(l, env.user.value, momentId);
      AtMostOneMatch(db.likes, p);
      assert Count(db.likes, p) == 0;
      assert p(row);
      assert row !in db.likes;
      assert r.db.likes == db.likes + [row];
    }
  }

  lemma RepostKeepsRepostsUnique(db: Db, env: Env, momentId: Id, content: Option<string>)
    requires UniqueReposts(db) && !Fails(env, Lookup)
    ensures UniqueReposts(CreateRepost(db, env, momentId, content).db)
  {
    var r := CreateRepost(db, env, momentId, content);
    if r.out.Success? {
      var p := (x: RepostRow) => IsRepostOf(x, env.user.value, momentId);
      AtMostOneMatch(db.reposts, p);
      assert Count(db.reposts, p) == 0;
      var s := r.db.reposts;
      assert s == db.reposts + [r.out.value];
      forall i, j | 0 <= i < j < |s|
        ensures !IsRepostOf(s[j], s[i].userId, s[i].momentId)
      {
        if j == |s| - 1 {
          assert s[i] in db.reposts;
          assert !p(s[i]);
        }
      }
    }
  }

  lemma FollowKeepsFollowsUnique(db: Db, env: Env, target: UserId)
    requires UniqueFollows(db) && !Fails(env, Lookup)
    ensures UniqueFollows(FollowUser(db, env, target).db)
  {
    var r := FollowUser(db, env, target);
    if r.out.Success? {
      var p := (f: FollowRow) => IsFollowOf(f, env.user.value, target);
      AtMostOneMatch(db.follows, p);
      assert Count(db.follows, p) == 0;
      var s := r.db.follows;
      assert s == db.follows + [FollowRow(env.user.value, target, env.now)];
      forall i, j | 0 <= i < j < |s|
        ensures !IsFollowOf(s[j], s[i].followerId, s[i].followingId)
      {
        if j == |s| - 1 {
          assert s[i] in db.follows;
          assert !p(s[i]);
        }
      }
    }
  }

  /** The duplicate guard is only as good as its read: when the lookup
      fails, a second like of the same moment is inserted. */
  lemma LikeTwiceWhenLookupFails()
    ensures var db := Db([], [], [LikeRow("u", "m")], [], [], [], map[], {});
            var env := Env(Some("u"), {Lookup}, "id", 0);
            var r := LikeMoment(db, env, "m");
            r.out.Success? && r.db.likes == [LikeRow("u", "m"), LikeRow("u", "m")] && !UniqueLikes(r.db)
  {
    var db := Db([], [], [LikeRow("u", "m")], [], [], [], map[], {});
    var env := Env(Some("u"), {Lookup}, "id", 0);
    assert !LikeFound(db, env, "u", "m");
    var r := LikeMoment(db, env, "m");
    assert r.db.likes[0] == r.db.likes[1];
  }

  /** Once a like went in, liking again is refused and changes nothing. */
  lemma SecondLikeRefused(db: Db, env: Env, momentId: Id)
    requires env.user.Some? && !Fails(env, Lookup) && !Fails(env, Write)
    requires LikeRow(env.user.value, momentId) !in db.likes
    ensures var d := LikeMoment(db, env, momentId).db;
            LikeMoment(d, env, momentId) == Reply(Failure(AlreadyLiked), d)
  {
    var row := LikeRow(env.user.value, momentId);
    var p := (l: LikeRow) => IsLikeOf(l, env.user.value, momentId);
    assert forall l :: l in db.likes ==> !p(l);
    LikeAppends(db, env, momentId);
    var d := LikeMoment(db, env, momentId).db;
    assert d.likes == db.likes + [row];
    CountAppend(db.likes, [row], p);
    assert Count(db.likes, p) == 0;
    assert Count([row], p) == 1 by {
      assert [row][1..] == [];
    }
    assert LikeFound(d, env, env.user.value, momentId);
  }

  /** Counters agree on every key (an absent key reads as 0). */
  ghost predicate SameCounters(a: map<CounterKey, int>, b: map<CounterKey, int>)
  {
    forall k :: CounterValue(a, k) == CounterValue(b, k)
  }

  /** `after` is `before` with each counter of `ks` moved up by the call
      made under `e1` and down by the call made under `e2`; every other
      counter is as it was. */
  ghost predicate Drift(before: map<CounterKey, int>, after: map<CounterKey, int>, ks: set<CounterKey>, e1: Env, e2: Env)
  {
    forall k :: CounterValue(after, k) ==
      CounterValue(before, k) + (if k in ks then Applied(e1, k) - Applied(e2, k) else 0)
  }

  /** An increment and a later decrement cancel exactly when, for every
      counter they touch, both calls failed or both went through; when
      only one went through the count is off by one. */
  lemma DriftCancels(before: map<CounterKey, int>, after: map<CounterKey, int>, ks: set<CounterKey>, e1: Env, e2: Env)
    requires Drift(before, after, ks, e1, e2)
    ensures SameCounters(after, before) <==>
      forall k :: k in ks ==> (Fails(e1, CounterRpc(k)) <==> Fails(e2, CounterRpc(k)))
  {
    if SameCounters(after, before) {
      forall k | k in ks
        ensures Fails(e1, CounterRpc(k)) <==> Fails(e2, CounterRpc(k))
      {
        assert CounterValue(after, k) == CounterValue(before, k);
      }
    }
  }

  /** An increment of a counter under `e1` followed by a decrement under
      `e2` changes nothing else, and moves the counter by what the two
      calls applied. */
  lemma RpcCancels(db: Db, e1: Env, e2: Env, k: CounterKey)
    ensures var d := Rpc(Rpc(db, e1, k, 1), e2, k, -1);
            d.(counters := db.counters) == db && Drift(db.counters, d.counters, {k}, e1, e2)
  {
  }

  /** A like of a moment not yet liked appends the row. */
  lemma LikeAppends(db: Db, env: Env, momentId: Id)
    requires env.user.Some? && !Fails(env, Write)
    requires LikeRow(env.user.value, momentId) !in db.likes
    ensures LikeMoment(db, env, momentId) ==
      Reply(Success(()), Rpc(db.(likes := db.likes + [LikeRow(env.user.value, momentId)]), env, LikeCount(momentId), 1))
  {
    assert forall l :: l in db.likes ==> !IsLikeOf(l, env.user.value, momentId);
    assert !LikeFound(db, env, env.user.value, momentId);
  }

  /** An unlike removes the caller's like rows of the moment. */
  lemma UnlikeRemoves(base: seq<LikeRow>, db: Db, env: Env, momentId: Id)
    requires env.user.Some? && !Fails(env, Write)
    requires LikeRow(env.user.value, momentId) !in base
    requires db.likes == base + [LikeRow(env.user.value, momentId)]
    ensures UnlikeMoment(db, env, momentId) ==
      Reply(Success(()), Rpc(db.(likes := base), env, LikeCount(momentId), -1))
  {
    var row := LikeRow(env.user.value, momentId);
    var keep := NotLikeOf(env.user.value, momentId);
    FilterDropsLast(base, row, keep);
    assert UnlikeMoment(db, env, momentId).out == Success(());
    assert UnlikeMoment(db, env, momentId).db == Rpc(db.(likes := base), env, LikeCount(momentId), -1);
  }

  /** Liking (under `env`) and then unliking (under `later`, as the same
      user) a moment not yet liked restores every table; the like count
      is restored exactly when both counter calls failed or both went
      through. */
  lemma LikeThenUnlike(db: Db, env: Env, later: Env, momentId: Id)
    requires env.user.Some? && !Fails(env, Write)
    requires later.user == env.user && !Fails(later, Write)
    requires LikeRow(env.user.value, momentId) !in db.likes
    ensures var d1 := LikeMoment(db, env, momentId);
            var d2 := UnlikeMoment(d1.db, later, momentId);
            && d1.out.Success? && d2.out.Success?
            && d2.db.(counters := db.counters) == db
            && Drift(db.counters, d2.db.counters, {LikeCount(momentId)}, env, later)
  {
    LikeAppends(db, env, momentId);
    var d1 := LikeMoment(db, env, momentId);
    UnlikeRemoves(db.likes, d1.db, later, momentId);
    var d2 := UnlikeMoment(d1.db, later, momentId);
    assert d2.db == Rpc(Rpc(db, env, LikeCount(momentId), 1), later, LikeCount(momentId), -1);
    RpcCancels(db, env, later, LikeCount(momentId));
  }

  /** Following someone not yet followed appends the row. */
  lemma FollowAppends(db: Db, env: Env, target: UserId)
    requires env.user.Some? && env.user.value != target && !Fails(env, Write)
    requires forall f :: f in db.follows ==> !IsFollowOf(f, env.user.value, target)
    ensures var me := env.user.value;
            var inserted := db.(follows := db.follows + [FollowRow(me, target, env.now)]);
            FollowUser(db, env, target) ==
              Reply(Success(()), Rpc(Rpc(inserted, env, FollowerCount(target), 1), env, FollowingCount(env.user.value), 1))
  {
    assert !FollowFound(db, env, env.user.value, target);
  }

  /** An unfollow removes the caller's rows for the target. */
  lemma UnfollowRemoves(base: seq<FollowRow>, db: Db, env: Env, target: UserId, row: FollowRow)
    requires env.user.Some? && !Fails(env, Write)
    requires forall f :: f in base ==> !IsFollowOf(f, env.user.value, target)
    requires IsFollowOf(row, env.user.value, target)
    requires db.follows == base + [row]
    ensures var dropped := Rpc(db.(follows := base), env, FollowerCount(target), -1);
            UnfollowUser(db, env, target) ==
              Reply(Success(()), Rpc(dropped, env, FollowingCount(env.user.value), -1))
  {
    var me := env.user.value;
    var keep := NotFollowOf(me, target);
    FilterDropsLast(base, row, keep);
    var dropped := Rpc(db.(follows := base), env, FollowerCount(target), -1);
    assert UnfollowUser(db, env, target).out == Success(());
    assert UnfollowUser(db, env, target).db == Rpc(dropped, env, FollowingCount(me), -1);
  }

  /** Following (under `env`) and then unfollowing (under `later`)
      someone not yet followed restores every table; each of the two
      counts is restored exactly when its two calls both failed or both
      went through, independently of the other count. */
  lemma FollowThenUnfollow(db: Db, env: Env, later: Env, target: UserId)
    requires env.user.Some? && env.user.value != target && !Fails(env, Write)
    requires later.user == env.user && !Fails(later, Write)
    requires forall f :: f in db.follows ==> !IsFollowOf(f, env.user.value, target)
    ensures var d1 := FollowUser(db, env, target);
            var d2 := UnfollowUser(d1.db, later, target);
            && d1.out.Success? && d2.out.Success?
            && d2.db.(counters := db.counters) == db
            && Drift(db.counters, d2.db.counters, {FollowerCount(target), FollowingCount(env.user.value)}, env, later)
  {
    var me := env.user.value;
    var row := FollowRow(me, target, env.now);
    FollowAppends(db, env, target);
    var d1 := FollowUser(db, env, target);
    UnfollowRemoves(db.follows, d1.db, later, target, row);
    RpcPairsCancel(db, env, later, FollowerCount(target), FollowingCount(me));
  }

  /** Two increments under `e1` then the two matching decrements under
      `e2`: only the two counters move, each by its own drift. */
  lemma RpcPairsCancel(db: Db, e1: Env, e2: Env, k1: CounterKey, k2: CounterKey)
    requires k1 != k2
    ensures var d := Rpc(Rpc(Rpc(Rpc(db, e1, k1, 1), e1, k2, 1), e2, k1, -1), e2, k2, -1);
            d.(counters := db.counters) == db && Drift(db.counters, d.counters, {k1, k2}, e1, e2)
  {
  }

  /** The drift a follow/unfollow pair can leave: the follow's call on
      the caller's following count goes through and the unfollow's fails,
      so that count ends one higher although the row is gone again, while
      the target's follower count is back where it was. */
  lemma FollowUnfollowDrift(db: Db, env: Env, later: Env, target: UserId)
    requires env.user.Some? && env.user.value != target && !Fails(env, Write)
    requires later.user == env.user && !Fails(later, Write)
    requires forall f :: f in db.follows ==> !IsFollowOf(f, env.user.value, target)
    requires !Fails(env, CounterRpc(FollowingCount(env.user.value))) && Fails(later, CounterRpc(FollowingCount(env.user.value)))
    requires !Fails(env, CounterRpc(FollowerCount(target))) && !Fails(later, CounterRpc(FollowerCount(target)))
    ensures var d2 := UnfollowUser(FollowUser(db, env, target).db, later, target).db;
            && d2.follows == db.follows
            && CounterValue(d2.counters, FollowingCount(env.user.value)) == CounterValue(db.counters, FollowingCount(env.user.value)) + 1
            && CounterValue(d2.counters, FollowerCount(target)) == CounterValue(db.counters, FollowerCount(target))
            && !SameCounters(d2.counters, db.counters)
  {
    FollowThenUnfollow(db, env, later, target);
    var d2 := UnfollowUser(FollowUser(db, env, target).db, later, target).db;
    var k := FollowingCount(env.user.value);
    assert CounterValue(d2.counters, k) == CounterValue(db.counters, k) + 1;
  }

  /** Unliking a moment the caller never liked still succeeds and still
      decrements its like count. */
  lemma UnlikeWithoutLike(db: Db, env: Env, momentId: Id)
    requires env.user.Some? && !Fails(env, Write) && !Fails(env, CounterRpc(LikeCount(momentId)))
    requires LikeRow(env.user.value, momentId) !in db.likes
    ensures var r := UnlikeMoment(db, env, momentId);
            && r.out.Success?
            && r.db.likes == db.likes
            && CounterValue(r.db.counters, LikeCount(momentId)) == CounterValue(db.counters, LikeCount(momentId)) - 1
  {
    FilterKeepsAll(db.likes, NotLikeOf(env.user.value, momentId));
  }

  /** Unfollowing someone the caller does not follow still succeeds and
      still decrements both counts. */
  lemma UnfollowWithoutFollow(db: Db, env: Env, target: UserId)
    requires env.user.Some? && !Fails(env, Write)
    requires !Fails(env, CounterRpc(FollowerCount(target))) && !Fails(env, CounterRpc(FollowingCount(env.user.value)))
    requires !Follows(db, env.user.value, target)
    ensures var r := UnfollowUser(db, env, target);
            var me := env.user.value;
            && r.out.Success?
            && r.db.follows == db.follows
            && CounterValue(r.db.counters, FollowerCount(target)) == CounterValue(db.counters, FollowerCount(target)) - 1
            && CounterValue(r.db.counters, FollowingCount(me)) == CounterValue(db.counters, FollowingCount(me)) - 1
  {
    FilterKeepsAll(db.follows, NotFollowOf(env.user.value, target));
  }

  /** Creating a comment (under `env`) and deleting it by the id it got
      (under `later`, as the same user) restores every table; the comment
      count drifts as in `Drift`. */
  lemma CommentThenDelete(db: Db, env: Env, later: Env, momentId: Id, content: string)
    requires env.user.Some? && !Fails(env, Write)
    requires later.user == env.user && !Fails(later, Write) && !Fails(later, Lookup)
    requires forall c :: c in db.comments ==> c.id != env.freshId
    ensures var d1 := CreateComment(db, env, momentId, content);
            var d2 := DeleteComment(d1.db, later, env.freshId);
            && d1.out.Success? && d2.out.Success?
            && d2.db.(counters := db.counters) == db
            && Drift(db.counters, d2.db.counters, {CommentCount(momentId)}, env, later)
  {
    var c := CommentRow(env.freshId, env.user.value, momentId, content, env.now);
    var d1 := CreateComment(db, env, momentId, content);
    assert d1.db == Rpc(db.(comments := db.comments + [c]), env, CommentCount(momentId), 1);
    DeleteFreshComment(db.comments, d1.db, later, c);
    RpcCancels(db, env, later, CommentCount(momentId));
  }

  /** A comment whose id no other comment has is found by that id. */
  lemma FindsUniqueComment(base: seq<CommentRow>, db: Db, env: Env, c: CommentRow)
    requires !Fails(env, Lookup)
    requires forall x :: x in base ==> x.id != c.id
    requires db.comments == base + [c]
    ensures CommentById(db, env, c.id) == Some(c)
  {
    var byId := (x: CommentRow) => x.id == c.id;
    CountAppend(base, [c], byId);
    var found := CommentById(db, env, c.id);
    CountOneUnique(db.comments, byId, found.value, c);
  }

  /** Deleting, by its id, the caller's comment whose id no other comment
      has removes exactly it. */
  lemma DeleteFreshComment(base: seq<CommentRow>, db: Db, env: Env, c: CommentRow)
    requires env.user.Some? && !Fails(env, Write) && !Fails(env, Lookup)
    requires c.userId == env.user.value
    requires forall x :: x in base ==> x.id != c.id
    requires db.comments == base + [c]
    ensures DeleteComment(db, env, c.id) ==
      Reply(Success(()), Rpc(db.(comments := base), env, CommentCount(c.momentId), -1))
  {
    FindsUniqueComment(base, db, env, c);
    DeletesFoundComment(db, env, c);
    FilterDropsLast(base, c, NotOwnComment(env.user.value, c.id));
  }

  /** A comment the lookup finds is deleted through the filter and its own
      moment's counter. */
  lemma DeletesFoundComment(db: Db, env: Env, c: CommentRow)
    requires env.user.Some? && !Fails(env, Write)
    requires CommentById(db, env, c.id) == Some(c)
    ensures DeleteComment(db, env, c.id) ==
      Reply(Success(()), Rpc(db.(comments := Filter(db.comments, NotOwnComment(env.user.value, c.id))),
                             env, CommentCount(c.momentId), -1))
  {
  }

  /** Deleting someone else's comment removes nothing, yet succeeds and
      decrements the moment's comment count. */
  lemma DeleteOthersComment(db: Db, env: Env, commentId: Id)
    requires env.user.Some? && !Fails(env, Write)
    requires CommentById(db, env, commentId).Some?
    requires CommentById(db, env, commentId).value.userId != env.user.value
    requires !Fails(env, CounterRpc(CommentCount(CommentById(db, env, commentId).value.momentId)))
    ensures var momentId := CommentById(db, env, commentId).value.momentId;
            var r := DeleteComment(db, env, commentId);
            && r.out.Success?
            && r.db.comments == db.comments
            && CounterValue(r.db.counters, CommentCount(momentId)) == CounterValue(db.counters, CommentCount(momentId)) - 1
  {
    var me := env.user.value;
    var found := CommentById(db, env, commentId).value;
    var byId := (x: CommentRow) => x.id == commentId;
    var keep := NotOwnComment(me, commentId);
    forall x | x in db.comments
      ensures keep(x)
    {
      if x.id == commentId {
        CountOneUnique(db.comments, byId, x, found);
      }
    }
    FilterKeepsAll(db.comments, keep);
  }

  /** Reposting (under `env`) a moment the caller has not reposted, then
      deleting the repost by the id it got (under `later`), restores
      every table; the repost count drifts as in `Drift`. */
  lemma RepostThenDelete(db: Db, env: Env, later: Env, momentId: Id, content: Option<string>)
    requires env.user.Some? && !Fails(env, Write)
    requires later.user == env.user && !Fails(later, Write) && !Fails(later, Lookup)
    requires forall p :: p in db.reposts ==> !IsRepostOf(p, env.user.value, momentId)
    requires forall p :: p in db.reposts ==> p.id != env.freshId
    ensures var d1 := CreateRepost(db, env, momentId, content);
            var d2 := DeleteRepost(d1.db, later, env.freshId);
            && d1.out.Success? && d2.out.Success?
            && d2.db.(counters := db.counters) == db
            && Drift(db.counters, d2.db.counters, {RepostCount(momentId)}, env, later)
  {
    var p := RepostRow(env.freshId, env.user.value, momentId, RepostText(content), env.now);
    assert !RepostFound(db, env, env.user.value, momentId);
    var d1 := CreateRepost(db, env, momentId, content);
    assert d1.db == Rpc(db.(reposts := db.reposts + [p]), env, RepostCount(momentId), 1);
    DeleteFreshRepost(db.reposts, d1.db, later, p);
    RpcCancels(db, env, later, RepostCount(momentId));
  }

  /** A repost whose id no other repost has is found by that id. */
  lemma FindsUniqueRepost(base: seq<RepostRow>, db: Db, env: Env, p: RepostRow)
    requires !Fails(env, Lookup)
    requires forall x :: x in base ==> x.id != p.id
    requires db.reposts == base + [p]
    ensures RepostById(db, env, p.id) == Some(p)
  {
    var byId := (x: RepostRow) => x.id == p.id;
    CountAppend(base, [p], byId);
    var found := RepostById(db, env, p.id);
    CountOneUnique(db.reposts, byId, found.value, p);
  }

  /** Deleting, by its id, the caller's repost whose id no other repost
      has removes exactly it. */
  lemma DeleteFreshRepost(base: seq<RepostRow>, db: Db, env: Env, p: RepostRow)
    requires env.user.Some? && !Fails(env, Write) && !Fails(env, Lookup)
    requires p.userId == env.user.value
    requires forall x :: x in base ==> x.id != p.id
    requires db.reposts == base + [p]
    ensures DeleteRepost(db, env, p.id) ==
      Reply(Success(()), Rpc(db.(reposts := base), env, RepostCount(p.momentId), -1))
  {
    FindsUniqueRepost(base, db, env, p);
    DeletesFoundRepost(db, env, p);
    FilterDropsLast(base, p, NotOwnRepost(env.user.value, p.id));
  }

  /** A repost the lookup finds is deleted through the filter and its own
      moment's counter. */
  lemma DeletesFoundRepost(db: Db, env: Env, p: RepostRow)
    requires env.user.Some? && !Fails(env, Write)
    requires RepostById(db, env, p.id) == Some(p)
    ensures DeleteRepost(db, env, p.id) ==
      Reply(Success(()), Rpc(db.(reposts := Filter(db.reposts, NotOwnRepost(env.user.value, p.id))),
                             env, RepostCount(p.momentId), -1))
  {
  }

  /** With likes unique and a working read, `hasLiked` answers exactly
      whether the caller's like row is in the table. */
  lemma HasLikedIffRow(db: Db, env: Env, momentId: Id)
    requires UniqueLikes(db) && env.user.Some? && !Fails(env, LikedRead(momentId))
    ensures HasLiked(db, env, momentId) <==> LikeRow(env.user.value, momentId) in db.likes
  {
    var p := (l: LikeRow) => IsLikeOf(l, env.user.value, momentId);
    AtMostOneMatch(db.likes, p);
  }

  /** After a like went in, `hasLiked` (read as the same user, with a
      working read) is true; after an unlike it is false. */
  lemma HasLikedAfter(db: Db, env: Env, later: Env, momentId: Id)
    requires UniqueLikes(db) && !Fails(env, Lookup)
    requires later.user == env.user && !Fails(later, LikedRead(momentId))
    ensures var d := LikeMoment(db, env, momentId);
            d.out.Success? ==> HasLiked(d.db, later, momentId)
    ensures var d := UnlikeMoment(db, env, momentId);
            d.out.Success? ==> !HasLiked(d.db, later, momentId)
  {
    var d := LikeMoment(db, env, momentId);
    if d.out.Success? {
      LikeKeepsLikesUnique(db, env, momentId);
      assert LikeRow(env.user.value, momentId) in d.db.likes;
      HasLikedIffRow(d.db, later, momentId);
    }
  }

  /** With reposts unique and a working read, `hasReposted` answers
      exactly whether the caller has a repost row for the moment. */
  lemma HasRepostedIffRow(db: Db, env: Env, momentId: Id)
    requires UniqueReposts(db) && env.user.Some? && !Fails(env, RepostedRead(momentId))
    ensures HasReposted(db, env, momentId) <==>
      exists p :: p in db.reposts && IsRepostOf(p, env.user.value, momentId)
  {
    var q := (p: RepostRow) => IsRepostOf(p, env.user.value, momentId);
    AtMostOneMatch(db.reposts, q);
  }

  /** After a repost went in, `hasReposted` is true. */
  lemma HasRepostedAfter(db: Db, env: Env, later: Env, momentId: Id, content: Option<string>)
    requires UniqueReposts(db) && !Fails(env, Lookup)
    requires later.user == env.user && !Fails(later, RepostedRead(momentId))
    ensures var d := CreateRepost(db, env, momentId, content);
            d.out.Success? ==> HasReposted(d.db, later, momentId)
  {
    var d := CreateRepost(db, env, momentId, content);
    if d.out.Success? {
      RepostKeepsRepostsUnique(db, env, momentId, content);
      assert d.out.value in d.db.reposts;
      HasRepostedIffRow(d.db, later, momentId);
    }
  }

  /** With follows unique and a working read, `hasFollowed` answers
      exactly whether the caller follows the target. */
  lemma HasFollowedIffRow(db: Db, env: Env, target: UserId)
    requires UniqueFollows(db) && env.user.Some? && !Fails(env, Lookup)
    ensures HasFollowed(db, env, target) <==> Follows(db, env.user.value, target)
  {
    var q := (f: FollowRow) => IsFollowOf(f, env.user.value, target);
    AtMostOneMatch(db.follows, q);
  }

  /** After a follow went in, `hasFollowed` is true; after an unfollow it
      is false. */
  lemma HasFollowedAfter(db: Db, env: Env, later: Env, target: UserId)
    requires UniqueFollows(db) && !Fails(env, Lookup)
    requires later.user == env.user && !Fails(later, Lookup)
    ensures var d := FollowUser(db, env, target);
            d.out.Success? ==> HasFollowed(d.db, later, target)
    ensures var d := UnfollowUser(db, env, target);
            d.out.Success? ==> !HasFollowed(d.db, later, target)
  {
    var d := FollowUser(db, env, target);
    if d.out.Success? {
      FollowKeepsFollowsUnique(db, env, target);
      assert FollowRow(env.user.value, target, env.now) in d.db.follows;
      HasFollowedIffRow(d.db, later, target);
    }
  }

  /** `e` is `env` except, perhaps, for which counter calls fail. */
  ghost predicate CountersAside(env: Env, e: Env)
  {
    && e.(failing := env.failing) == env
    && forall c: Call :: !c.CounterRpc? ==> (Fails(e, c) <==> Fails(env, c))
  }

  /** The counter RPCs' results are ignored: whether they fail changes
      neither the outcome of a like or unlike nor the rows it writes. */
  lemma LikeIgnoresCounters(db: Db, env: Env, e: Env, momentId: Id)
    requires CountersAside(env, e)
    ensures && LikeMoment(db, e, momentId).out == LikeMoment(db, env, momentId).out
            && LikeMoment(db, e, momentId).db.likes == LikeMoment(db, env, momentId).db.likes
            && UnlikeMoment(db, e, momentId).out == UnlikeMoment(db, env, momentId).out
            && UnlikeMoment(db, e, momentId).db.likes == UnlikeMoment(db, env, momentId).db.likes
  {
    assert Fails(e, Lookup) == Fails(env, Lookup) && Fails(e, Write) == Fails(env, Write);
  }

  /** Likewise for follows. */
  lemma FollowIgnoresCounters(db: Db, env: Env, e: Env, target: UserId)
    requires CountersAside(env, e)
    ensures && FollowUser(db, e, target).out == FollowUser(db, env, target).out
            && FollowUser(db, e, target).db.follows == FollowUser(db, env, target).db.follows
            && UnfollowUser(db, e, target).out == UnfollowUser(db, env, target).out
            && UnfollowUser(db, e, target).db.follows == UnfollowUser(db, env, target).db.follows
  {
    assert Fails(e, Lookup) == Fails(env, Lookup) && Fails(e, Write) == Fails(env, Write);
  }

  /** Likewise for comments. */
  lemma CommentIgnoresCounters(db: Db, env: Env, e: Env, momentId: Id, rowId: Id, content: string)
    requires CountersAside(env, e)
    ensures && CreateComment(db, e, momentId, content).out == CreateComment(db, env, momentId, content).out
            && CreateComment(db, e, momentId, content).db.comments == CreateComment(db, env, momentId, content).db.comments
            && DeleteComment(db, e, rowId).out == DeleteComment(db, env, rowId).out
            && DeleteComment(db, e, rowId).db.comments == DeleteComment(db, env, rowId).db.comments
  {
    assert Fails(e, Lookup) == Fails(env, Lookup) && Fails(e, Write) == Fails(env, Write);
  }

  /** Likewise for reposts. */
  lemma RepostIgnoresCounters(db: Db, env: Env, e: Env, momentId: Id, rowId: Id, content: Option<string>)
    requires CountersAside(env, e)
    ensures && CreateRepost(db, e, momentId, content).out == CreateRepost(db, env, momentId, content).out
            && CreateRepost(db, e, momentId, content).db.reposts == CreateRepost(db, env, momentId, content).db.reposts
            && DeleteRepost(db, e, rowId).out == DeleteRepost(db, env, rowId).out
            && DeleteRepost(db, e, rowId).db.reposts == DeleteRepost(db, env, rowId).db.reposts
  {
    assert Fails(e, Lookup) == Fails(env, Lookup) && Fails(e, Write) == Fails(env, Write);
  }
}

=== FILE: social_store.dfy ===
/** The social store: the client's copy of the following feed, the
    recommended users, and the comment and repost lists of the moment on
    screen. Its actions call the social service and, only when the call
    succeeds, mirror the change locally: flags and counts of the first feed
    entry for the moment, and edits of the lists. The fetches are guarded
    so that only one of each kind runs at a time. */
module SocialStore {
  import opened Wrappers
  import opened Seqs
  import opened Remote
  import Svc = SocialService
  import opened Recommend

  type FeedMoment = Svc.FeedMoment

  /** One element of the recommended-user list: the suggested profile, if
      the service had one, and its weight in the third tier. An entry
      without a profile has no `id` field, so no id lookup matches it. */
  datatype Entry = Entry(profile: Option<ProfileRow>, weight: Option<nat>)

  function EntryId(e: Entry): Option<UserId>
  {
    if e.profile.Some? then Some(e.profile.value.id) else None
  }

  function ScoredEntry(s: Scored): Entry
  {
    Entry(s.profile, Some(s.weight))
  }

  function ProfileEntry(p: ProfileRow): Entry
  {
    Entry(Some(p), None)
  }

  /** Every weighted suggestion's joined profile is the profile of its
      target. */
  ghost predicate JoinsMatch(s: Suggestions)
  {
    s.ByWeight? ==> forall u :: u in s.users && u.profile.Some? ==> u.profile.value.id == u.target
  }

  /** The service's answer as the list the store keeps: one entry per
      suggested id, in order; a profile listing yields an entry with an id
      for every suggestion, a weighted one only where the join found a
      profile. */
  function Entries(s: Suggestions): (es: seq<Entry>)
    ensures |es| == |s.Ids()|
    ensures JoinsMatch(s) ==>
      forall i :: 0 <= i < |es| && EntryId(es[i]).Some? ==> EntryId(es[i]).value == s.Ids()[i]
    ensures !s.ByWeight? ==> forall i :: 0 <= i < |es| ==> EntryId(es[i]) == Some(s.Ids()[i])
    ensures s.ByWeight? ==> forall i :: 0 <= i < |es| ==> es[i].weight == Some(s.users[i].weight)
    ensures s.ByWeight? ==> forall i :: 0 <= i < |es| ==> es[i].profile == s.users[i].profile
    ensures !s.ByWeight? ==> forall i :: 0 <= i < |es| ==> es[i].profile == Some(s.profiles[i]) && es[i].weight.None?
  {
    if s.ByWeight? then
      var es := Map(s.users, ScoredEntry);
      assert JoinsMatch(s) ==>
        forall i :: 0 <= i < |es| && EntryId(es[i]).Some? ==> EntryId(es[i]).value == s.Ids()[i] by {
        if JoinsMatch(s) {
          forall i | 0 <= i < |es| && EntryId(es[i]).Some?
            ensures EntryId(es[i]).value == s.Ids()[i]
          {
            assert s.users[i] in s.users;
          }
        }
      }
      es
    else Map(s.profiles, ProfileEntry)
  }

  datatype SocialState = SocialState(
    followingMoments: seq<FeedMoment>,
    loadingFollowingMoments: bool,
    recommendedUsers: seq<Entry>,
    loadingRecommendedUsers: bool,
    comments: seq<CommentRow>,
    loadingComments: bool,
    reposts: seq<RepostRow>,
    loadingReposts: bool)

  /** The store as created: empty lists, nothing loading. */
  const Initial := SocialState([], false, [], false, [], false, [], false)

  /** `hasFollowingMoments`. */
  predicate HasFollowingMoments(s: SocialState)
  {
    |s.followingMoments| > 0
  }

  // ---------------------------------------------------------------------
  // The counter mirror
  // ---------------------------------------------------------------------

  /** A mirrored count after one step: up adds one, down subtracts one but
      never goes below zero (`Math.max(0, count - 1)`). */
  function Bump(c: int, up: bool): (r: int)
    ensures up ==> r == c + 1
    ensures !up && c >= 1 ==> r == c - 1
    ensures !up && c < 1 ==> r == 0
  {
    if up then c + 1 else if c - 1 > 0 then c - 1 else 0
  }

  /** Down undoes up on any count that is not negative. */
  lemma BumpRoundTrip(c: int)
    requires c >= 0
    ensures Bump(Bump(c, true), false) == c
  {
  }

  /** Going down from zero stays at zero, and a non-negative count stays
      non-negative either way. */
  lemma BumpFloor(c: int, up: bool)
    ensures Bump(0, false) == 0
    ensures c >= 0 ==> Bump(c, up) >= 0
  {
  }

  /** The feed entry for moment `momentId` (`m.id === momentId`). */
  function HasId(momentId: Id): FeedMoment -> bool
  {
    (x: FeedMoment) => x.moment.id == momentId
  }

  function LikeStep(liked: bool): FeedMoment -> FeedMoment
  {
    (x: FeedMoment) => x.(liked := liked, moment := x.moment.(likeCount := Bump(x.moment.likeCount, liked)))
  }

  function CommentStep(up: bool): FeedMoment -> FeedMoment
  {
    (x: FeedMoment) => x.(moment := x.moment.(commentCount := Bump(x.moment.commentCount, up)))
  }

  function RepostStep(reposted: bool): FeedMoment -> FeedMoment
  {
    (x: FeedMoment) => x.(reposted := reposted, moment := x.moment.(repostCount := Bump(x.moment.repostCount, reposted)))
  }

  /** `updateMomentLikeStatus`: the first entry for the moment gets the
      flag and a bumped like count; every other entry, and every other
      field, stays. */
  function UpdateLikeStatus(feed: seq<FeedMoment>, momentId: Id, liked: bool): (r: seq<FeedMoment>)
    ensures |r| == |feed|
    ensures FindIndex(feed, HasId(momentId)) == -1 ==> r == feed
    ensures forall j :: 0 <= j < |feed| && j != FindIndex(feed, HasId(momentId)) ==> r[j] == feed[j]
    ensures var i := FindIndex(feed, HasId(momentId));
      0 <= i ==>
        && r[i].liked == liked
        && r[i].moment.likeCount == Bump(feed[i].moment.likeCount, liked)
        && r[i].(liked := feed[i].liked, moment := r[i].moment.(likeCount := feed[i].moment.likeCount)) == feed[i]
  {
    UpdateFirst(feed, HasId(momentId), LikeStep(liked))
  }

  /** `updateMomentCommentCount`. */
  function UpdateCommentCount(feed: seq<FeedMoment>, momentId: Id, up: bool): (r: seq<FeedMoment>)
    ensures |r| == |feed|
    ensures FindIndex(feed, HasId(momentId)) == -1 ==> r == feed
    ensures forall j :: 0 <= j < |feed| && j != FindIndex(feed, HasId(momentId)) ==> r[j] == feed[j]
    ensures var i := FindIndex(feed, HasId(momentId));
      0 <= i ==>
        && r[i].moment.commentCount == Bump(feed[i].moment.commentCount, up)
        && r[i].(moment := r[i].moment.(commentCount := feed[i].moment.commentCount)) == feed[i]
  {
    UpdateFirst(feed, HasId(momentId), CommentStep(up))
  }

  /** `updateMomentRepostStatus`. */
  function UpdateRepostStatus(feed: seq<FeedMoment>, momentId: Id, reposted: bool): (r: seq<FeedMoment>)
    ensures |r| == |feed|
    ensures FindIndex(feed, HasId(momentId)) == -1 ==> r == feed
    ensures forall j :: 0 <= j < |feed| && j != FindIndex(feed, HasId(momentId)) ==> r[j] == feed[j]
    ensures var i := FindIndex(feed, HasId(momentId));
      0 <= i ==>
        && r[i].reposted == reposted
        && r[i].moment.repostCount == Bump(feed[i].moment.repostCount, reposted)
        && r[i].(reposted := feed[i].reposted, moment := r[i].moment.(repostCount := feed[i].moment.repostCount)) == feed[i]
  {
    UpdateFirst(feed, HasId(momentId), RepostStep(reposted))
  }

  /** No mirrored count in the feed is negative. */
  ghost predicate CountsNonNegative(feed: seq<FeedMoment>)
  {
    forall x :: x in feed ==>
      x.moment.likeCount >= 0 && x.moment.commentCount >= 0 && x.moment.repostCount >= 0
  }

  /** Every status or count update keeps the mirrored counts non-negative. */
  lemma UpdatesKeepCountsNonNegative(feed: seq<FeedMoment>, momentId: Id, flag: bool)
    requires CountsNonNegative(feed)
    ensures CountsNonNegative(UpdateLikeStatus(feed, momentId, flag))
    ensures CountsNonNegative(UpdateCommentCount(feed, momentId, flag))
    ensures CountsNonNegative(UpdateRepostStatus(feed, momentId, flag))
  {
    var i := FindIndex(feed, HasId(momentId));
    if 0 <= i {
      assert feed[i] in feed;
      forall r | r in [UpdateLikeStatus(feed, momentId, flag), UpdateCommentCount(feed, momentId, flag), UpdateRepostStatus(feed, momentId, flag)]
        ensures CountsNonNegative(r)
      {
        forall x | x in r
          ensures x.moment.likeCount >= 0 && x.moment.commentCount >= 0 && x.moment.repostCount >= 0
        {
          var j :| 0 <= j < |r| && r[j] == x;
          if j != i {
            assert feed[j] in feed;
          }
        }
      }
    }
  }

  /** Updates keep each entry's moment id, so the entry found for a moment
      is the same before and after. */
  lemma UpdatesKeepIds(feed: seq<FeedMoment>, momentId: Id, other: Id, flag: bool)
    ensures FindIndex(UpdateLikeStatus(feed, momentId, flag), HasId(other)) == FindIndex(feed, HasId(other))
    ensures FindIndex(UpdateCommentCount(feed, momentId, flag), HasId(other)) == FindIndex(feed, HasId(other))
    ensures FindIndex(UpdateRepostStatus(feed, momentId, flag), HasId(other)) == FindIndex(feed, HasId(other))
  {
    var a := UpdateLikeStatus(feed, momentId, flag);
    var b := UpdateCommentCount(feed, momentId, flag);
    var c := UpdateRepostStatus(feed, momentId, flag);
    assert forall j :: 0 <= j < |feed| ==> a[j].moment.id == feed[j].moment.id;
    assert forall j :: 0 <= j < |feed| ==> b[j].moment.id == feed[j].moment.id;
    assert forall j :: 0 <= j < |feed| ==> c[j].moment.id == feed[j].moment.id;
    SameIdsSameIndex(feed, a, other);
    SameIdsSameIndex(feed, b, other);
    SameIdsSameIndex(feed, c, other);
  }

  lemma {:induction false} SameIdsSameIndex(a: seq<FeedMoment>, b: seq<FeedMoment>, id: Id)
    requires |a| == |b|
    requires forall j :: 0 <= j < |a| ==> a[j].moment.id == b[j].moment.id
    ensures FindIndex(a, HasId(id)) == FindIndex(b, HasId(id))
  {
    if |a| > 0 {
      SameIdsSameIndex(a[1..], b[1..], id);
    }
  }

  /** Liking and then unliking a moment shown as not liked, with a
      non-negative count, restores the feed exactly. */
  lemma LikeStatusRoundTrip(feed: seq<FeedMoment>, momentId: Id)
    requires CountsNonNegative(feed)
    requires forall x :: x in feed && x.moment.id == momentId ==> !x.liked
    ensures UpdateLikeStatus(UpdateLikeStatus(feed, momentId, true), momentId, false) == feed
  {
    var a := UpdateLikeStatus(feed, momentId, true);
    var b := UpdateLikeStatus(a, momentId, false);
    var i := FindIndex(feed, HasId(momentId));
    UpdatesKeepIds(feed, momentId, momentId, true);
    if 0 <= i {
      assert feed[i] in feed;
      assert b[i] == feed[i];
    }
  }

  /** Reposting and then removing the repost restores the feed the same
      way. */
  lemma RepostStatusRoundTrip(feed: seq<FeedMoment>, momentId: Id)
    requires CountsNonNegative(feed)
    requires forall x :: x in feed && x.moment.id == momentId ==> !x.reposted
    ensures UpdateRepostStatus(UpdateRepostStatus(feed, momentId, true), momentId, false) == feed
  {
    var a := UpdateRepostStatus(feed, momentId, true);
    var b := UpdateRepostStatus(a, momentId, false);
    var i := FindIndex(feed, HasId(momentId));
    UpdatesKeepIds(feed, momentId, momentId, true);
    if 0 <= i {
      assert feed[i] in feed;
      assert b[i] == feed[i];
    }
  }

  /** A comment added and removed leaves the counts as they were. */
  lemma CommentCountRoundTrip(feed: seq<FeedMoment>, momentId: Id)
    requires CountsNonNegative(feed)
    ensures UpdateCommentCount(UpdateCommentCount(feed, momentId, true), momentId, false) == feed
  {
    var a := UpdateCommentCount(feed, momentId, true);
    var b := UpdateCommentCount(a, momentId, false);
    var i := FindIndex(feed, HasId(momentId));
    UpdatesKeepIds(feed, momentId, momentId, true);
    if 0 <= i {
      assert feed[i] in feed;
      assert b[i] == feed[i];
    }
  }

  // ---------------------------------------------------------------------
  // Fetches
  // ---------------------------------------------------------------------

  /** The guard of `fetchFollowingMoments`: nothing in flight, and either a
      forced refresh or an empty list. */
  predicate MayFetchFollowing(s: SocialState, force: bool)
  {
    !s.loadingFollowingMoments && (force || |s.followingMoments| == 0)
  }

  /** The synchronous part of `fetchFollowingMoments`: `None` when it
      returns early, otherwise the state with the loading flag raised. */
  function BeginFetchFollowing(s: SocialState, force: bool): (r: Option<SocialState>)
    ensures r.Some? <==> MayFetchFollowing(s, force)
    ensures r.Some? ==> r.value == s.(loadingFollowingMoments := true)
  {
    if s.loadingFollowingMoments then None
    else if !force && |s.followingMoments| > 0 then None
    else Some(s.(loadingFollowingMoments := true))
  }

  /** The completion of `fetchFollowingMoments`: the list is replaced on
      success and kept on failure; the flag is lowered either way. */
  function EndFetchFollowing(s: SocialState, result: Outcome<seq<FeedMoment>>): (r: SocialState)
    ensures !r.loadingFollowingMoments
    ensures result.Success? ==> r.followingMoments == result.value
    ensures result.Failure? ==> r.followingMoments == s.followingMoments
    ensures r.(followingMoments := s.followingMoments, loadingFollowingMoments := s.loadingFollowingMoments) == s
  {
    match result
    case Success(moments) => s.(followingMoments := moments, loadingFollowingMoments := false)
    case Failure(_) => s.(loadingFollowingMoments := false)
  }

  /** A fetch in flight turns away every other fetch of the feed, forced
      or not. */
  lemma FollowingSingleFlight(s: SocialState, force: bool, again: bool)
    requires BeginFetchFollowing(s, force).Some?
    ensures BeginFetchFollowing(BeginFetchFollowing(s, force).value, again).None?
  {
  }

  /** `fetchFollowingMoments(forceRefresh)` run to completion against the
      remote state. */
  function FetchFollowingMoments(s: SocialState, db: Db, env: Env, force: bool): (r: SocialState)
    ensures !MayFetchFollowing(s, force) ==> r == s
    ensures MayFetchFollowing(s, force) ==>
      var got := Svc.GetFollowingMoments(db, env);
      && !r.loadingFollowingMoments
      && (got.Failure? ==> r == s)
      && (got.Success? ==> r == s.(followingMoments := got.value))
  {
    match BeginFetchFollowing(s, force)
    case None => s
    case Some(busy) => EndFetchFollowing(busy, Svc.GetFollowingMoments(db, env))
  }

  /** Once the feed holds entries, an unforced fetch changes nothing. */
  lemma NoRefetchWhenLoaded(s: SocialState, db: Db, env: Env, db2: Db, env2: Env)
    requires MayFetchFollowing(s, true)
    requires Svc.GetFollowingMoments(db, env).Success?
    requires |Svc.GetFollowingMoments(db, env).value| > 0
    ensures var t := FetchFollowingMoments(s, db, env, true);
            FetchFollowingMoments(t, db2, env2, false) == t
  {
  }

  /** The synchronous part of `fetchRecommendedUsers`: only one at a time,
      with no "already have data" check. */
  function BeginFetchRecommended(s: SocialState): (r: Option<SocialState>)
    ensures r.Some? <==> !s.loadingRecommendedUsers
    ensures r.Some? ==> r.value == s.(loadingRecommendedUsers := true)
  {
    if s.loadingRecommendedUsers then None else Some(s.(loadingRecommendedUsers := true))
  }

  /** `fetchRecommendedUsers(limit)` run to completion. */
  function FetchRecommendedUsers(s: SocialState, db: Db, env: Env, limit: nat): (r: SocialState)
    ensures s.loadingRecommendedUsers ==> r == s
    ensures !s.loadingRecommendedUsers ==>
      var got := GetRecommendedUsers(db, env, limit);
      && !r.loadingRecommendedUsers
      && (got.Failure? ==> r == s)
      && (got.Success? ==> r == s.(recommendedUsers := Entries(got.value)))
  {
    match BeginFetchRecommended(s)
    case None => s
    case Some(busy) =>
      match GetRecommendedUsers(db, env, limit)
      case Success(users) => busy.(recommendedUsers := Entries(users), loadingRecommendedUsers := false)
      case Failure(_) => busy.(loadingRecommendedUsers := false)
  }

  /** After a successful fetch the list holds at most `limit` entries and
      none of them is the caller or, when the follows read worked, anyone
      the caller follows. */
  lemma RecommendedAfterFetch(s: SocialState, db: Db, env: Env, limit: nat)
    requires !s.loadingRecommendedUsers
    requires GetRecommendedUsers(db, env, limit).Success?
    ensures var r := FetchRecommendedUsers(s, db, env, limit);
            && |r.recommendedUsers| <= limit
            && (forall e :: e in r.recommendedUsers && EntryId(e).Some? ==>
                  EntryId(e).value != env.user.value
                  && (!Fails(env, FollowingsQuery) ==> !Svc.Follows(db, env.user.value, EntryId(e).value)))
  {
    var got := GetRecommendedUsers(db, env, limit).value;
    var es := Entries(got);
    forall e | e in es && EntryId(e).Some?
      ensures EntryId(e).value in got.Ids()
    {
      var i :| 0 <= i < |es| && es[i] == e;
    }
  }

  /** A list fetch (`fetchComments`, `fetchReposts`) run to completion
      against the listing the service returned: `None` when another fetch
      of the same list is in flight; otherwise the listing, or the empty
      list on failure, which then leaves the stored list as it was. */
  function FetchComments(s: SocialState, got: Outcome<seq<CommentRow>>): (r: (Option<seq<CommentRow>>, SocialState))
    ensures s.loadingComments ==> r == (None, s)
    ensures !s.loadingComments ==>
      && r.1.(comments := s.comments) == s
      && (got.Success? ==> r.0 == Some(got.value) && r.1.comments == got.value)
      && (got.Failure? ==> r.0 == Some([]) && r.1.comments == s.comments)
  {
    if s.loadingComments then (None, s)
    else
      match got
      case Success(cs) => (Some(cs), s.(comments := cs))
      case Failure(_) => (Some([]), s)
  }

  function FetchReposts(s: SocialState, got: Outcome<seq<RepostRow>>): (r: (Option<seq<RepostRow>>, SocialState))
    ensures s.loadingReposts ==> r == (None, s)
    ensures !s.loadingReposts ==>
      && r.1.(reposts := s.reposts) == s
      && (got.Success? ==> r.0 == Some(got.value) && r.1.reposts == got.value)
      && (got.Failure? ==> r.0 == Some([]) && r.1.reposts == s.reposts)
  {
    if s.loadingReposts then (None, s)
    else
      match got
      case Success(ps) => (Some(ps), s.(reposts := ps))
      case Failure(_) => (Some([]), s)
  }

  // ---------------------------------------------------------------------
  // Actions
  // ---------------------------------------------------------------------

  /** What a store action returns, the store afterwards, and the remote
      state the service call left. */
  datatype Step<T> = Step(value: T, state: SocialState, db: Db)

  /** `likeMoment`: true and the local mirror updated exactly when the
      service call succeeds; false and the store untouched otherwise. */
  function LikeMoment(s: SocialState, db: Db, env: Env, momentId: Id): (r: Step<bool>)
    ensures r.db == Svc.LikeMoment(db, env, momentId).db
    ensures r.value <==> Svc.LikeMoment(db, env, momentId).out.Success?
    ensures !r.value ==> r.state == s
    ensures r.value ==> r.state == s.(followingMoments := UpdateLikeStatus(s.followingMoments, momentId, true))
  {
    var call := Svc.LikeMoment(db, env, momentId);
    if call.out.Failure? then Step(false, s, call.db)
    else Step(true, s.(followingMoments := UpdateLikeStatus(s.followingMoments, momentId, true)), call.db)
  }

  /** `unlikeMoment`. */
  function UnlikeMoment(s: SocialState, db: Db, env: Env, momentId: Id): (r: Step<bool>)
    ensures r.db == Svc.UnlikeMoment(db, env, momentId).db
    ensures r.value <==> Svc.UnlikeMoment(db, env, momentId).out.Success?
    ensures !r.value ==> r.state == s
    ensures r.value ==> r.state == s.(followingMoments := UpdateLikeStatus(s.followingMoments, momentId, false))
  {
    var call := Svc.UnlikeMoment(db, env, momentId);
    if call.out.Failure? then Step(false, s, call.db)
    else Step(true, s.(followingMoments := UpdateLikeStatus(s.followingMoments, momentId, false)), call.db)
  }

  /** `createComment`: the new comment goes in front of the list and the
      moment's mirrored count goes up; `null` on failure. */
  function CreateComment(s: SocialState, db: Db, env: Env, momentId: Id, content: string): (r: Step<Option<CommentRow>>)
    ensures r.db == Svc.CreateComment(db, env, momentId, content).db
    ensures r.value.Some? <==> Svc.CreateComment(db, env, momentId, content).out.Success?
    ensures r.value.None? ==> r.state == s
    ensures r.value.Some? ==>
      && r.value.value == Svc.CreateComment(db, env, momentId, content).out.value
      && r.state.comments == [r.value.value] + s.comments
      && r.state.followingMoments == UpdateCommentCount(s.followingMoments, momentId, true)
      && r.state.(comments := s.comments, followingMoments := s.followingMoments) == s
  {
    var call := Svc.CreateComment(db, env, momentId, content);
    match call.out
    case Failure(_) => Step(None, s, call.db)
    case Success(c) =>
      Step(Some(c), s.(comments := [c] + s.comments,
                       followingMoments := UpdateCommentCount(s.followingMoments, momentId, true)), call.db)
  }

  function CommentIdIsNot(commentId: Id): CommentRow -> bool
  {
    (c: CommentRow) => c.id != commentId
  }

  /** `deleteComment(commentId, momentId)`: every listed comment with that
      id goes, the rest keep their order, and the count of the moment the
      caller names goes down. */
  function DeleteComment(s: SocialState, db: Db, env: Env, commentId: Id, momentId: Id): (r: Step<bool>)
    ensures r.db == Svc.DeleteComment(db, env, commentId).db
    ensures r.value <==> Svc.DeleteComment(db, env, commentId).out.Success?
    ensures !r.value ==> r.state == s
    ensures r.value ==>
      && (forall c :: c in r.state.comments <==> c in s.comments && c.id != commentId)
      && (forall c :: multiset(r.state.comments)[c] == if c.id != commentId then multiset(s.comments)[c] else 0)
      && IsSubseq(r.state.comments, s.comments)
      && r.state.followingMoments == UpdateCommentCount(s.followingMoments, momentId, false)
      && r.state.(comments := s.comments, followingMoments := s.followingMoments) == s
  {
    var call := Svc.DeleteComment(db, env, commentId);
    if call.out.Failure? then Step(false, s, call.db)
    else
      FilterMultiset(s.comments, CommentIdIsNot(commentId));
      Step(true, s.(comments := Filter(s.comments, CommentIdIsNot(commentId)),
                    followingMoments := UpdateCommentCount(s.followingMoments, momentId, false)), call.db)
  }

  /** `createRepost`. */
  function CreateRepost(s: SocialState, db: Db, env: Env, momentId: Id, content: Option<string>): (r: Step<Option<RepostRow>>)
    ensures r.db == Svc.CreateRepost(db, env, momentId, content).db
    ensures r.value.Some? <==> Svc.CreateRepost(db, env, momentId, content).out.Success?
    ensures r.value.None? ==> r.state == s
    ensures r.value.Some? ==>
      && r.value.value == Svc.CreateRepost(db, env, momentId, content).out.value
      && r.state.reposts == [r.value.value] + s.reposts
      && r.state.followingMoments == UpdateRepostStatus(s.followingMoments, momentId, true)
      && r.state.(reposts := s.reposts, followingMoments := s.followingMoments) == s
  {
    var call := Svc.CreateRepost(db, env, momentId, content);
    match call.out
    case Failure(_) => Step(None, s, call.db)
    case Success(p) =>
      Step(Some(p), s.(reposts := [p] + s.reposts,
                       followingMoments := UpdateRepostStatus(s.followingMoments, momentId, true)), call.db)
  }

  function RepostIdIsNot(repostId: Id): RepostRow -> bool
  {
    (p: RepostRow) => p.id != repostId
  }

  /** `deleteRepost(repostId, momentId)`. */
  function DeleteRepost(s: SocialState, db: Db, env: Env, repostId: Id, momentId: Id): (r: Step<bool>)
    ensures r.db == Svc.DeleteRepost(db, env, repostId).db
    ensures r.value <==> Svc.DeleteRepost(db, env, repostId).out.Success?
    ensures !r.value ==> r.state == s
    ensures r.value ==>
      && (forall p :: p in r.state.reposts <==> p in s.reposts && p.id != repostId)
      && (forall p :: multiset(r.state.reposts)[p] == if p.id != repostId then multiset(s.reposts)[p] else 0)
      && IsSubseq(r.state.reposts, s.reposts)
      && r.state.followingMoments == UpdateRepostStatus(s.followingMoments, momentId, false)
      && r.state.(reposts := s.reposts, followingMoments := s.followingMoments) == s
  {
    var call := Svc.DeleteRepost(db, env, repostId);
    if call.out.Failure? then Step(false, s, call.db)
    else
      FilterMultiset(s.reposts, RepostIdIsNot(repostId));
      Step(true, s.(reposts := Filter(s.reposts, RepostIdIsNot(repostId)),
                    followingMoments := UpdateRepostStatus(s.followingMoments, momentId, false)), call.db)
  }

  /** Commenting on a moment and then deleting that comment by the id it
      got, as the same user, restores the store: the list and the feed
      counts are as before, and so is every remote table. */
  lemma CommentListRoundTrip(s: SocialState, db: Db, env: Env, later: Env, momentId: Id, content: string)
    requires env.user.Some? && !Fails(env, Write)
    requires later.user == env.user && !Fails(later, Write) && !Fails(later, Lookup)
    requires forall c :: c in db.comments ==> c.id != env.freshId
    requires forall c :: c in s.comments ==> c.id != env.freshId
    requires CountsNonNegative(s.followingMoments)
    ensures var a := CreateComment(s, db, env, momentId, content);
            var b := DeleteComment(a.state, a.db, later, env.freshId, momentId);
            && a.value.Some? && b.value
            && b.state == s
            && b.db.(counters := db.counters) == db
  {
    Svc.CommentThenDelete(db, env, later, momentId, content);
    var a := CreateComment(s, db, env, momentId, content);
    var c := a.value.value;
    var keep := CommentIdIsNot(env.freshId);
    assert c.id == env.freshId;
    assert Filter([c] + s.comments, keep) == s.comments by {
      FilterAppend([c], s.comments, keep);
      FilterKeepsAll(s.comments, keep);
    }
    CommentCountRoundTrip(s.followingMoments, momentId);
    var b := DeleteComment(a.state, a.db, later, env.freshId, momentId);
    assert b.state.comments == s.comments;
    assert b.state.followingMoments == s.followingMoments;
  }

  /** Reposting a moment shown as not reposted and then deleting that
      repost restores the store in the same way. */
  lemma RepostListRoundTrip(s: SocialState, db: Db, env: Env, later: Env, momentId: Id, content: Option<string>)
    requires env.user.Some? && !Fails(env, Write)
    requires later.user == env.user && !Fails(later, Write) && !Fails(later, Lookup)
    requires forall p :: p in db.reposts ==> !Svc.IsRepostOf(p, env.user.value, momentId)
    requires forall p :: p in db.reposts ==> p.id != env.freshId
    requires forall p :: p in s.reposts ==> p.id != env.freshId
    requires CountsNonNegative(s.followingMoments)
    requires forall x :: x in s.followingMoments && x.moment.id == momentId ==> !x.reposted
    ensures var a := CreateRepost(s, db, env, momentId, content);
            var b := DeleteRepost(a.state, a.db, later, env.freshId, momentId);
            && a.value.Some? && b.value
            && b.state == s
            && b.db.(counters := db.counters) == db
  {
    Svc.RepostThenDelete(db, env, later, momentId, content);
    var a := CreateRepost(s, db, env, momentId, content);
    var p := a.value.value;
    var keep := RepostIdIsNot(env.freshId);
    assert Filter([p] + s.reposts, keep) == s.reposts by {
      FilterAppend([p], s.reposts, keep);
      FilterKeepsAll(s.reposts, keep);
    }
    RepostStatusRoundTrip(s.followingMoments, momentId);
  }

  /** The recommended entry for user `userId` (`u.id === userId`). */
  function IsEntryFor(userId: UserId): Entry -> bool
  {
    (e: Entry) => EntryId(e) == Some(userId)
  }

  /** The recommended list without its first entry for `userId`
      (`findIndex` then `splice(index, 1)`). */
  function DropRecommended(users: seq<Entry>, userId: UserId): (r: seq<Entry>)
    ensures (forall e :: e in users ==> EntryId(e) != Some(userId)) ==> r == users
    ensures forall i :: (0 <= i < |users| && EntryId(users[i]) == Some(userId) &&
                         (forall j :: 0 <= j < i ==> EntryId(users[j]) != Some(userId))) ==>
                        r == users[..i] + users[i + 1..]
    ensures (exists e :: e in users && EntryId(e) == Some(userId)) ==> |r| == |users| - 1
    ensures multiset(r) <= multiset(users)
  {
    var i := FindIndex(users, IsEntryFor(userId));
    assert i == -1 ==> forall e :: e in users ==> EntryId(e) != Some(userId);
    if i == -1 then users
    else
      assert users == users[..i] + [users[i]] + users[i + 1..];
      FirstEntryFound(users, userId);
      RemoveAt(users, i)
  }

  /** The first entry for `userId` is the one `findIndex` finds. */
  lemma FirstEntryFound(users: seq<Entry>, userId: UserId)
    ensures forall k :: (0 <= k < |users| && EntryId(users[k]) == Some(userId) &&
                         (forall j :: 0 <= j < k ==> EntryId(users[j]) != Some(userId))) ==>
                        k == FindIndex(users, IsEntryFor(userId))
  {
    forall k | 0 <= k < |users| && EntryId(users[k]) == Some(userId) &&
               (forall j :: 0 <= j < k ==> EntryId(users[j]) != Some(userId))
      ensures k == FindIndex(users, IsEntryFor(userId))
    {
      FirstMatchFound(users, IsEntryFor(userId), k);
    }
  }

  /** Dropping the first entry for a user leaves none for that user when
      the list had at most one. */
  lemma DropRecommendedRemovesUser(users: seq<Entry>, userId: UserId)
    requires Count(users, IsEntryFor(userId)) <= 1
    ensures forall e :: e in DropRecommended(users, userId) ==> EntryId(e) != Some(userId)
  {
    var p := IsEntryFor(userId);
    var i := FindIndex(users, p);
    if i != -1 {
      RemoveOnlyMatch(users, p, i);
      assert DropRecommended(users, userId) == RemoveAt(users, i);
    }
  }

  /** `followUser`: on success the user's entry leaves the recommended
      list and the feed is refetched with a forced refresh against the
      updated remote state; the refetch catches its own errors, so the
      action reports true. */
  function FollowUser(s: SocialState, db: Db, env: Env, userId: UserId): (r: Step<bool>)
    ensures r.db == Svc.FollowUser(db, env, userId).db
    ensures r.value <==> Svc.FollowUser(db, env, userId).out.Success?
    ensures !r.value ==> r.state == s
    ensures r.value ==>
      r.state == FetchFollowingMoments(s.(recommendedUsers := DropRecommended(s.recommendedUsers, userId)), r.db, env, true)
  {
    var call := Svc.FollowUser(db, env, userId);
    if call.out.Failure? then Step(false, s, call.db)
    else
      var dropped := s.(recommendedUsers := DropRecommended(s.recommendedUsers, userId));
      Step(true, FetchFollowingMoments(dropped, call.db, env, true), call.db)
  }

  /** After a successful follow with nothing else loading the feed, the
      feed is what the service now reports, and that includes the moments
      of the newly followed user. */
  lemma FollowRefreshesFeed(s: SocialState, db: Db, env: Env, userId: UserId)
    requires !s.loadingFollowingMoments
    requires !Fails(env, FollowingsQuery) && !Fails(env, FeedQuery)
    requires Svc.FollowUser(db, env, userId).out.Success?
    ensures var r := FollowUser(s, db, env, userId);
            && r.value
            && !r.state.loadingFollowingMoments
            && (forall m :: m in r.db.moments && m.userId == userId ==>
                  exists x :: x in r.state.followingMoments && x.moment == m)
  {
    var call := Svc.FollowUser(db, env, userId);
    var me := env.user.value;
    assert call.db.follows == db.follows + [FollowRow(me, userId, env.now)];
    assert Svc.Follows(call.db, me, userId) by {
      assert FollowRow(me, userId, env.now) in call.db.follows;
    }
    assert Svc.FollowingIds(call.db, me) != [] by {
      assert userId in Svc.FollowingIds(call.db, me);
    }
    var got := Svc.GetFollowingMoments(call.db, env);
    assert got.Success?;
  }

  /** The feed entry was written by `userId`, as far as the join shows
      (`m.user?.id === userId`). */
  function ByAuthor(userId: UserId): FeedMoment -> bool
  {
    (x: FeedMoment) => x.author.Some? && x.author.value.id == userId
  }

  function NotByAuthor(userId: UserId): FeedMoment -> bool
  {
    (x: FeedMoment) => !ByAuthor(userId)(x)
  }

  /** `unfollowUser`: on success the user's moments leave the feed and
      the others keep their order; entries without a joined author stay. */
  function UnfollowUser(s: SocialState, db: Db, env: Env, userId: UserId): (r: Step<bool>)
    ensures r.db == Svc.UnfollowUser(db, env, userId).db
    ensures r.value <==> Svc.UnfollowUser(db, env, userId).out.Success?
    ensures !r.value ==> r.state == s
    ensures r.value ==>
      && (forall x :: x in r.state.followingMoments <==> x in s.followingMoments && !ByAuthor(userId)(x))
      && (forall x :: multiset(r.state.followingMoments)[x] ==
            if ByAuthor(userId)(x) then 0 else multiset(s.followingMoments)[x])
      && IsSubseq(r.state.followingMoments, s.followingMoments)
      && r.state.(followingMoments := s.followingMoments) == s
  {
    var call := Svc.UnfollowUser(db, env, userId);
    if call.out.Failure? then Step(false, s, call.db)
    else
      FilterMultiset(s.followingMoments, NotByAuthor(userId));
      Step(true, s.(followingMoments := Filter(s.followingMoments, NotByAuthor(userId))), call.db)
  }

  /** A feed as the service builds it loses, on unfollow, exactly the
      moments whose author has a profile and is the unfollowed user. */
  lemma UnfollowDropsAuthorsMoments(s: SocialState, db: Db, env: Env, userId: UserId)
    requires Svc.UnfollowUser(db, env, userId).out.Success?
    requires forall x :: x in s.followingMoments ==> x.author == ProfileOf(db, x.moment.userId)
    ensures forall x :: x in UnfollowUser(s, db, env, userId).state.followingMoments <==>
      x in s.followingMoments && (x.moment.userId != userId || forall p :: p in db.profiles ==> p.id != userId)
  {
  }
}

=== FILE: sorting.dfy ===
/** A stable sort by an integer key, largest key first. It stands for
    `Array.prototype.sort((a, b) => b.weight - a.weight)`, which is stable
    since the 2019 edition of ECMA-262, and for the remote store's
    `order(column, { ascending: false })`. */
module Sorting {
  import opened Seqs

  /** `s` is ordered by `key`, largest first. */
  ghost predicate SortedDesc<T>(s: seq<T>, key: T -> int)
  {
    forall i, j :: 0 <= i < j < |s| ==> key(s[i]) >= key(s[j])
  }

  /** The elements of `s` whose key is `k`, in their order in `s`. A sort is
      stable exactly when it leaves this sequence unchanged for every `k`. */
  function WithKey<T>(s: seq<T>, key: T -> int, k: int): (r: seq<T>)
    ensures |r| <= |s|
    ensures forall i :: 0 <= i < |r| ==> key(r[i]) == k
  {
    if |s| == 0 then []
    else (if key(s[0]) == k then [s[0]] else []) + WithKey(s[1..], key, k)
  }

  /** Places `x` before the first element whose key is not larger than its
      own; on a sorted `s` that keeps the result sorted (`InsertSorted`). */
  function Insert<T(!new)>(x: T, s: seq<T>, key: T -> int): (r: seq<T>)
    ensures multiset(r) == multiset(s) + multiset{x}
    ensures forall y :: y in r <==> y == x || y in s
  {
    if |s| == 0 || key(s[0]) <= key(x) then [x] + s
    else
      assert s == [s[0]] + s[1..];
      [s[0]] + Insert(x, s[1..], key)
  }

  lemma {:induction false} InsertSorted<T(!new)>(x: T, s: seq<T>, key: T -> int)
    requires SortedDesc(s, key)
    ensures SortedDesc(Insert(x, s, key), key)
  {
    if |s| > 0 && key(s[0]) > key(x) {
      var rest := Insert(x, s[1..], key);
      InsertSorted(x, s[1..], key);
      var r := [s[0]] + rest;
      assert Insert(x, s, key) == r;
      HeadBoundsRest(s, key);
      assert forall y :: y in rest ==> key(s[0]) >= key(y);
      forall i, j | 0 <= i < j < |r|
        ensures key(r[i]) >= key(r[j])
      {
        assert r[j] == rest[j - 1];
        if i > 0 {
          assert r[i] == rest[i - 1];
        }
      }
    }
  }

  /** The head of a sorted sequence has a key no smaller than any later element's. */
  lemma HeadBoundsRest<T>(s: seq<T>, key: T -> int)
    requires SortedDesc(s, key) && |s| > 0
    ensures forall y :: y in s[1..] ==> key(s[0]) >= key(y)
  {
    forall y | y in s[1..]
      ensures key(s[0]) >= key(y)
    {
      var j :| 0 <= j < |s[1..]| && s[1..][j] == y;
      assert s[j + 1] == y;
    }
  }

  /** `s` ordered by `key`, largest first; equal keys keep their order
      (`SortStable`). */
  function SortDesc<T(!new)>(s: seq<T>, key: T -> int): (r: seq<T>)
    ensures SortedDesc(r, key)
    ensures multiset(r) == multiset(s)
    ensures |r| == |s|
  {
    if |s| == 0 then []
    else
      var sorted := SortDesc(s[1..], key);
      InsertSorted(s[0], sorted, key);
      assert s == [s[0]] + s[1..];
      Insert(s[0], sorted, key)
  }

  /** Inserting `x` adds it in front of the entries that share its key. */
  lemma {:induction false} InsertStable<T(!new)>(x: T, s: seq<T>, key: T -> int, k: int)
    requires SortedDesc(s, key)
    ensures WithKey(Insert(x, s, key), key, k) == (if key(x) == k then [x] else []) + WithKey(s, key, k)
  {
    var r := Insert(x, s, key);
    if |s| == 0 || key(s[0]) <= key(x) {
      assert r[0] == x && r[1..] == s;
    } else {
      var rest := Insert(x, s[1..], key);
      assert r[0] == s[0] && r[1..] == rest;
      InsertStable(x, s[1..], key, k);
    }
  }

  /** The sort is stable: for every key, the entries with that key appear in
      the output in the order they had in the input. */
  lemma {:induction false} SortStable<T(!new)>(s: seq<T>, key: T -> int, k: int)
    ensures WithKey(SortDesc(s, key), key, k) == WithKey(s, key, k)
  {
    if |s| > 0 {
      SortStable(s[1..], key, k);
      InsertStable(s[0], SortDesc(s[1..], key), key, k);
    }
  }

  /** Cutting a sequence short cuts each key's sub-sequence short: the
      entries of weight `k` that survive `Take` are the first ones of
      weight `k`, in order. */
  lemma {:induction false} WithKeyOfPrefix<T>(a: seq<T>, b: seq<T>, key: T -> int, k: int)
    requires a <= b
    ensures WithKey(a, key, k) <= WithKey(b, key, k)
  {
    if |a| > 0 {
      assert a[1..] <= b[1..];
      WithKeyOfPrefix(a[1..], b[1..], key, k);
    }
  }

  /** A prefix of a sorted sequence is sorted. */
  lemma TakeSorted<T>(s: seq<T>, key: T -> int, n: nat)
    requires SortedDesc(s, key)
    ensures SortedDesc(Take(s, n), key)
  {
    var r := Take(s, n);
    assert forall i :: 0 <= i < |r| ==> r[i] == s[i];
  }

  /** The `n` entries of `s` with the largest keys, largest first, equal keys
      in their order in `s`: `sort` followed by `slice(0, n)`, or a query's
      `order(..., { ascending: false })` followed by `limit(n)`. */
  function TopBy<T(!new)>(s: seq<T>, key: T -> int, n: nat): (r: seq<T>)
    ensures |r| == if n < |s| then n else |s|
    ensures SortedDesc(r, key)
    ensures multiset(r) <= multiset(s)
    ensures |r| < n ==> multiset(r) == multiset(s)
    ensures forall x :: x in r ==> x in s
    ensures |r| < n ==> forall x :: x in s ==> x in r
    ensures forall x, y :: x in s && x !in r && y in r ==> key(y) >= key(x)
  {
    var sorted := SortDesc(s, key);
    TakeSorted(sorted, key, n);
    var r := Take(sorted, n);
    assert forall x :: x in r ==> x in s by {
      forall x | x in r
        ensures x in s
      {
        assert x in multiset(r);
      }
    }
    assert |r| < n ==> forall x :: x in s ==> x in r by {
      if |r| < n {
        forall x | x in s
          ensures x in r
        {
          assert x in multiset(s);
        }
      }
    }
    forall x, y | x in s && x !in r && y in r
      ensures key(y) >= key(x)
    {
      assert x in multiset(sorted);
      TakeKeepsLargest(sorted, key, n, x, y);
    }
    r
  }

  /** Entries of equal key leave `TopBy` in their input order, and the ones
      kept are the first ones of that key. */
  lemma TopByStable<T(!new)>(s: seq<T>, key: T -> int, n: nat, k: int)
    ensures WithKey(TopBy(s, key, n), key, k) <= WithKey(s, key, k)
  {
    SortStable(s, key, k);
    WithKeyOfPrefix(Take(SortDesc(s, key), n), SortDesc(s, key), key, k);
  }

  /** Keeping the first `n` entries of a sorted sequence keeps the largest
      ones: whatever is dropped weighs no more than anything kept. */
  lemma TakeKeepsLargest<T>(s: seq<T>, key: T -> int, n: nat, x: T, y: T)
    requires SortedDesc(s, key)
    requires x in s && x !in Take(s, n)
    requires y in Take(s, n)
    ensures key(y) >= key(x)
  {
  }
}

=== FILE: strings.dfy ===
/** JavaScript's relational comparison of strings (`<=`, and the default
    comparator of `Array.prototype.sort`): character by character, a proper
    prefix first. Characters are compared by their code; the model does not
    distinguish UTF-16 code units from code points. */
module Strings {
  import opened Seqs

  /** `a <= b` on strings. */
  predicate StrLe(a: string, b: string)
    decreases |a|
  {
    |a| == 0 || (|b| > 0 && (a[0] < b[0] || (a[0] == b[0] && StrLe(a[1..], b[1..]))))
  }

  /** `a < b` on strings. */
  predicate StrLt(a: string, b: string)
  {
    !StrLe(b, a)
  }

  lemma {:induction false} StrLeTotal(a: string, b: string)
    ensures StrLe(a, b) || StrLe(b, a)
    decreases |a|
  {
    if |a| > 0 && |b| > 0 && a[0] == b[0] {
      StrLeTotal(a[1..], b[1..]);
    }
  }

  lemma {:induction false} StrLeAntisymmetric(a: string, b: string)
    requires StrLe(a, b) && StrLe(b, a)
    ensures a == b
    decreases |a|
  {
    if |a| > 0 {
      StrLeAntisymmetric(a[1..], b[1..]);
      assert a == [a[0]] + a[1..] && b == [b[0]] + b[1..];
    }
  }

  lemma {:induction false} StrLeTransitive(a: string, b: string, c: string)
    requires StrLe(a, b) && StrLe(b, c)
    ensures StrLe(a, c)
    decreases |a|
  {
    if |a| > 0 && a[0] == b[0] && b[0] == c[0] {
      StrLeTransitive(a[1..], b[1..], c[1..]);
    }
  }

  lemma StrLtTransitive(a: string, b: string, c: string)
    requires StrLt(a, b) && StrLt(b, c)
    ensures StrLt(a, c)
  {
    StrLeTotal(a, b);
    StrLeTotal(b, c);
    if StrLe(c, a) {
      StrLeTransitive(c, a, b);
    }
  }

  lemma StrLtIrreflexive(a: string)
    ensures !StrLt(a, a)
  {
    StrLeTotal(a, a);
  }

  /** `s` is in increasing string order with no repetition. */
  ghost predicate StrictlySorted(s: seq<string>)
  {
    forall i, j :: 0 <= i < j < |s| ==> StrLt(s[i], s[j])
  }

  /** Adds `t` at its place in a strictly sorted sequence, unless present. */
  function InsertStr(t: string, s: seq<string>): (r: seq<string>)
    requires StrictlySorted(s)
    ensures StrictlySorted(r)
    ensures forall x :: x in r <==> x == t || x in s
  {
    if |s| == 0 then [t]
    else if t == s[0] then s
    else if StrLt(t, s[0]) then
      var r := [t] + s;
      forall i, j | 0 <= i < j < |r|
        ensures StrLt(r[i], r[j])
      {
        if i == 0 && j > 1 {
          StrLtTransitive(t, s[0], s[j - 1]);
        }
      }
      r
    else
      assert StrLt(s[0], t) by {
        if StrLe(t, s[0]) {
          StrLeAntisymmetric(t, s[0]);
        }
      }
      var rest := InsertStr(t, s[1..]);
      var r := [s[0]] + rest;
      forall i, j | 0 <= i < j < |r|
        ensures StrLt(r[i], r[j])
      {
        assert r[j] == rest[j - 1];
        if i > 0 {
          assert r[i] == rest[i - 1];
        } else {
          assert r[j] in rest;
        }
      }
      assert s == [s[0]] + s[1..];
      r
  }

  /** Two strictly sorted sequences with the same elements are equal: a set
      of strings has exactly one sorted listing. */
  lemma {:induction false} StrictlySortedUnique(a: seq<string>, b: seq<string>)
    requires StrictlySorted(a) && StrictlySorted(b)
    requires forall x :: x in a <==> x in b
    ensures a == b
  {
    if |a| == 0 {
      if |b| > 0 {
        HeadIsMember(b);
        assert false;
      }
    } else {
      assert |b| > 0 by {
        assert a[0] in b;
      }
      // The least elements agree.
      if a[0] != b[0] {
        assert a[0] in b && b[0] in a;
        var i :| 0 <= i < |b| && b[i] == a[0];
        var j :| 0 <= j < |a| && a[j] == b[0];
        assert i > 0 && j > 0;
        StrLtTransitive(a[0], b[0], a[0]);
        StrLtIrreflexive(a[0]);
        assert false;
      }
      forall x
        ensures x in a[1..] <==> x in b[1..]
      {
        StrLtIrreflexive(x);
        if x in a[1..] {
          var i :| 1 <= i < |a| && a[i] == x;
          assert x != b[0];
          assert x in b;
          var k :| 0 <= k < |b| && b[k] == x;
          assert b[1..][k - 1] == x;
        }
        if x in b[1..] {
          var i :| 1 <= i < |b| && b[i] == x;
          assert x != a[0];
          assert x in a;
          var k :| 0 <= k < |a| && a[k] == x;
          assert a[1..][k - 1] == x;
        }
      }
      StrictlySortedUnique(a[1..], b[1..]);
      assert a == [a[0]] + a[1..] && b == [b[0]] + b[1..];
    }
  }
}

=== FILE: wrappers.dfy ===
/** Failure-compatible wrappers used throughout the model: an optional value
    (TypeScript's `null` / `undefined`) and a success-or-error result (the
    thrown `Error`). */
module Wrappers {

  /** A value that may be absent. */
  datatype Option<+T> = None | Some(value: T) {

    /** The wrapped value, or `default` when absent (TypeScript's `x || d`
        on a value that is never falsy when present). */
    function GetOr(default: T): T
    {
      match this
      case Some(v) => v
      case None => default
    }
  }

  /** Either a value or the error that a call raised. */
  datatype Result<+R, +E> = Success(value: R) | Failure(error: E) {

    predicate IsFailure()
    {
      Failure?
    }

    function PropagateFailure<U>(): Result<U, E>
      requires Failure?
    {
      Failure(error)
    }

    function Extract(): R
      requires Success?
    {
      value
    }
  }
}
